=== FILE: README.md ===
# RikudouInstaller, modelled in Dafny

RikudouInstaller is a Composer plugin that scaffolds a project from the packages it
installs. A package ships an `.installer/<projectDir>/<version>` tree. When the package
is installed, the plugin detects the project type and selects the handlers that apply to
it. It runs each handler over every version directory newer than the one installed last.
The handlers do four kinds of work:

- copy a `files` tree into the project;
- append a package's `.env` template to the project's env files, inside a marker envelope;
- append a package's `gitignore` template to `.gitignore`, inside the same envelope;
- merge a Symfony bundle map into `config/bundles.php`.

Every change is recorded in the lock file `rikudou.installer.lock`, so that uninstalling
the package can undo it. Each operation run produces a result: an ordered list of
status, warning and error messages plus the extra configuration uninstall will need.

The model is functional:

- Files are an abstract file system: a map from path to file text or directory, plus a
  set of locked paths at which every write fails.
- Every operation is a pure function from a file system to a new file system and an
  operation result.
- The orchestrator is a fold over handlers and versions. A trace of calls is its
  specification.
- PHP semantics are written out where they matter: string truthiness (`""` and `"0"` are
  false), `strpos` with an offset, `array_merge` on string keys, `version_compare`,
  `str_replace`, and the `null` a PHP function returns where an array is declared.
- The outside world is a set of parameters:
  - `require` is a loader function;
  - `uniqid` is the hash;
  - the directory listings are functions;
  - `sha1` is a hash function;
  - the lock file's recursive merge helper is a function.

Modules, one file each:

| module | file | models |
|---|---|---|
| `Wrappers` | wrappers.dfy | `Option`, `Result` and the PHP exceptions the core throws |
| `Strings` | strings.dfy | `strpos`, `explode`/`implode`, `str_replace` of one character |
| `FileSystems` | filesystem.dfy | `file_exists`, `is_file`, `is_dir`, `file_put_contents`, `touch`, `mkdir`, `copy`, `unlink`, `@rmdir` |
| `Messages`, `MessagesCollections` | messages.dfy | `Message`, `MessageType`, `MessagesCollection` |
| `Results` | operation_result.dfy | `OperationResult` |
| `ResultCollections` | result_collection.dfy | `OperationResultCollection` |
| `OrderedMaps` | ordered_map.dfy | PHP ordered arrays with string keys: assignment, `array_merge`, removal by key |
| `Versions` | versions.dfy | version directory names, `version_compare`, the `usort` by version |
| `Configuration` | config.dfy | `Config`: version discovery and the lock-file entries |
| `Envelope` | envelope.dfy | the `###BEGIN…###`/`###END…###` envelope shared by the env and gitignore operations |
| `EnvironmentVariables` | env_operation.dfy | `EnvironmentVariablesOperation` |
| `Gitignore` | gitignore_operation.dfy | `GitignoreOperation` |
| `BundleRegistration` | bundle_operation.dfy | `BundleRegisterOperation` |
| `CopyFiles` | copy_files_operation.dfy | `CopyFilesOperation` |
| `PackageHandling` | package_handler.dfy | `PackageHandler` |
| `ProjectTypes` | project_type_matcher.dfy | `ProjectTypeMatcher` and the built-in project types |
| `ClassInfo` | class_info_parser.dfy | `ClassInfoParser` |

## Model

| member | source | states |
|---|---|---|
| Messages.NewMessage | src/Result/Messages/Message.php:19-36 | The text is kept verbatim for both `getMessage` and `__toString`. The message is a status, warning or error exactly when its severity is the matching flag. |
| Messages.AtMostOneSeverity | src/Result/Messages/Message.php:50-63 | No message has two severities. A message whose severity is none of the three flags has none of them. |
| Messages.SetMessage | src/Result/Messages/Message.php:43-48 | Only the text changes; the severity, and so the classification, is kept. |
| Messages.CreateStatus | src/Result/Messages/Message.php:65-68 | Gives a status and nothing else, with the given text. |
| Messages.CreateWarning | src/Result/Messages/Message.php:70-73 | Gives a warning and nothing else, with the given text. |
| Messages.CreateError | src/Result/Messages/Message.php:75-78 | Gives an error and nothing else, with the given text. |
| MessagesCollections.AddMessage | src/Operations/Messages/MessagesCollection.php:32-36 | Appends one message at the end; the earlier messages keep their order. |
| MessagesCollections.SetMessages | src/Operations/Messages/MessagesCollection.php:50-59 | Appends the given messages after the existing ones. It throws exactly when some element is not a message. Everything before the first bad element has already been appended. |
| MessagesCollections.New | src/Operations/Messages/MessagesCollection.php:17-20 | The constructor holds the leading messages of its argument and throws on a non-message. |
| MessagesCollections.Generate | src/Operations/Messages/MessagesCollection.php:25-30 | The generator yields exactly the list `getMessages` returns, in order. |
| Results.Fresh | src/Result/OperationResult.php:14-29 | A new result is neutral, with no extra config, version '0' and an empty name. |
| Results.HasError | src/Result/OperationResult.php:31-43 | The scan in `isFailure` is true exactly when some message is an error. |
| Results.IsNeutral | src/Result/OperationResult.php:87-90 | Neutral means there are no messages. |
| Results.Classification | src/Result/OperationResult.php:31-90 | Every result is exactly one of failure (some error), success (messages but no error) or neutral (no message). |
| Results.AddMessage | src/Result/OperationResult.php:45-56 | A string is wrapped with the given severity. A `Message` is appended as it is. Anything else throws `InvalidArgumentException` and changes nothing. The other fields are kept. |
| Results.AddMessageMonotone | src/Result/OperationResult.php:45-56 | Adding a message never makes a result neutral, and a failure stays a failure. |
| Results.AddStatusMessage | src/Result/OperationResult.php:45-61 | A string is appended as a status, and the result is then a success exactly when it was not a failure. A `Message` is appended with its own severity, so the result is a failure exactly when it was one or the message is an error. Anything else throws `InvalidArgumentException`. The other fields are kept. |
| Results.AddWarningMessage | src/Result/OperationResult.php:45-66 | A string is appended as a warning, and the result is then a success exactly when it was not a failure. A `Message` keeps its own severity, as for the status variant. Anything else throws `InvalidArgumentException`. |
| Results.AddErrorMessage | src/Result/OperationResult.php:45-71 | A string is appended as an error, and the result is then a failure. A `Message` keeps its own severity, as for the status variant. Anything else throws `InvalidArgumentException`. |
| Results.HasErrorSnoc | src/Result/OperationResult.php:31-43 | Appending a message adds an error exactly when that message is one. |
| Results.SetMessagesCollection | src/Result/OperationResult.php:106-111 | Replaces the message list and keeps the other fields. |
| Results.SetExtraConfig | src/Result/OperationResult.php:126-131 | Replaces the extra config. Messages, labels and classification are kept. |
| Results.SetVersion | src/Result/OperationResult.php:144-147 | Replaces the version label. Messages, config and classification are kept. |
| Results.SetOperationName | src/Result/OperationResult.php:160-163 | Replaces the operation name. Messages, config and classification are kept. |
| ResultCollections.FromSeq | src/Result/OperationResultCollection.php:17-20 | The constructor stores its arguments at indices 0, 1, …; the count is their number. |
| ResultCollections.AddResult | src/Result/OperationResultCollection.php:22-27 | Appends after every index ever used; the count grows by one. |
| ResultCollections.OffsetGet | src/Result/OperationResultCollection.php:61-82 | Reads a value exactly when `offsetExists` holds; otherwise reads `null`. |
| ResultCollections.OffsetSet | src/Result/OperationResultCollection.php:100-106 | As written, `$c[] = $v` stores at index `count()`. Every other index is unchanged. |
| ResultCollections.OffsetAppend | src/Result/OperationResultCollection.php:100-106 | As intended, `$c[] = $v` appends at a fresh index: no entry is lost and the count grows by one. |
| ResultCollections.AppendAgreesWithoutHoles | src/Result/OperationResultCollection.php:100-106 | With nothing unset, the written and the intended append are the same. |
| ResultCollections.OverwriteAfterUnset | src/Result/OperationResultCollection.php:100-124 | After unsetting index 0 of two entries, `$c[] = $x` overwrites index 1 and the count stays 1. |
| ResultCollections.OffsetUnset | src/Result/OperationResultCollection.php:121-124 | Removes that index and nothing else. |
| ResultCollections.MadeChanges | src/Result/OperationResultCollection.php:34-43 | True exactly when some stored result is not neutral. |
| ResultCollections.Iterate | src/Result/OperationResultCollection.php:152-212 | `foreach` yields the entries at 0, 1, … in order and stops at the first unset index. |
| Strings.Find | src/Operations/EnvironmentVariablesOperation.php:97-104 | `strpos` returns the first occurrence at or after the offset, or `false` when there is none. |
| FileSystems.Rmdir | src/Operations/CopyFilesOperation.php:90-91 | `@rmdir` removes the path exactly when it is an empty, unlocked directory. Otherwise nothing changes, silently. No other path is touched. |
| OrderedMaps.Put | src/ProjectType/ProjectTypeMatcher.php:125 | Assignment keeps an existing key in place, or appends a new key at the end. |
| OrderedMaps.GetPut | src/ProjectType/ProjectTypeMatcher.php:125 | After assignment the key reads the new value; other keys read as before. |
| OrderedMaps.LastRegistrationWins | src/ProjectType/ProjectTypeMatcher.php:125 | A registry filled by assignments maps each key to its last registration. |
| OrderedMaps.GetPutAll | src/Operations/BundleRegisterOperation.php:33 | After `array_merge($m, $d)`, a key of `d` has its last value in `d`; any other key keeps its value in `m`. |
| OrderedMaps.KeysPutAll | src/Operations/BundleRegisterOperation.php:33 | `array_merge` keeps the key order of `m` and appends the new keys of `d` in first-occurrence order. |
| OrderedMaps.PutAllAppend | src/Operations/BundleRegisterOperation.php:33 | Merging two lists one after the other is merging their concatenation. |
| OrderedMaps.GetRemoveKeys | src/Operations/BundleRegisterOperation.php:141-144 | Skipping the listed keys drops exactly them; other keys keep their values. |
| OrderedMaps.RemoveAfterPutAll | src/Operations/BundleRegisterOperation.php:33-80 | Merging `d` in and then skipping every key of `d` leaves the original map without those keys. |
| Versions.VersionNameIsGrammar | src/Configuration/Config.php:70 | The directory-name filter accepts exactly an optional 'v' followed by one to three dot-separated digit groups. |
| Versions.StripVersionPrefix | src/Configuration/Config.php:79-80 | On such a name, removing every 'v' removes exactly the optional prefix. |
| Versions.LessIsLexLess | src/Configuration/Config.php:85-90 | `version_compare` ordering is lexicographic on the numeric components; a proper prefix is lower. |
| Versions.LessIrreflexive | src/Configuration/Config.php:85-90 | No version is below itself. |
| Versions.LessTransitive | src/Configuration/Config.php:85-90 | The version order is transitive. |
| Versions.LessTrichotomy | src/Configuration/Config.php:85-90 | Any two component lists are equal or ordered one way or the other. |
| Versions.VersionCompare | src/Configuration/Config.php:85-90 | Returns -1, 0 or 1 exactly as the first version is below, equal to or above the second. |
| Versions.SortByVersion | src/Configuration/Config.php:85-90 | `usort` gives an ascending list with the same entries (a permutation). |
| Configuration.GetLastConfiguredVersion | src/Configuration/Config.php:50-53 | The recorded version of the package, or '0' when there is none. |
| Configuration.VersionsIn | src/Configuration/Config.php:71-83 | A listed name yields a version exactly when it is a directory and a valid version name; the version is the name without 'v'. |
| Configuration.Collect | src/Configuration/Config.php:63-83 | A version is collected exactly when some project directory lists it as a valid version directory. |
| Configuration.GetPackageVersions | src/Configuration/Config.php:61-93 | Without `.installer` there is nothing. Otherwise the result is the discovered version directories, each as often as the walk finds it (the same multiset as `Collect`), sorted ascending. |
| Configuration.NewerThan | src/Configuration/Config.php:101-113 | Keeps exactly the entries strictly newer than the given version. |
| Configuration.NewerThanIsSuffix | src/Configuration/Config.php:101-113 | In an ascending list the newer versions form a suffix. |
| Configuration.GetInstallableVersions | src/Configuration/Config.php:101-113 | Exactly the package's versions newer than the last installed one. They form a suffix of the full ascending list. |
| Configuration.GetConfig | src/Configuration/Config.php:115-118 | The package's entry, or an empty entry for an unknown package. |
| Configuration.AddConfig | src/Configuration/Config.php:120-125 | The package's entry becomes the merge of its old entry and the new one; other packages are untouched. |
| Configuration.RemoveConfig | src/Configuration/Config.php:127-132 | Drops exactly the package's entry; removing an unknown package does nothing. |
| Configuration.RemoveUndoesAdd | src/Configuration/Config.php:120-132 | Removing a package after adding to it leaves the lock file as removing it alone would. |
| Envelope.Block | src/Operations/EnvironmentVariablesOperation.php:38-42 | The appended text begins with the start marker (a line break, then the begin line) and ends with the end marker. |
| Envelope.Span | src/Operations/EnvironmentVariablesOperation.php:94-105 | Finds the first start marker and the first end marker after it. When both exist the span is reported; otherwise a missing marker is reported. |
| Envelope.Cut | src/Operations/EnvironmentVariablesOperation.php:107 | Removes exactly the span; the text before and after it is kept byte for byte. |
| Envelope.CutAfterAppend | src/Operations/EnvironmentVariablesOperation.php:38-107 | Assume the original text has no start marker, the template has no end marker, and the package name and hash have no line break. Then cutting after appending the block gives the original text back. |
| EnvironmentVariables.AppendAll | src/Operations/EnvironmentVariablesOperation.php:49-58 | Only existing targets are written. No path is created or removed. A failure is counted exactly for an existing target that cannot be appended to. Non-targets are untouched. |
| EnvironmentVariables.AppendAllEffect | src/Operations/EnvironmentVariablesOperation.php:49-58 | Each target that exists and accepts the append is listed as written and ends with the block. Every other target is left exactly as it was. |
| EnvironmentVariables.CutAll | src/Operations/EnvironmentVariablesOperation.php:88-112 | Cuts the envelope out of each recorded file that holds it and skips the others silently. Failed writes are counted. |
| EnvironmentVariables.CutAllEffect | src/Operations/EnvironmentVariablesOperation.php:88-112 | For distinct targets: each one that exists, holds the envelope and accepts the write is listed and holds its text without the envelope; every other target is left as it was. |
| EnvironmentVariables.CutAllFailures | src/Operations/EnvironmentVariablesOperation.php:88-112 | For distinct targets: no failure exactly when every existing target that holds the envelope can be written back. |
| EnvironmentVariables.CutAllFrame | src/Operations/EnvironmentVariablesOperation.php:88-112 | The walk touches only its own targets: setting a path that is no target commutes with it. |
| EnvironmentVariables.Install | src/Operations/EnvironmentVariablesOperation.php:31-68 | Without a `.env` template the result is neutral and nothing changes. Otherwise the block is appended to every existing env file and the hash and written files are recorded. The result is a success unless a write failed. |
| EnvironmentVariables.Uninstall | src/Operations/EnvironmentVariablesOperation.php:82-119 | Cuts the recorded envelope from the recorded files. It reports success unless a write failed, even when nothing was found. |
| EnvironmentVariables.IsAvailable | src/Operations/EnvironmentVariablesOperation.php:139-160 | True exactly when the project has one of the env files and some candidate directory holds a `.env` template. |
| EnvironmentVariables.InstallRecords | src/Operations/EnvironmentVariablesOperation.php:44-60 | The recorded `hash` and `files` are what uninstall reads back: the hash used and the files written. |
| EnvironmentVariables.CutAllAfterAppendAll | src/Operations/EnvironmentVariablesOperation.php:49-112 | Cutting every file the append walk wrote restores the file system exactly, with no failure. |
| EnvironmentVariables.UninstallAfterInstall | src/Operations/EnvironmentVariablesOperation.php:31-119 | Uninstall with what install recorded gives every env file back byte for byte and reports success. Install succeeds exactly when every env file the project has is a file that is not locked. |
| Gitignore.Install | src/Operations/GitignoreOperation.php:18-55 | Without a template: neutral. A missing `.gitignore` that cannot be created: one error, nothing recorded. A failed append: one error, no config. Otherwise: a status and the recorded hash. |
| Gitignore.Uninstall | src/Operations/GitignoreOperation.php:65-99 | A `.gitignore` without the envelope gives a neutral result and is left alone. With the envelope, it is cut out and the result is a status, or an error if the write fails. A missing file gives success. |
| Gitignore.IsAvailable | src/Operations/GitignoreOperation.php:130-139 | True exactly when some candidate directory has a `gitignore` template. The project's own file does not matter. |
| Gitignore.UninstallAfterInstall | src/Operations/GitignoreOperation.php:18-99 | Uninstall after install gives back the original `.gitignore`, or an empty one when install had to create it, and both report success. |
| BundleRegistration.Dump | src/Operations/BundleRegisterOperation.php:138-156 | As intended, the dump is a PHP file returning the map without the ignored classes. Each class line lists its environments separated by ", ". |
| BundleRegistration.DumpAgrees | src/Operations/BundleRegisterOperation.php:138-156 | When every kept class has some environment, the dump as written is the intended dump. |
| BundleRegistration.EmptyEnvsBreakDump | src/Operations/BundleRegisterOperation.php:145-151 | For a class with no environment, the written dump emits ` App::class =>],` while the intended dump emits ` App::class => [],`. |
| BundleRegistration.LinesIgnore | src/Operations/BundleRegisterOperation.php:141-144 | Dumping with ignored classes is dumping the map with those classes removed. |
| BundleRegistration.Install | src/Operations/BundleRegisterOperation.php:16-50 | Without a package `bundles.php`: neutral. With one that does not return an array: an error. With one that does: the project map is merged and written back if it loads as an array; then success is recorded. A failed write is an error and records nothing. |
| BundleRegistration.MergeInto | src/Operations/BundleRegisterOperation.php:28-40 | The project file is rewritten as the dump of `array_merge(project, package)` exactly when it loads as an array. |
| BundleRegistration.Uninstall | src/Operations/BundleRegisterOperation.php:60-93 | Neutral, with nothing changed, unless install recorded a truthy `success`. Otherwise the project file is rewritten without the package's classes. |
| BundleRegistration.RemoveFrom | src/Operations/BundleRegisterOperation.php:75-85 | The project file is rewritten as the dump of its map without the package's classes exactly when it loads as an array. |
| BundleRegistration.IsAvailable | src/Operations/BundleRegisterOperation.php:114-126 | True exactly when the project has `config/bundles.php` and some candidate directory has a `bundles.php`. |
| BundleRegistration.UninstallAfterInstall | src/Operations/BundleRegisterOperation.php:16-93 | After install and uninstall, the project file lists exactly the original classes the package does not register, in their original order. This assumes the loader reads a dump back as the map dumped. |
| CopyFiles.SameVisits | src/Operations/CopyFilesOperation.php:25-82 | The `SELF_FIRST` and `CHILD_FIRST` walks visit the same entries. |
| CopyFiles.ParentsFirst | src/Operations/CopyFilesOperation.php:25-31 | With `SELF_FIRST`, every directory is visited before its contents. |
| CopyFiles.ChildrenFirst | src/Operations/CopyFilesOperation.php:76-82 | With `CHILD_FIRST`, every directory is visited after its contents. |
| CopyFiles.InstallVisit | src/Operations/CopyFilesOperation.php:35-47 | A missing directory is created and a missing file copied; an existing target is left alone. A failed creation is an error naming the target. |
| CopyFiles.InstallVisits | src/Operations/CopyFilesOperation.php:34-48 | The walk only adds nodes and never changes an existing one. Its errors come in walk order. |
| CopyFiles.InstallVisitsCovers | src/Operations/CopyFilesOperation.php:34-48 | A walk without errors leaves every target in place. |
| CopyFiles.InstallDirs | src/Operations/CopyFilesOperation.php:21-50 | Walks each project directory whose `files` tree exists, only adding nodes. |
| CopyFiles.Install | src/Operations/CopyFilesOperation.php:17-57 | Nothing that existed is touched. The result is never neutral. With errors it holds exactly the walk's error lines, in walk order. Without errors it holds exactly one status. |
| CopyFiles.InstallIdempotent | src/Operations/CopyFilesOperation.php:17-57 | A second install over an error-free first one writes nothing and succeeds again. |
| CopyFiles.UninstallVisit | src/Operations/CopyFilesOperation.php:85-101 | A missing target is skipped and nothing but the target can go. An existing target goes exactly when it is removable: an empty, unlocked directory for a directory visit, an unlocked file whose sha1 matches the source's for a file visit. There is an error exactly when a matching file visit cannot unlink its target. |
| CopyFiles.UninstallVisits | src/Operations/CopyFilesOperation.php:85-102 | Only visited targets disappear: a file only if it still hashes like its source, a directory only if visited as one. |
| CopyFiles.RemovableShrinks | src/Operations/CopyFilesOperation.php:85-102 | A target the step could remove is, after earlier steps that only delete, either gone or still removable. |
| CopyFiles.UninstallVisitsRemoves | src/Operations/CopyFilesOperation.php:85-102 | Conversely, every visited target that was removable when the walk started is gone after it: each unchanged copy and each directory that was empty. |
| CopyFiles.UninstallDirs | src/Operations/CopyFilesOperation.php:71-104 | The same, over every project directory's tree walked `CHILD_FIRST`. |
| CopyFiles.UninstallDirsRemoves | src/Operations/CopyFilesOperation.php:71-104 | Every target of a tree the loop walks (its `files` directory exists) that was removable at the start is gone at the end, provided no target is one of the source trees. |
| CopyFiles.Uninstall | src/Operations/CopyFilesOperation.php:67-111 | Nothing is created or changed. A file disappears only when some walked source file maps to it with the same hash, so edited copies survive. A directory disappears only when a walked source directory maps to it. With errors the result holds exactly the walk's error lines, in order; without errors, exactly one status. |
| CopyFiles.UninstallRemovesCopies | src/Operations/CopyFilesOperation.php:67-111 | Uninstall deletes every unchanged, unlocked copy and every directory that was empty and unlocked among the targets of the trees it walks. With the contract of `Uninstall` this pins what disappears from both sides. |
| CopyFiles.IsAvailable | src/Operations/CopyFilesOperation.php:129-139 | True exactly when some project directory has a `files` directory. |
| ProjectTypes.AllExist | src/ProjectType/ProjectTypeMatcher.php:60-64 | A list marker matches exactly when every listed path exists under the root. |
| ProjectTypes.AnyMarker | src/ProjectType/ProjectTypeMatcher.php:59-73 | A type matches exactly when one of its markers does. |
| ProjectTypes.Detect | src/ProjectType/ProjectTypeMatcher.php:56-76 | Returns the first type in order that matches, or `null`; no earlier type matches. |
| ProjectTypes.FindProjectType | src/ProjectType/ProjectTypeMatcher.php:27-77 | An override naming a registered type returns that type without looking at files. Otherwise, with two or more types of which one has no `getPriority`, the sort fails with an engine error. In every other case the result is detection over the priority order. A found type is always a registered one. |
| ProjectTypes.DetectLowestFirst | src/ProjectType/ProjectTypeMatcher.php:40-76 | With every type prioritised, no type of lower priority than the one found matches: lower priorities are tried first. |
| ProjectTypes.BundledTypesFail | src/ProjectType/ProjectTypeMatcher.php:40-54 | With the Symfony 4 type among two or more registered types and no override, `findProjectType` fails. |
| ProjectTypes.Compare | src/ProjectType/ProjectTypeMatcher.php:43-54 | Gives -1, 0 or 1 by priority. A type without `getPriority` makes the call fail. |
| ProjectTypes.ComparatorIsOrder | src/ProjectType/ProjectTypeMatcher.php:49-53 | The comparator is antisymmetric and "not after" is transitive, so it is a valid sort order. |
| ProjectTypes.DetectStopsAt | src/ProjectType/ProjectTypeMatcher.php:56-76 | A type whose marker always matches ends detection; no later type is chosen. |
| ProjectTypes.GenericMatchesExistingRoot | src/ProjectType/Type/GenericProjectType.php:36-41 | The generic type's marker `.` matches any existing root. |
| ProjectTypes.Registration | src/ProjectType/ProjectTypeMatcher.php:109-127 | A walked entry registers a type exactly when it is a `.php` file holding an instantiable project type. |
| ProjectTypes.PackageDirs | src/ProjectType/ProjectTypeMatcher.php:92-97 | Exactly the packages' existing `.installer/project-types` directories, in package order. |
| ProjectTypes.GetProjectTypeClasses | src/ProjectType/ProjectTypeMatcher.php:86-138 | With no walk throwing: the registry of all registrations, the last one winning. When a walk throws: the cached registry, or an engine error when there is none. |
| ProjectTypes.BuiltInWins | src/ProjectType/ProjectTypeMatcher.php:99-125 | A type registered by the plugin's own directory wins over every package's registration of that name. |
| ProjectTypes.Preload | src/ProjectType/ProjectTypeMatcher.php:79-84 | Fills an empty cache by discovery and leaves a filled cache alone. |
| ProjectTypes.PreloadOnce | src/ProjectType/ProjectTypeMatcher.php:79-84 | A second preload keeps what the first found. |
| ProjectTypes.FallbackToCache | src/ProjectType/ProjectTypeMatcher.php:133-135 | After a successful preload, a failing discovery returns the preloaded registry. |
| ClassInfo.TerminatorFrom | src/Helper/ClassInfoParser.php:141-153 | The namespace loop runs up to the first `{` or `;`. |
| ClassInfo.NamespaceIsNameText | src/Helper/ClassInfoParser.php:141-153 | The namespace is the text of the name and separator tokens before the terminator. |
| ClassInfo.ClassNameFrom | src/Helper/ClassInfoParser.php:154-161 | The class name is the first name token after `class`. |
| ClassInfo.FullName | src/Helper/ClassInfoParser.php:163-166 | A truthy namespace is rooted with exactly one leading backslash, then followed by a backslash and the class. |
| ClassInfo.New | src/Helper/ClassInfoParser.php:23-29 | A missing file is rejected; otherwise an unparsed parser for that file. |
| ClassInfo.Resolve | src/Helper/ClassInfoParser.php:168-183 | No class when the name is a lone backslash or names no loaded class. Otherwise the class without its leading backslash. |
| ClassInfo.Parse | src/Helper/ClassInfoParser.php:125-185 | Parsing sets the reflected class to what the tokens resolve to. |
| ClassInfo.ParseOnce | src/Helper/ClassInfoParser.php:127-128 | A second `parse` changes nothing. |
| ClassInfo.IsValidClass | src/Helper/ClassInfoParser.php:36-40 | True exactly when the file resolves to a class. |
| ClassInfo.GetClassName | src/Helper/ClassInfoParser.php:61-68 | The reflected name, or `LogicException` for an invalid file. |
| ClassInfo.IsInstantiable | src/Helper/ClassInfoParser.php:47-54 | The reflected class's instantiability, or `LogicException`. |
| ClassInfo.ImplementsInterface | src/Helper/ClassInfoParser.php:113-120 | `LogicException` for an invalid file. `ReflectionException` for a name that is not an interface. Otherwise whether the class implements it. |
| ClassInfo.IsSubclassOf | src/Helper/ClassInfoParser.php:76-79 | It does not parse, so an unparsed parser fails. A name that is no class, interface or trait raises `ReflectionException`. A trait name answers false, as no trait is a parent. Otherwise the answer is whether the name is a proper ancestor class or an interface the class implements, never the class itself. |
| ClassInfo.SubclassOfImplemented | src/Helper/ClassInfoParser.php:76-79 | For an existing interface name, `isSubclassOf` is true exactly when the class implements it or has it among its ancestors. |
| ClassInfo.IsInstanceOf | src/Helper/ClassInfoParser.php:88-105 | Tries the interface check, then the subclass check, swallowing `ReflectionException` but not `LogicException`. |
| ClassInfo.InstanceOfMeaning | src/Helper/ClassInfoParser.php:88-105 | An invalid file gives `LogicException`. A valid one never fails, and the answer is `implementsInterface || isSubclassOf`: whether the name is an interface the class implements or a proper ancestor class. Unlike PHP's `instanceof`, it is false for the class's own name, which reflection does not list among the ancestors. |
| ClassInfo.InvalidFileAccessors | src/Helper/ClassInfoParser.php:47-120 | On an invalid file every accessor that parses fails with `LogicException`. |
| ClassInfo.ValidClassName | src/Helper/ClassInfoParser.php:61-68 | A valid file's class name is the scanned name without its leading backslash. |
| ClassInfo.ScanKeepsNamespace | src/Helper/ClassInfoParser.php:141-153 | Once a namespace is known the scan keeps it. |
| ClassInfo.ScanFindsClass | src/Helper/ClassInfoParser.php:137-162 | The class is the first name after the first `class` token. |
| ClassInfo.ScanFindsNamespace | src/Helper/ClassInfoParser.php:137-162 | The namespace is that of the first `namespace` token, when it comes before any `class` token and names something. |
| ClassInfo.StandardClassName | tests/ClassInfoParserTest.php:15-20 | `namespace App\Model; class User {}` gives `\App\Model\User`. |
| ClassInfo.NoNamespaceClassName | tests/ClassInfoParserTest.php:22-27 | `class User {}` gives `\User`. |
| ClassInfo.AlternativeNamespaceSyntax | tests/ClassInfoParserTest.php:29-34 | `namespace App { class User {} }` gives `\App\User`. |
| ClassInfo.TwoNamespacesTwoClasses | tests/ClassInfoParserTest.php:36-42 | Only the first namespace and the first class count. |
| ClassInfo.InterfaceOnlyIsInvalid | tests/ClassInfoParserTest.php:52-59 | A file with only an interface is not a valid class, whatever is loaded. |
| ClassInfo.NamespacedTraitOnly | tests/ClassInfoParserTest.php:61-68 | With a namespace but no class, the name ends in a backslash. It names no class in any world whose class names do not end in one, so the file is invalid and `getClassName` raises `LogicException`. |
| ClassInfo.NoClassIsInvalid | tests/ClassInfoParserTest.php:44-50 | A file with neither class nor namespace is invalid in every world, and `getClassName` raises `LogicException`. |
| ClassInfo.MixedInterfaceAndClass | tests/ClassInfoParserTest.php:70-75 | An interface declared before the class does not hide it: the name is `\App\Mixed`, and once that class is loaded the file is valid and reports it. |
| PackageHandling.SupportingHandlers | src/PackageHandler.php:79-86 | Exactly the registered handlers that declare support for the project type, in registry order. |
| PackageHandling.SupportingHandlersOrder | src/PackageHandler.php:79-86 | Order and multiplicity: the selected handlers are those of an increasing sequence of registry positions, which holds every position whose handler supports the project type, one selected handler per position. |
| PackageHandling.TypedHandlers | src/PackageHandler.php:88-95 | The handlers of the project type's kinds that are registered, in the type's order. |
| PackageHandling.PresentKindsOrder | src/PackageHandler.php:88-89 | The kinds kept are those of an increasing sequence of positions in the type's kind list, holding every position whose kind is registered; a repeated kind is kept once per occurrence. |
| PackageHandling.TypedHandlersOrder | src/PackageHandler.php:88-95 | Each typed handler is the registry entry for the kind at its position in the type's kind list; positions increase and every registered kind position is used. |
| PackageHandling.InstallHandlers | src/PackageHandler.php:79-95 | The supporting handlers followed by the typed handlers. |
| PackageHandling.Paths | src/PackageHandler.php:185-195 | The directories of the given versions, in the same order. |
| PackageHandling.GetVersions | src/PackageHandler.php:202-209 | A suffix of the package's ascending version list, so each version occurs as often as it is shipped and no more. With `all`, the whole list; otherwise exactly those newer than the last installed one. |
| PackageHandling.RecordedConfig | src/PackageHandler.php:164 | The extra config recorded for that version and kind, or an empty one. |
| PackageHandling.Label | src/PackageHandler.php:124-125 | Labels a result with 'v' + version and the handler's friendly name; messages and config are kept. |
| PackageHandling.ReturnedAreChanges | src/PackageHandler.php:105-128 | The returned results are the non-neutral calls, labelled, in call order. None is neutral. There is one exactly when some call was not neutral. |
| PackageHandling.ChangeIndicesMembers | src/PackageHandler.php:105-107 | A call position is selected exactly when that call's result is not neutral. |
| PackageHandling.ReturnedPick | src/PackageHandler.php:105-126 | The returned results are one per selected call position, each the labelled result of that call. |
| PackageHandling.ReturnedOrder | src/PackageHandler.php:105-128 | Completeness, count and order: the returned results are the labelled results of an increasing sequence of call positions, holding exactly the positions of the non-neutral calls. |
| PackageHandling.MadeChangesIff | src/PackageHandler.php:105-128 | `madeChanges` on the returned collection holds exactly when some call was not neutral. |
| PackageHandling.Record | src/PackageHandler.php:107-123 | A non-neutral call records an empty entry for its version and kind. If its extra config is non-empty, that config follows. |
| PackageHandling.RecordsComplete | src/PackageHandler.php:105-128 | Every non-neutral call is recorded under its version and kind. |
| PackageHandling.RecordsSound | src/PackageHandler.php:105-128 | Every record belongs to a non-neutral call; neutral calls leave nothing in the lock file. |
| PackageHandling.RunVersionsCalls | src/PackageHandler.php:105-128 | The inner loop calls the handler once per version, in ascending order, whatever the results. |
| PackageHandling.RunHandlersForced | src/PackageHandler.php:98-104 | Every handler that is not availability-aware runs. |
| PackageHandling.RunHandlersCalls | src/PackageHandler.php:98-129 | The calls are those of the handlers that passed the availability check, each over every version, in order. |
| PackageHandling.RunHandlersLast | src/PackageHandler.php:105-135 | `$version` ends as the last version exactly when some handler ran over a non-empty version list. |
| PackageHandling.RunHandlersConsistent | src/PackageHandler.php:98-129 | Throughout the fold, the returned collection and the `addConfig` calls are exactly those the call trace determines. |
| PackageHandling.RunFromStart | src/PackageHandler.php:98-135 | From the start, the fold sets one flag per handler and sets the forced flags. The calls are those of the passed handlers, the collection and records are consistent, and `$version` is the last version run. |
| PackageHandling.InvokeCalls | src/PackageHandler.php:105-106 | A call on install is the handler's own `install` on the version's directory, and on uninstall its `uninstall` with the config recorded for that version and kind. The state it leaves and the result it records are that operation's. |
| PackageHandling.PlanVersions | src/PackageHandler.php:105 | Every planned call is on one of the given versions. |
| PackageHandling.VersionPlan | src/PackageHandler.php:105-106 | One handler paired with every version, in order. |
| PackageHandling.PlanSnoc | src/PackageHandler.php:98-129 | One more handler adds its calls to the end of the plan exactly when it passes. |
| PackageHandling.Replay | src/PackageHandler.php:98-129 | A reference run of the plan: one recorded call per planned call. |
| PackageHandling.ReplaySnoc | src/PackageHandler.php:105-106 | Replaying one more call runs it in the state the earlier calls left and appends its record. |
| PackageHandling.ReplayPrefix | src/PackageHandler.php:98-129 | The records of a replay begin with the records of any prefix of the plan. |
| PackageHandling.ReplayCalls | src/PackageHandler.php:105-106 | Call `i` is the planned handler on the planned version, made in the state the first `i` calls left; it leaves the state the first `i + 1` calls leave. |
| PackageHandling.ReplayInstalls | src/PackageHandler.php:106 | On install, call `i` is exactly the planned handler's `install(path)` in the state the earlier calls left. |
| PackageHandling.ReplayUninstalls | src/PackageHandler.php:164-165 | On uninstall, call `i` passes the config recorded for its version and kind and is exactly the planned handler's `uninstall(path, config)` in the state the earlier calls left. |
| PackageHandling.ReplayVersions | src/PackageHandler.php:105-106 | Every recorded call names the planned handler's kind and the planned version. |
| PackageHandling.PlannedVersions | src/PackageHandler.php:105 | Every planned call is on a given version, and its record names that version. |
| PackageHandling.CheckedInTurnAll | src/PackageHandler.php:99-103 | A flag set by the handler's own `isAvailable` in turn is the test the loop makes: set exactly when the handler passes `Available` in the state left by the calls of the handlers before it. |
| PackageHandling.RunVersionsReplay | src/PackageHandler.php:105-128 | The inner loop extends the replay by the handler's calls over every version. |
| PackageHandling.VisitReplays | src/PackageHandler.php:98-129 | Visiting one handler checks its availability in the current state and extends the replay by its calls if it passes. |
| PackageHandling.RunHandlersReplays | src/PackageHandler.php:98-129 | The outer loop's state and calls are the replay of its plan, and every flag is that handler's availability in turn. |
| PackageHandling.ReplaysFromStart | src/PackageHandler.php:98-129 | From the start, the loop's state and calls are the replay of its plan, and every flag is that handler's availability in turn. |
| PackageHandling.HandleInstall | src/PackageHandler.php:72-138 | Every selected handler that is not availability-aware runs once per installable version, in order. Every other handler runs exactly when its own `isAvailable` answers true in the state the earlier calls left. The state and calls are those of the reference replay. The collection holds exactly the labelled non-neutral results. Each of those is recorded. The last version is stamped exactly when something ran. |
| PackageHandling.InstallCalls | src/PackageHandler.php:98-129 | Each call `handleInstall` makes is the planned handler's `install` on the version's directory, in the state the earlier calls left, and its result is the one recorded. |
| PackageHandling.InstallPackage | src/PackageHandler.php:97-135 | `handleInstall` over the versions read once before the loop, with its `addConfig` calls applied to the lock file. Every call is on a shipped version newer than the one installed last. |
| PackageHandling.ApplyUpdates | src/PackageHandler.php:105-135 | After at least one `addConfig` call the package has an entry, and no call changes another package's entry. With no call the lock file is unchanged. |
| PackageHandling.HandleUninstall | src/PackageHandler.php:145-178 | Only the typed handlers run, over every version of the package. A handler that is availability-aware runs exactly when its own `isAvailable` answers true in the state the earlier calls left. Each call gets the config recorded for its version and kind, or an empty one. The state and calls are those of the reference replay. Only non-neutral results are returned. The package's entry is erased whatever happened. |
| PackageHandling.UninstallCalls | src/PackageHandler.php:162-171 | Each call `handleUninstall` makes is the planned handler's `uninstall` on the version's directory with the recorded config, in the state the earlier calls left, and its result is the one recorded. |
| PackageHandling.UninstallPackage | src/PackageHandler.php:151-178 | `handleUninstall` over every version the package ships; every call is on one of those versions. |

## Findings

| source | as written | input that shows it | evidently intended | confidence | as-written member | corrected member |
|---|---|---|---|---|---|---|
| src/Result/OperationResultCollection.php:100-106 | `$c[] = $v` writes at index `count()`, which after an `unset` is an index still in use | a collection of `a`, `b`; unset index 0; then `$c[] = x` replaces `b` and the count stays 1 | append after every index ever used, as a PHP array does | not executed | ResultCollections.OverwriteAfterUnset | ResultCollections.OffsetAppend |
| src/Operations/BundleRegisterOperation.php:145-151 | `substr($content, 0, -2)` always drops two characters, meant to be the last ", " | a bundle class registered with no environment: the line becomes ` App::class =>],`, which is not valid PHP | drop the separator only when an environment was written, giving ` App::class => [],` | not executed | BundleRegistration.EmptyEnvsBreakDump | BundleRegistration.Dump |

The orchestrator's `$results[] = $result` only appends to a collection from which nothing
was unset. There the written and the intended append agree
(`ResultCollections.AppendAgreesWithoutHoles`), so `PackageHandling` is unaffected by the
first finding. `BundleRegistration.Install` and `BundleRegistration.Uninstall` write with
the intended dump. `BundleRegistration.DumpAgrees` shows that this is the written dump
whenever every class has an environment.

## Where the code and the documented behaviour differ

The model follows the code in each case.

- Uninstall does not restrict itself to the (version, kind) pairs install recorded. It
  calls every typed handler for every version the package ships, and passes an empty
  config where nothing was recorded (src/PackageHandler.php:151-171).
- Uninstall uses only the project type's kinds. Handlers selected on install through
  `getSupportedProjectTypes` are not run on uninstall (src/PackageHandler.php:152-173).
- The copy-files operation walks `.installer/<projectDir>/files` and ignores the version
  directory it is given (src/Operations/CopyFilesOperation.php:21-23).
- A missing `.gitignore` on uninstall reports success, not a neutral result
  (src/Operations/GitignoreOperation.php:71-96).
- Project types are documented as tried in descending priority, higher first
  (src/ProjectType/PrioritizedProjectTypeInterface.php:9-13). The comparator returns -1
  when the first priority is lower, so the sort puts lower priorities first
  (src/ProjectType/ProjectTypeMatcher.php:49-53; `ProjectTypes.DetectLowestFirst`).
- Detection without an override is documented to pick a type by its markers. The bundled
  `Symfony4ProjectType` has no `getPriority`, and the built-in directory is always
  scanned, so with two or more registered types the sort fails instead
  (`ProjectTypes.BundledTypesFail`).

## Left out

- Plugin wiring and the legacy handlers: `Plugin.php`, `Installer.php`, `Preloader.php`,
  `CopyFilesHandler`, `EnvFilesHandler`, `BundleRegisterHandler`, `OperationHandlerBase`
  and `src/Operations/OperationResult.php` are not part of this model. They are Composer
  event glue or an older handler API the orchestrator does not call.
- `AbstractOperation::getOperationHandlers` is not part of this model. The handler
  registry is an input to `PackageHandling`.
- The handlers in `PackageHandling` are abstract records of functions (kind, friendly
  name, supported types, optional availability check, install, uninstall). The four
  concrete operations are modelled and proved on their own but are not plugged into the
  generic fold.
- PackageHandling.HandleInstall: the version list and the availability paths
  `Paths(versions)` are read once, from the file-system parameter `fs`, before the loop.
  The source recomputes `getPaths()` for every handler (src/PackageHandler.php:100), and
  each call rescans the package's `.installer` tree on disk (src/Configuration/Config.php:63-83)
  and rereads the last installed version from the lock file. The loop's `addConfig` calls
  change only the `operations` part, never `version`. So the lists agree only while no
  operation changes the package's `.installer` tree. The model keeps `fs` apart from the
  handlers' state, so it cannot express such a change. The lock-file flush is left out.
- PackageHandling.HandleUninstall: the availability paths are read once before the loop,
  as at src/PackageHandler.php:151. The version list is also read once, from `fs`, while
  the source rereads `getVersions(true)` before every handler (:162). That list depends
  only on the package's `.installer` tree, so the two agree under the same condition as
  for `PackageHandling.HandleInstall`.
- PackageHandling.InstallHandlers: `in_array`'s loose comparison of machine names is
  modelled as string equality.
- PackageHandling.ApplyUpdates: the recursive merge helper (imported at
  src/Configuration/Config.php:7) is a parameter; its definition is not part of this
  model.
- Configuration: the constructor's and `flush`'s JSON reading and writing of the lock
  file are I/O and left out. The store is the decoded array.
- Configuration.GetPackageVersions: the order of two directories with equal versions
  (`1.0` and `v1.0`) after `usort` is whatever the sort gives. The contract states
  ascending order and the same multiset of entries, not a particular order among ties. The regular
  expression's `$` also admits a trailing line break; the model rejects such a name.
- `containsInstallerDirectory` (src/PackageHandler.php:62-65) is a single `is_dir` check
  and is not modelled separately.
- OrderedMaps.GetPutAll: `array_merge` renumbers integer-like keys. Bundle classes are
  class names, so only string keys are modelled.
- ResultCollections.OffsetSet: offsets are `null` or natural numbers. Negative or
  string offsets are not modelled.
- ResultCollections: `getResults` and `count` are plain accessors without a contract of
  their own.
- Envelope and the env and gitignore operations: `uniqid` is the `hash` parameter.
  `LOCK_EX` and any concurrent writer are left out.
- Gitignore.Install: `fopen` returning `false` makes `fwrite` throw a `TypeError` in
  PHP 8. The model takes the write-error path instead.
- FileSystems: permissions, ownership and disk space are reduced to a set of locked
  paths at which every write fails.
- BundleRegistration: `require` is a loader parameter applied to the text a path holds.
  It runs only after `is_file` (src/Operations/BundleRegisterOperation.php:21, :67) or
  `file_exists` (:30, :75), so a missing file is never loaded. A `require` that is a
  fatal error (an unreadable file, or a directory at `config/bundles.php`) is not
  modelled: such a directory reaches the loader as empty text, and nothing is assumed
  about what the loader returns for it.
- BundleRegistration.Install: the project file is written with the intended dump `Dump`, not the
  dump as written at src/Operations/BundleRegisterOperation.php:145-151. The two agree whenever
  every kept class has an environment (`BundleRegistration.DumpAgrees`); for a class with none
  the code writes invalid PHP (`BundleRegistration.EmptyEnvsBreakDump`, see Findings).
- BundleRegistration.MergeInto: the project file is written with the intended dump `Dump`, not the
  dump as written at src/Operations/BundleRegisterOperation.php:145-151. The two agree whenever
  every kept class has an environment (`BundleRegistration.DumpAgrees`); for a class with none
  the code writes invalid PHP (`BundleRegistration.EmptyEnvsBreakDump`, see Findings).
- BundleRegistration.Uninstall: the project file is written with the intended dump `Dump`, not the
  dump as written at src/Operations/BundleRegisterOperation.php:145-151. The two agree whenever
  every kept class has an environment (`BundleRegistration.DumpAgrees`); for a class with none
  the code writes invalid PHP (`BundleRegistration.EmptyEnvsBreakDump`, see Findings).
- BundleRegistration.RemovePackage: the project file is written with the intended dump `Dump`, not the
  dump as written at src/Operations/BundleRegisterOperation.php:145-151. The two agree whenever
  every kept class has an environment (`BundleRegistration.DumpAgrees`); for a class with none
  the code writes invalid PHP (`BundleRegistration.EmptyEnvsBreakDump`, see Findings).
- BundleRegistration.RemoveFrom: the project file is written with the intended dump `Dump`, not the
  dump as written at src/Operations/BundleRegisterOperation.php:145-151. The two agree whenever
  every kept class has an environment (`BundleRegistration.DumpAgrees`); for a class with none
  the code writes invalid PHP (`BundleRegistration.EmptyEnvsBreakDump`, see Findings).
- BundleRegistration.UninstallAfterInstall: the project file is written with the intended dump `Dump`, not the
  dump as written at src/Operations/BundleRegisterOperation.php:145-151. The two agree whenever
  every kept class has an environment (`BundleRegistration.DumpAgrees`); for a class with none
  the code writes invalid PHP (`BundleRegistration.EmptyEnvsBreakDump`, see Findings).
- CopyFiles: the recursive directory iterator is a listing parameter. The order of
  entries within one directory is whatever the listing gives. `sha1` is a hash parameter.
- CopyFiles.UninstallRemovesCopies: the converse direction (what Uninstall does remove) is
  proved only when no walked target is itself one of the `files` source directories
  (`TargetsApart`). It covers directories that were empty when the walk began; a directory
  the `CHILD_FIRST` walk empties first and then removes is removed by the code, but this
  is not stated. The same holds for `CopyFiles.UninstallDirsRemoves`.
- ProjectTypes.FindProjectType: the sort `ArraySort` performs comes from a library that
  is not part of this model. Its result order is a parameter: a permutation of the
  registered types, ascending by priority when every type has one, as the comparator
  orders them. The model takes it that sorting two or more types calls the comparator
  on each of them, as any comparison sort must, and that a single type is not compared.
- ProjectTypes: the class-file discovery uses a reflection library that is not part of
  this model. Each walked file's inspection result is an input. The built-in types
  (`GENERIC`, `DRUPAL8`, `SYMFONY4`) are constants.
- ProjectTypes.Compare: `Symfony4ProjectType` has no `getPriority` method, so calling
  the comparator on it fails; this is modelled as an engine error.
  `ProjectTypeInterface` declares `getDirs`, while the types implement
  `getMatchableFiles`; the model uses the latter.
- `OperationType` declares no gitignore constant and `CopyFilesOperation` has no
  `getFriendlyName`. The model takes each operation's kind and name as given by its
  handler record.
- ClassInfo: the PHP tokenizer is replaced by its token stream. `require_once` and
  reflection are replaced by a table of loaded classes. The fixture files under
  `tests/Resources/ClassInfoParser` are not part of this model; the lemmas use
  hand-written token streams of the shapes the tests name.
- ClassInfo: the dynamic property `$this->isClass` and the `trim` of token ids are not
  modelled; the trimmed id is always truthy.
- ClassInfo: PHP 8's single-token qualified names (`T_NAME_QUALIFIED`) are not
  collected. The model has the separate name and separator tokens of PHP 7.
- ClassInfo: `getReflection` is the parser's `reflection` field. It fails with the same
  `LogicException` as `GetClassName`.
- Messages: `getMessages` and `getMessage` are plain accessors without a contract of
  their own.

=== FILE: bundle_operation.dfy ===
/** The bundle registration operation (src/Operations/BundleRegisterOperation.php):
    install merges the package's bundle map into the project's `config/bundles.php`
    and rewrites that file; uninstall rewrites it without the package's classes. */
module BundleRegistration {
  import opened Wrappers
  import opened Strings
  import opened FileSystems
  import opened Results
  import opened OrderedMaps

  const KIND: string := "symfonyBundleRegister"

  const FRIENDLY_NAME: string := "Register Bundle"

  /** Bundle class to the environments it is enabled in. */
  type BundleMap = OMap<string, OMap<string, bool>>

  /** What `require` of a bundles file evaluates to: a bundle map or some value that
      is not an array. */
  datatype Loaded = Bundles(map_: BundleMap) | NotArray

  function PackageFile(path: string): string {
    Path(path, "bundles.php")
  }

  function ProjectFile(root: string): string {
    Path(Path(root, "config"), "bundles.php")
  }

  const HEADER: string := "<?php\n\nreturn [\n"

  const FOOTER: string := "];\n"

  function BoolText(b: bool): string {
    if b then "true" else "false"
  }

  /** One environment entry: `'env' => true`. */
  function EnvItem(env: string, on: bool): string {
    "'" + env + "' => " + BoolText(on)
  }

  /** The environment entries separated by ", ". */
  function EnvList(envs: OMap<string, bool>): string
    decreases |envs|
  {
    if |envs| == 0 then ""
    else if |envs| == 1 then EnvItem(envs[0].0, envs[0].1)
    else EnvItem(envs[0].0, envs[0].1) + ", " + EnvList(envs[1..])
  }

  /** One class line: `    C::class => ['env' => true, ...],` and a line break. */
  function ClassLine(cls: string, envs: OMap<string, bool>): string {
    "    " + cls + "::class => [" + EnvList(envs) + "],\n"
  }

  /** The class lines of every entry whose class is not ignored, in map order. */
  function Lines(bundles: BundleMap, ignored: seq<string>): string
    decreases |bundles|
  {
    if |bundles| == 0 then ""
    else if bundles[0].0 in ignored then Lines(bundles[1..], ignored)
    else ClassLine(bundles[0].0, bundles[0].1) + Lines(bundles[1..], ignored)
  }

  /** `dumpConfig` as its evident intent: a PHP file returning the bundle map
      without the ignored classes. */
  function Dump(bundles: BundleMap, ignored: seq<string>): (text: string)
    ensures |text| >= |HEADER| + |FOOTER|
    ensures text[..|HEADER|] == HEADER && text[|text| - |FOOTER|..] == FOOTER
  {
    var text := HEADER + Lines(bundles, ignored) + FOOTER;
    assert text[..|HEADER|] == HEADER;
    text
  }

  /** The environment loop as written: every entry is followed by ", ". */
  function EnvPairsAsWritten(envs: OMap<string, bool>): string
    decreases |envs|
  {
    if |envs| == 0 then "" else EnvItem(envs[0].0, envs[0].1) + ", " + EnvPairsAsWritten(envs[1..])
  }

  /** The class loop as written: after the environment entries, the last two
      characters of the whole text are dropped (`substr($content, 0, -2)`), meant to
      remove the final ", ". */
  function DumpLoopAsWritten(content: string, bundles: BundleMap, ignored: seq<string>): string
    decreases |bundles|
  {
    if |bundles| == 0 then content
    else if bundles[0].0 in ignored then DumpLoopAsWritten(content, bundles[1..], ignored)
    else
      var c := content + "    " + bundles[0].0 + "::class => [" + EnvPairsAsWritten(bundles[0].1);
      DumpLoopAsWritten(c[..|c| - 2] + "],\n", bundles[1..], ignored)
  }

  /** `dumpConfig` as written. */
  function DumpAsWritten(bundles: BundleMap, ignored: seq<string>): string {
    DumpLoopAsWritten(HEADER, bundles, ignored) + FOOTER
  }

  /** Whether every class that is not ignored is enabled in some environment. */
  predicate NoEmptyEnvs(bundles: BundleMap, ignored: seq<string>) {
    forall i :: 0 <= i < |bundles| && bundles[i].0 !in ignored ==> |bundles[i].1| > 0
  }

  /** For a non-empty environment map the written loop yields the entries joined
      by ", " plus one trailing ", ". */
  lemma {:induction false} EnvPairsTrailing(envs: OMap<string, bool>)
    requires |envs| > 0
    ensures EnvPairsAsWritten(envs) == EnvList(envs) + ", "
    decreases |envs|
  {
    if |envs| > 1 {
      EnvPairsTrailing(envs[1..]);
    }
  }

  /** One step of the written class loop on a class with some environment appends
      exactly the intended class line. */
  lemma ChunkAsWritten(content: string, cls: string, envs: OMap<string, bool>)
    requires |envs| > 0
    ensures var c := content + "    " + cls + "::class => [" + EnvPairsAsWritten(envs);
            c[..|c| - 2] + "],\n" == content + ClassLine(cls, envs)
  {
    EnvPairsTrailing(envs);
    var pre := content + "    " + cls + "::class => [";
    DropSeparator(pre, EnvList(envs));
    LineAfter(content, cls, EnvList(envs));
  }

  lemma DropSeparator(pre: string, list: string)
    ensures var c := pre + (list + ", "); c[..|c| - 2] == pre + list
  {
    var c := pre + (list + ", ");
    assert c == (pre + list) + ", ";
  }

  lemma LineAfter(content: string, cls: string, list: string)
    ensures content + ("    " + cls + "::class => [" + list + "],\n")
            == content + "    " + cls + "::class => [" + list + "],\n"
  {
  }

  lemma NoEmptyEnvsTail(bundles: BundleMap, ignored: seq<string>)
    requires |bundles| > 0 && NoEmptyEnvs(bundles, ignored)
    ensures NoEmptyEnvs(bundles[1..], ignored)
  {
    forall i | 0 <= i < |bundles[1..]| && bundles[1..][i].0 !in ignored
      ensures |bundles[1..][i].1| > 0
    {
      assert bundles[1..][i] == bundles[i + 1];
    }
  }

  /** As long as every kept class has some environment, the written dump is the
      intended one. */
  lemma {:induction false} DumpLoopAgrees(content: string, bundles: BundleMap, ignored: seq<string>)
    requires NoEmptyEnvs(bundles, ignored)
    ensures DumpLoopAsWritten(content, bundles, ignored) == content + Lines(bundles, ignored)
    decreases |bundles|
  {
    if |bundles| > 0 {
      NoEmptyEnvsTail(bundles, ignored);
      var cls := bundles[0].0;
      var rest := bundles[1..];
      if cls !in ignored {
        var envs := bundles[0].1;
        assert |envs| > 0;
        var c := content + "    " + cls + "::class => [" + EnvPairsAsWritten(envs);
        ChunkAsWritten(content, cls, envs);
        var next := content + ClassLine(cls, envs);
        assert DumpLoopAsWritten(content, bundles, ignored) == DumpLoopAsWritten(c[..|c| - 2] + "],\n", rest, ignored);
        DumpLoopAgrees(next, rest, ignored);
        assert Lines(bundles, ignored) == ClassLine(cls, envs) + Lines(rest, ignored);
        AppendAssoc(content, ClassLine(cls, envs), Lines(rest, ignored));
      } else {
        DumpLoopAgrees(content, rest, ignored);
      }
    }
  }

  lemma AppendAssoc(a: string, b: string, c: string)
    ensures a + (b + c) == (a + b) + c
  {
  }

  lemma DumpAgrees(bundles: BundleMap, ignored: seq<string>)
    requires NoEmptyEnvs(bundles, ignored)
    ensures DumpAsWritten(bundles, ignored) == Dump(bundles, ignored)
  {
    DumpLoopAgrees(HEADER, bundles, ignored);
  }

  /** The written loop on a single class with no environment: the two characters
      cut are " [" rather than ", ". */
  lemma EmptyEnvLineAsWritten(content: string, cls: string)
    ensures DumpLoopAsWritten(content, [(cls, [])], []) == content + "    " + cls + "::class =>],\n"
  {
    var c := content + "    " + cls + "::class => [" + EnvPairsAsWritten([]);
    assert c == content + "    " + cls + "::class =>" + " [";
    assert c[..|c| - 2] == content + "    " + cls + "::class =>";
    var b: BundleMap := [(cls, [])];
    assert b[1..] == [];
  }

  /** A class registered with no environment: the dump as written emits
      `    App::class =>],`, which is not valid PHP; the intended dump emits
      `    App::class => [],`. */
  lemma EmptyEnvsBreakDump()
    ensures DumpAsWritten([("App", [])], []) == HEADER + "    App::class =>],\n" + FOOTER
    ensures Dump([("App", [])], []) == HEADER + "    App::class => [],\n" + FOOTER
    ensures DumpAsWritten([("App", [])], []) != Dump([("App", [])], [])
  {
    EmptyEnvLineAsWritten(HEADER, "App");
    assert Lines([("App", [])], []) == ClassLine("App", []);
    assert |DumpAsWritten([("App", [])], [])| + 2 == |Dump([("App", [])], [])|;
  }

  /** Ignoring classes while dumping is dumping the map with those classes removed. */
  lemma {:induction false} LinesIgnore(bundles: BundleMap, ignored: seq<string>)
    ensures Lines(bundles, ignored) == Lines(RemoveKeys(bundles, ignored), [])
    decreases |bundles|
  {
    if |bundles| > 0 {
      LinesIgnore(bundles[1..], ignored);
    }
  }

  // The messages the operation reports.

  const NOT_AN_ARRAY: string := "<error>The bundles.php file in installer must return an array</error>"

  function CopiedText(pkg: string): string {
    "Successfully copied Bundle information from " + pkg
  }

  function CopyFailedText(pkg: string): string {
    "<error>Could not copy bundle content from " + pkg + "</error>"
  }

  function UninstalledText(pkg: string): string {
    "Successfully uninstalled Bundle information from " + pkg
  }

  function RemoveFailedText(pkg: string): string {
    "<error>Could not remove bundle content from " + pkg + "</error>"
  }

  /** The `require` of a path, through the given loader applied to the text the path
      holds. Callers reach it only after `is_file` or `file_exists` holds; a directory
      at the path reaches the loader as empty text, about which nothing is assumed. */
  function LoadAt(fs: FileSystem, p: string, load: string -> Loaded): Loaded {
    load(TextAt(fs, p))
  }

  /** `install`. `load` stands for PHP's `require` of a bundles file. */
  function Install(fs: FileSystem, root: string, pkg: string, path: string, load: string -> Loaded)
    : (res: (FileSystem, OperationResult))
    ensures !IsFile(fs, PackageFile(path)) ==> res.0 == fs && IsNeutral(res.1)
    ensures IsFile(fs, PackageFile(path)) && LoadAt(fs, PackageFile(path), load).NotArray? ==>
              res.0 == fs && IsFailure(res.1) && |MessagesOf(res.1)| == 1 && res.1.extraConfig == map[]
    ensures IsFile(fs, PackageFile(path)) && LoadAt(fs, PackageFile(path), load).Bundles? ==>
              var d := LoadAt(fs, PackageFile(path), load).map_;
              var target := ProjectFile(root);
              if Exists(fs, target) && LoadAt(fs, target, load).Bundles? then
                var merged := PutAll(LoadAt(fs, target, load).map_, d);
                if IsDir(fs, target) || target in fs.locked then
                  res.0 == fs && IsFailure(res.1) && res.1.extraConfig == map[]
                else
                  && res.0 == fs.(nodes := fs.nodes[target := File(Dump(merged, []))])
                  && IsSuccess(res.1) && res.1.extraConfig == map["success" := Bool(true)]
              else
                res.0 == fs && IsSuccess(res.1) && res.1.extraConfig == map["success" := Bool(true)]
  {
    if !IsFile(fs, PackageFile(path)) then (fs, Fresh())
    else match LoadAt(fs, PackageFile(path), load)
      case NotArray =>
        (fs, WithError(Fresh(), NOT_AN_ARRAY))
      case Bundles(d) => MergeInto(fs, root, pkg, d, load)
  }

  /** The part of `install` after the package's map `d` is loaded: the project's
      map, when it has one, is merged with `d` and written back. */
  function MergeInto(fs: FileSystem, root: string, pkg: string, d: BundleMap, load: string -> Loaded)
    : (res: (FileSystem, OperationResult))
    ensures var target := ProjectFile(root);
            if Exists(fs, target) && LoadAt(fs, target, load).Bundles? then
              var merged := PutAll(LoadAt(fs, target, load).map_, d);
              if IsDir(fs, target) || target in fs.locked then
                res.0 == fs && IsFailure(res.1) && res.1.extraConfig == map[]
              else
                && res.0 == fs.(nodes := fs.nodes[target := File(Dump(merged, []))])
                && IsSuccess(res.1) && res.1.extraConfig == map["success" := Bool(true)]
            else
              res.0 == fs && IsSuccess(res.1) && res.1.extraConfig == map["success" := Bool(true)]
  {
    var target := ProjectFile(root);
    var written :=
      if Exists(fs, target) && LoadAt(fs, target, load).Bundles? then
        Write(fs, target, Dump(PutAll(LoadAt(fs, target, load).map_, d), []))
      else Some(fs);
    match written
    case None => (fs, WithError(Fresh(), CopyFailedText(pkg)))
    case Some(fs1) =>
      var r := SetExtraConfig(Fresh(), map["success" := Bool(true)]);
      (fs1, WithStatus(r, CopiedText(pkg)))
  }

  /** `uninstall`: neutral unless install recorded a truthy `success`; otherwise the
      project file is rewritten without the package's classes. */
  function Uninstall(fs: FileSystem, root: string, pkg: string, path: string, extra: ExtraConfig,
                     load: string -> Loaded)
    : (res: (FileSystem, OperationResult))
    ensures res.1.extraConfig == map[]
    ensures !("success" in extra && IsTruthy(extra["success"])) ==> res.0 == fs && IsNeutral(res.1)
    ensures "success" in extra && IsTruthy(extra["success"]) ==>
              if IsFile(fs, PackageFile(path)) && LoadAt(fs, PackageFile(path), load).NotArray? then
                res.0 == fs && IsFailure(res.1)
              else if IsFile(fs, PackageFile(path)) && Exists(fs, ProjectFile(root))
                      && LoadAt(fs, ProjectFile(root), load).Bundles? then
                var d := LoadAt(fs, PackageFile(path), load).map_;
                var i := LoadAt(fs, ProjectFile(root), load).map_;
                if IsDir(fs, ProjectFile(root)) || ProjectFile(root) in fs.locked then
                  res.0 == fs && IsFailure(res.1)
                else
                  res.0 == fs.(nodes := fs.nodes[ProjectFile(root) := File(Dump(RemoveKeys(i, Keys(d)), []))])
                  && IsSuccess(res.1)
              else res.0 == fs && IsSuccess(res.1)
  {
    if !("success" in extra && IsTruthy(extra["success"])) then (fs, Fresh())
    else RemovePackage(fs, root, pkg, path, load)
  }

  /** `uninstall` once install is known to have succeeded. */
  function RemovePackage(fs: FileSystem, root: string, pkg: string, path: string, load: string -> Loaded)
    : (res: (FileSystem, OperationResult))
    ensures res.1.extraConfig == map[]
    ensures if IsFile(fs, PackageFile(path)) && LoadAt(fs, PackageFile(path), load).NotArray? then
              res.0 == fs && IsFailure(res.1)
            else if IsFile(fs, PackageFile(path)) && Exists(fs, ProjectFile(root))
                    && LoadAt(fs, ProjectFile(root), load).Bundles? then
              var d := LoadAt(fs, PackageFile(path), load).map_;
              var i := LoadAt(fs, ProjectFile(root), load).map_;
              if IsDir(fs, ProjectFile(root)) || ProjectFile(root) in fs.locked then
                res.0 == fs && IsFailure(res.1)
              else
                res.0 == fs.(nodes := fs.nodes[ProjectFile(root) := File(Dump(RemoveKeys(i, Keys(d)), []))])
                && IsSuccess(res.1)
            else res.0 == fs && IsSuccess(res.1)
  {
    var done := WithStatus(Fresh(), UninstalledText(pkg));
    if !IsFile(fs, PackageFile(path)) then (fs, done)
    else match LoadAt(fs, PackageFile(path), load)
      case NotArray =>
        (fs, WithError(Fresh(), NOT_AN_ARRAY))
      case Bundles(d) => RemoveFrom(fs, root, pkg, d, load, done)
  }

  /** The part of `uninstall` after the package's map `d` is loaded: the project's
      map, when it has one, is written back without the classes of `d`. */
  function RemoveFrom(fs: FileSystem, root: string, pkg: string, d: BundleMap, load: string -> Loaded,
                      done: OperationResult)
    : (res: (FileSystem, OperationResult))
    requires IsSuccess(done) && done.extraConfig == map[]
    ensures res.1.extraConfig == map[]
    ensures var target := ProjectFile(root);
            if Exists(fs, target) && LoadAt(fs, target, load).Bundles? then
              var i := LoadAt(fs, target, load).map_;
              if IsDir(fs, target) || target in fs.locked then
                res.0 == fs && IsFailure(res.1)
              else
                res.0 == fs.(nodes := fs.nodes[target := File(Dump(RemoveKeys(i, Keys(d)), []))])
                && IsSuccess(res.1)
            else res.0 == fs && IsSuccess(res.1)
  {
    var target := ProjectFile(root);
    if Exists(fs, target) && LoadAt(fs, target, load).Bundles? then
      var i := LoadAt(fs, target, load).map_;
      LinesIgnore(i, Keys(d));
      match Write(fs, target, Dump(i, Keys(d)))
      case None => (fs, WithError(Fresh(), RemoveFailedText(pkg)))
      case Some(fs1) => (fs1, done)
    else (fs, done)
  }

  /** `isAvailable`: the project has `config/bundles.php` and some candidate
      directory has a `bundles.php`. */
  function IsAvailable(fs: FileSystem, root: string, paths: seq<string>): (b: bool)
    ensures b <==> Exists(fs, ProjectFile(root)) && exists p :: p in paths && IsFile(fs, PackageFile(p))
  {
    Exists(fs, ProjectFile(root)) && AnyFile(fs, paths, "bundles.php")
  }

  /** Installing and then uninstalling the same package leaves the project file
      listing exactly the original classes the package does not register, in their
      original order, provided the loader reads a dump back as the map it dumps. */
  lemma UninstallAfterInstall(fs: FileSystem, root: string, pkg: string, path: string,
                              load: string -> Loaded)
    requires IsFile(fs, PackageFile(path)) && LoadAt(fs, PackageFile(path), load).Bundles?
    requires IsFile(fs, ProjectFile(root)) && ProjectFile(root) !in fs.locked
    requires LoadAt(fs, ProjectFile(root), load).Bundles?
    requires var d := LoadAt(fs, PackageFile(path), load).map_;
             var m := PutAll(LoadAt(fs, ProjectFile(root), load).map_, d);
             load(Dump(m, [])) == Bundles(m)
    requires PackageFile(path) != ProjectFile(root)
    ensures var (fs1, r1) := Install(fs, root, pkg, path, load);
            var (fs2, r2) := Uninstall(fs1, root, pkg, path, r1.extraConfig, load);
            var d := LoadAt(fs, PackageFile(path), load).map_;
            var i := LoadAt(fs, ProjectFile(root), load).map_;
            && IsSuccess(r1) && IsSuccess(r2)
            && fs2 == fs.(nodes := fs.nodes[ProjectFile(root) := File(Dump(RemoveKeys(i, Keys(d)), []))])
  {
    var target := ProjectFile(root);
    var d := LoadAt(fs, PackageFile(path), load).map_;
    var i := LoadAt(fs, target, load).map_;
    var m := PutAll(i, d);
    var fs1 := fs.(nodes := fs.nodes[target := File(Dump(m, []))]);
    assert Install(fs, root, pkg, path, load).0 == fs1;
    UninstallAfterWrite(fs, fs1, root, pkg, path, load, d, m);
    RemoveAfterPutAll(i, d, Keys(d));
    UpdateTwice(fs.nodes, target, File(Dump(m, [])), File(Dump(RemoveKeys(i, Keys(d)), [])));
  }

  /** Uninstall on the file system install left behind: the package file still
      loads as `d`, and the project file now loads as the merged map `m`. */
  lemma UninstallAfterWrite(fs: FileSystem, fs1: FileSystem, root: string, pkg: string, path: string,
                            load: string -> Loaded, d: BundleMap, m: BundleMap)
    requires IsFile(fs, PackageFile(path)) && LoadAt(fs, PackageFile(path), load) == Bundles(d)
    requires PackageFile(path) != ProjectFile(root) && ProjectFile(root) !in fs.locked
    requires fs1 == fs.(nodes := fs.nodes[ProjectFile(root) := File(Dump(m, []))])
    requires load(Dump(m, [])) == Bundles(m)
    ensures var r := Uninstall(fs1, root, pkg, path, map["success" := Bool(true)], load);
            && r.0 == fs1.(nodes := fs1.nodes[ProjectFile(root) := File(Dump(RemoveKeys(m, Keys(d)), []))])
            && IsSuccess(r.1)
  {
    var extra := map["success" := Bool(true)];
    assert "success" in extra && IsTruthy(extra["success"]);
    assert Uninstall(fs1, root, pkg, path, extra, load) == RemovePackage(fs1, root, pkg, path, load);
    assert LoadAt(fs1, PackageFile(path), load) == Bundles(d);
    assert LoadAt(fs1, ProjectFile(root), load) == Bundles(m);
  }
}

=== FILE: class_info_parser.dfy ===
/** The class-name scanner (src/Helper/ClassInfoParser.php): finds the first
    namespace and the first class declared in a PHP file from its token stream,
    and answers questions about that class through reflection.

    The PHP tokenizer is replaced by its output, a sequence of tokens; `require_once`
    and reflection are replaced by a table of the classes that exist once the file
    is loaded. */
module ClassInfo {
  import opened Wrappers
  import opened Strings

  /** The token ids the scanner looks at; every other id is `OtherKind`. */
  datatype Kind = NamespaceKind | ClassKind | NameKind | SeparatorKind | OtherKind(id: int)

  /** `token_get_all` yields single characters for punctuation and
      (id, text) pairs for everything else. */
  datatype Token = Punct(c: char) | Tok(kind: Kind, text: string)

  predicate IsKind(t: Token, k: Kind) {
    t.Tok? && t.kind == k
  }

  /** The tokens that end a namespace declaration: `{` or `;`. */
  predicate IsTerminator(t: Token) {
    t == Punct('{') || t == Punct(';')
  }

  /** The texts of the name and separator tokens, concatenated. */
  function NameText(ts: seq<Token>): string
    decreases |ts|
  {
    if |ts| == 0 then ""
    else
      (if IsKind(ts[0], NameKind) || IsKind(ts[0], SeparatorKind) then ts[0].text else "") + NameText(ts[1..])
  }

  /** The index of the first terminator at or after `j`, or `|ts|`. */
  function TerminatorFrom(ts: seq<Token>, j: nat): (e: nat)
    requires j <= |ts|
    ensures j <= e <= |ts|
    ensures forall k :: j <= k < e ==> !IsTerminator(ts[k])
    ensures e < |ts| ==> IsTerminator(ts[e])
    decreases |ts| - j
  {
    if j == |ts| || IsTerminator(ts[j]) then j else TerminatorFrom(ts, j + 1)
  }

  /** The inner loop after a `namespace` token: names and separators are collected
      until the first `{` or `;`; everything else in between is skipped. */
  function NamespaceFrom(ts: seq<Token>, j: nat): string
    requires j <= |ts|
    decreases |ts| - j
  {
    if j == |ts| || IsTerminator(ts[j]) then ""
    else (if IsKind(ts[j], NameKind) || IsKind(ts[j], SeparatorKind) then ts[j].text else "") + NamespaceFrom(ts, j + 1)
  }

  /** The namespace is the text of the names and separators between the
      `namespace` token and the first terminator after it. */
  lemma {:induction false} NamespaceIsNameText(ts: seq<Token>, j: nat)
    requires j <= |ts|
    ensures NamespaceFrom(ts, j) == NameText(ts[j..TerminatorFrom(ts, j)])
    decreases |ts| - j
  {
    if j < |ts| && !IsTerminator(ts[j]) {
      NamespaceIsNameText(ts, j + 1);
      assert ts[j..TerminatorFrom(ts, j)][1..] == ts[j + 1..TerminatorFrom(ts, j + 1)];
    }
  }

  /** The inner loop after a `class` token: the text of the first name token at or
      after `j`. */
  function ClassNameFrom(ts: seq<Token>, j: nat): (r: Option<string>)
    requires j <= |ts|
    ensures r.Some? ==> exists k :: j <= k < |ts| && ts[k] == Tok(NameKind, r.value)
                                    && forall m :: j <= m < k ==> !IsKind(ts[m], NameKind)
    ensures r.None? <==> forall m :: j <= m < |ts| ==> !IsKind(ts[m], NameKind)
    decreases |ts| - j
  {
    if j == |ts| then None
    else if IsKind(ts[j], NameKind) then Some(ts[j].text)
    else ClassNameFrom(ts, j + 1)
  }

  /** The outer loop of `parse`: stops once a class name is known; takes a
      namespace only while none is known; a `class` token looks for the class
      name. */
  function Scan(ts: seq<Token>, i: nat, ns: string, cls: string): (r: (string, string))
    requires i <= |ts|
    decreases |ts| - i
  {
    if i == |ts| || Truthy(cls) then (ns, cls)
    else if !Truthy(ns) && IsKind(ts[i], NamespaceKind) then Scan(ts, i + 1, ns + NamespaceFrom(ts, i + 1), cls)
    else if IsKind(ts[i], ClassKind) then
      Scan(ts, i + 1, ns, match ClassNameFrom(ts, i) case Some(c) => c case None => cls)
    else Scan(ts, i + 1, ns, cls)
  }

  /** `$namespace` without one leading backslash. */
  function Unrooted(ns: string): string {
    if |ns| > 0 && ns[0] == '\\' then ns[1..] else ns
  }

  /** The name `parse` builds: a namespace PHP treats as true is rooted with a
      single leading backslash; then a backslash and the class name follow. */
  function FullName(ns: string, cls: string): (name: string)
    ensures Truthy(ns) ==> name == "\\" + Unrooted(ns) + "\\" + cls
    ensures !Truthy(ns) ==> name == ns + "\\" + cls
  {
    var prefix := if Truthy(ns) && ns[0] != '\\' then "\\" + ns else ns;
    prefix + "\\" + cls
  }

  /** The name reflection reports: without the leading backslash. */
  function Canonical(name: string): string {
    if |name| > 0 && name[0] == '\\' then name[1..] else name
  }

  /** The class name found in a token stream, with its namespace. */
  function ScannedName(ts: seq<Token>): string {
    var (ns, cls) := Scan(ts, 0, "", "");
    FullName(ns, cls)
  }

  /** What reflection knows about a loaded class: whether it is instantiable, the
      interfaces it implements, and its proper ancestor classes (those
      `isSubclassOf` accepts, which never include the class itself). */
  datatype ClassData = ClassData(instantiable: bool, interfaces: set<string>, ancestors: set<string>)

  /** The world the parser runs in: the files with their tokens, the classes that
      exist once those files are loaded (by name without the leading backslash, as
      `class_exists` sees them), and the names of the existing interfaces and
      traits. */
  datatype World = World(files: map<string, seq<Token>>, classes: map<string, ClassData>,
                         interfaceNames: set<string>, traitNames: set<string>)

  /** The parser object: its file, whether it has parsed, and the class it
      reflects (its name without the leading backslash), if any. */
  datatype Parser = Parser(file: string, parsed: bool, reflection: Option<string>)

  const INVALID_CLASS: string := "The file does not contain a valid class"

  /** The constructor: a missing file is rejected. */
  function New(w: World, file: string): (r: Result<Parser>)
    ensures r.Success? <==> file in w.files
    ensures r.Success? ==> r.value == Parser(file, false, None)
    ensures r.Failure? ==> r.error == InvalidArgument("The file '" + file + "' does not exist")
  {
    if file !in w.files then Failure(InvalidArgument("The file '" + file + "' does not exist"))
    else Success(Parser(file, false, None))
  }

  /** The class a file's tokens resolve to: none when the scan found neither a
      namespace nor a class (the name is a lone backslash) or when no such class
      exists after loading. */
  function Resolve(w: World, ts: seq<Token>): (r: Option<string>)
    ensures r.Some? <==> ScannedName(ts) != "\\" && Canonical(ScannedName(ts)) in w.classes
    ensures r.Some? ==> r.value == Canonical(ScannedName(ts))
  {
    var name := ScannedName(ts);
    if name == "\\" then None
    else if Canonical(name) in w.classes then Some(Canonical(name))
    else None
  }

  /** `parse`: runs once; later calls change nothing. */
  function Parse(w: World, p: Parser): (q: Parser)
    ensures q.parsed && q.file == p.file
    ensures p.parsed ==> q == p
    ensures !p.parsed && p.file in w.files ==> q.reflection == Resolve(w, w.files[p.file])
  {
    if p.parsed then p
    else if p.file in w.files then p.(parsed := true, reflection := Resolve(w, w.files[p.file]))
    else p.(parsed := true)
  }

  lemma ParseOnce(w: World, p: Parser)
    ensures Parse(w, Parse(w, p)) == Parse(w, p)
  {
  }

  /** `isValidClass`. */
  function IsValidClass(w: World, p: Parser): (r: (Parser, bool))
    ensures r.0 == Parse(w, p)
    ensures r.1 <==> Parse(w, p).reflection.Some?
  {
    var q := Parse(w, p);
    (q, q.reflection.Some?)
  }

  /** `getClassName`: the reflected class's name, or `LogicException`. */
  function GetClassName(w: World, p: Parser): (r: (Parser, Result<string>))
    ensures r.0 == Parse(w, p)
    ensures r.1.Failure? <==> Parse(w, p).reflection.None?
    ensures r.1.Failure? ==> r.1.error == LogicError(INVALID_CLASS)
    ensures r.1.Success? ==> r.1.value == Parse(w, p).reflection.value
  {
    var q := Parse(w, p);
    if q.reflection.None? then (q, Failure(LogicError(INVALID_CLASS))) else (q, Success(q.reflection.value))
  }

  /** `isInstantiable`. */
  function IsInstantiable(w: World, p: Parser): (r: (Parser, Result<bool>))
    ensures r.0 == Parse(w, p)
    ensures r.1.Failure? <==> Parse(w, p).reflection.None?
    ensures r.1.Failure? ==> r.1.error == LogicError(INVALID_CLASS)
    ensures r.1.Success? ==> r.1.value == ClassOf(w, Parse(w, p)).instantiable
  {
    var q := Parse(w, p);
    if q.reflection.None? then (q, Failure(LogicError(INVALID_CLASS))) else (q, Success(ClassOf(w, q).instantiable))
  }

  /** The reflected class's data; a class that vanished from the table reads as an
      empty class. */
  function ClassOf(w: World, p: Parser): ClassData
    requires p.reflection.Some?
  {
    if p.reflection.value in w.classes then w.classes[p.reflection.value] else ClassData(false, {}, {})
  }

  /** `implementsInterface`: `LogicException` for an invalid file, and
      `ReflectionException` when the argument is not an existing interface. */
  function ImplementsInterface(w: World, p: Parser, iface: string): (r: (Parser, Result<bool>))
    ensures r.0 == Parse(w, p)
    ensures Parse(w, p).reflection.None? ==> r.1 == Failure(LogicError(INVALID_CLASS))
    ensures Parse(w, p).reflection.Some? && iface !in w.interfaceNames ==> r.1.Failure? && r.1.error.ReflectionFailure?
    ensures Parse(w, p).reflection.Some? && iface in w.interfaceNames ==>
              r.1 == Success(iface in ClassOf(w, Parse(w, p)).interfaces)
  {
    var q := Parse(w, p);
    if q.reflection.None? then (q, Failure(LogicError(INVALID_CLASS)))
    else if iface !in w.interfaceNames then (q, Failure(ReflectionFailure("Interface \"" + iface + "\" does not exist")))
    else (q, Success(iface in ClassOf(w, q).interfaces))
  }

  /** `isSubclassOf`: it does not parse first, so on a parser that has not parsed
      (or found no class) the call is made on `null`; `ReflectionException` when
      the argument names no existing class, interface or trait. A trait is never
      a parent, so a trait name answers false. Otherwise reflection answers
      whether the name is a proper ancestor class or an interface the class
      implements: everything the class is an instance of except itself. */
  function IsSubclassOf(w: World, p: Parser, cls: string): (r: Result<bool>)
    ensures p.reflection.None? ==> r.Failure? && r.error.EngineError?
    ensures p.reflection.Some? && cls !in w.classes && cls !in w.interfaceNames && cls !in w.traitNames ==>
              r.Failure? && r.error.ReflectionFailure?
    ensures p.reflection.Some? && cls in w.traitNames && cls !in w.classes && cls !in w.interfaceNames ==>
              r == Success(false)
    ensures p.reflection.Some? && (cls in w.classes || cls in w.interfaceNames) ==>
              r == Success(cls in ClassOf(w, p).ancestors || (cls in w.interfaceNames && cls in ClassOf(w, p).interfaces))
  {
    if p.reflection.None? then Failure(EngineError("Call to a member function isSubclassOf() on null"))
    else if cls !in w.classes && cls !in w.interfaceNames then
      if cls in w.traitNames then Success(false)
      else Failure(ReflectionFailure("Class \"" + cls + "\" does not exist"))
    else
      var c := ClassOf(w, p);
      Success(cls in c.ancestors || (cls in w.interfaceNames && cls in c.interfaces))
  }

  /** `isSubclassOf` accepts an interface the class implements, as PHP's
      reflection does, but never the class's own name. */
  lemma SubclassOfImplemented(w: World, p: Parser, name: string)
    requires p.reflection.Some? && name in w.interfaceNames
    ensures IsSubclassOf(w, p, name) == Success(name in ClassOf(w, p).ancestors || name in ClassOf(w, p).interfaces)
  {
  }

  /** `isInstanceOf`: `implementsInterface`, then `isSubclassOf`, each with its
      `ReflectionException` swallowed; a `LogicException` is not caught. */
  function IsInstanceOf(w: World, p: Parser, name: string): (r: (Parser, Result<bool>))
    ensures r.0 == Parse(w, p)
  {
    var (q, implemented) := ImplementsInterface(w, p, name);
    if implemented.Failure? && !implemented.error.ReflectionFailure? then (q, Failure(implemented.error))
    else if implemented == Success(true) then (q, Success(true))
    else
      var sub := IsSubclassOf(w, q, name);
      if sub.Failure? && !sub.error.ReflectionFailure? then (q, Failure(sub.error))
      else (q, Success(sub == Success(true)))
  }

  /** `isInstanceOf` behaves like PHP's `instanceof` on the reflected class: an
      invalid file is a `LogicException`, and otherwise the answer is whether the
      name is an interface the class implements or an ancestor class; it never
      fails for a valid file. */
  lemma InstanceOfMeaning(w: World, p: Parser, name: string)
    ensures Parse(w, p).reflection.None? ==> IsInstanceOf(w, p, name).1 == Failure(LogicError(INVALID_CLASS))
    ensures Parse(w, p).reflection.Some? ==>
              var c := ClassOf(w, Parse(w, p));
              IsInstanceOf(w, p, name).1
                == Success((name in w.interfaceNames && name in c.interfaces)
                           || ((name in w.classes || name in w.interfaceNames) && name in c.ancestors))
  {
  }

  /** On an invalid file every accessor that parses fails with `LogicException`. */
  lemma InvalidFileAccessors(w: World, p: Parser, iface: string)
    requires Parse(w, p).reflection.None?
    ensures !IsValidClass(w, p).1
    ensures GetClassName(w, p).1 == Failure(LogicError(INVALID_CLASS))
    ensures IsInstantiable(w, p).1 == Failure(LogicError(INVALID_CLASS))
    ensures ImplementsInterface(w, p, iface).1 == Failure(LogicError(INVALID_CLASS))
  {
  }

  /** A valid file's class name is the scanned name without its leading
      backslash. */
  lemma ValidClassName(w: World, file: string)
    requires file in w.files
    requires IsValidClass(w, New(w, file).value).1
    ensures GetClassName(w, New(w, file).value).1 == Success(Canonical(ScannedName(w.files[file])))
  {
  }

  // The shape of the scan, for token streams whose names are PHP identifiers.

  /** PHP identifiers are never "" or "0". */
  predicate NamesTruthy(ts: seq<Token>) {
    forall k :: 0 <= k < |ts| && IsKind(ts[k], NameKind) ==> Truthy(ts[k].text)
  }

  /** The index of the first token of kind `k` at or after `i`. */
  function FirstOf(ts: seq<Token>, i: nat, k: Kind): (r: Option<nat>)
    requires i <= |ts|
    ensures r.Some? ==> i <= r.value < |ts| && IsKind(ts[r.value], k)
                        && forall m :: i <= m < r.value ==> !IsKind(ts[m], k)
    ensures r.None? ==> forall m :: i <= m < |ts| ==> !IsKind(ts[m], k)
    decreases |ts| - i
  {
    if i == |ts| then None else if IsKind(ts[i], k) then Some(i) else FirstOf(ts, i + 1, k)
  }

  /** Once a namespace is known, the scan keeps it. */
  lemma {:induction false} ScanKeepsNamespace(ts: seq<Token>, i: nat, ns: string, cls: string)
    requires i <= |ts| && Truthy(ns)
    ensures Scan(ts, i, ns, cls).0 == ns
    decreases |ts| - i
  {
    if i < |ts| && !Truthy(cls) {
      var next := if IsKind(ts[i], ClassKind) then (match ClassNameFrom(ts, i) case Some(c) => c case None => cls) else cls;
      ScanKeepsNamespace(ts, i + 1, ns, next);
    }
  }

  /** The class name is the first name token at or after the first `class` token
      (or stays as it was when there is none). */
  lemma {:induction false} ScanFindsClass(ts: seq<Token>, i: nat, ns: string, cls: string)
    requires i <= |ts| && NamesTruthy(ts) && !Truthy(cls)
    ensures Scan(ts, i, ns, cls).1 == match FirstOf(ts, i, ClassKind)
                                     case None => cls
                                     case Some(c) => ClassNameFrom(ts, c).GetOr(cls)
    decreases |ts| - i
  {
    if i < |ts| {
      if !Truthy(ns) && IsKind(ts[i], NamespaceKind) {
        ScanFindsClass(ts, i + 1, ns + NamespaceFrom(ts, i + 1), cls);
      } else if IsKind(ts[i], ClassKind) {
        match ClassNameFrom(ts, i)
        case Some(c) =>
          var k :| i <= k < |ts| && ts[k] == Tok(NameKind, c) && forall m :: i <= m < k ==> !IsKind(ts[m], NameKind);
          assert Truthy(c);
        case None =>
          ScanFindsClass(ts, i + 1, ns, cls);
          match FirstOf(ts, i + 1, ClassKind)
          case None =>
          case Some(c2) =>
            assert ClassNameFrom(ts, c2).None?;
      } else {
        ScanFindsClass(ts, i + 1, ns, cls);
      }
    }
  }

  /** The namespace is that of the first `namespace` token, provided it comes
      before any `class` token and names something. */
  lemma {:induction false} ScanFindsNamespace(ts: seq<Token>, i: nat, cls: string, n: nat)
    requires i <= n < |ts| && FirstOf(ts, i, NamespaceKind) == Some(n)
    requires forall m :: i <= m <= n ==> !IsKind(ts[m], ClassKind)
    requires !Truthy(cls) && Truthy(NamespaceFrom(ts, n + 1))
    ensures Scan(ts, i, "", cls).0 == NamespaceFrom(ts, n + 1)
    decreases n - i
  {
    if i == n {
      assert "" + NamespaceFrom(ts, n + 1) == NamespaceFrom(ts, n + 1);
      ScanKeepsNamespace(ts, n + 1, NamespaceFrom(ts, n + 1), cls);
    } else {
      ScanFindsNamespace(ts, i + 1, cls, n);
    }
  }

  // Token streams of the shapes the parser's tests use.

  const NS: Token := Tok(NamespaceKind, "namespace")
  const CLS: Token := Tok(ClassKind, "class")
  const SP: Token := Tok(OtherKind(392), " ")
  const SEP: Token := Tok(SeparatorKind, "\\")

  function Name(s: string): Token {
    Tok(NameKind, s)
  }

  /** `namespace App\Model; class User {}` */
  const STANDARD: seq<Token> := [NS, Name("App"), SEP, Name("Model"), Punct(';'), CLS, Name("User"), Punct('{'), Punct('}')]

  /** `class User {}` */
  const UNNAMESPACED: seq<Token> := [CLS, SP, Name("User"), SP, Punct('{'), Punct('}')]

  /** `namespace App { class User {} }` */
  const BRACED: seq<Token> := [NS, Name("App"), Punct('{'), CLS, Name("User"), Punct('{'), Punct('}'), Punct('}')]

  /** `namespace A; class X {} namespace B; class Y {}` */
  const TWO_NAMESPACES: seq<Token> :=
    [NS, Name("A"), Punct(';'), CLS, Name("X"), Punct('{'), Punct('}'),
     NS, Name("B"), Punct(';'), CLS, Name("Y"), Punct('{'), Punct('}')]

  /** `interface Shape {}` */
  const INTERFACE_ONLY: seq<Token> := [Tok(OtherKind(370), "interface"), SP, Name("Shape"), Punct('{'), Punct('}')]

  /** `function helper() {}` */
  const NO_CLASS: seq<Token> :=
    [Tok(OtherKind(346), "function"), SP, Name("helper"), Punct('('), Punct(')'), Punct('{'), Punct('}')]

  /** `namespace App; interface Shape {} class Mixed implements Shape {}` */
  const MIXED: seq<Token> :=
    [NS, Name("App"), Punct(';'), Tok(OtherKind(370), "interface"), Name("Shape"), Punct('{'), Punct('}'),
     CLS, Name("Mixed"), Tok(OtherKind(377), "implements"), Name("Shape"), Punct('{'), Punct('}')]

  /** `namespace App; trait Helper {}` */
  const TRAIT_ONLY: seq<Token> := [NS, Name("App"), Punct(';'), Tok(OtherKind(373), "trait"), Name("Helper"), Punct('{'), Punct('}')]

  /** A qualified namespace is collected with its separators and rooted. */
  lemma StandardClassName()
    ensures ScannedName(STANDARD) == "\\App\\Model\\User"
  {
    StandardScan();
    assert FullName("App\\Model", "User") == "\\App\\Model\\User";
  }

  lemma StandardScan()
    ensures Scan(STANDARD, 0, "", "") == ("App\\Model", "User")
  {
    var ts := STANDARD;
    StandardNamespace();
    assert ClassNameFrom(ts, 6) == Some("User");
    assert ClassNameFrom(ts, 5) == Some("User");
    assert Scan(ts, 6, "App\\Model", "User") == ("App\\Model", "User");
    assert Scan(ts, 5, "App\\Model", "") == Scan(ts, 6, "App\\Model", "User");
    assert Scan(ts, 4, "App\\Model", "") == Scan(ts, 5, "App\\Model", "");
    assert Scan(ts, 3, "App\\Model", "") == Scan(ts, 4, "App\\Model", "");
    assert Scan(ts, 2, "App\\Model", "") == Scan(ts, 3, "App\\Model", "");
    assert Scan(ts, 1, "App\\Model", "") == Scan(ts, 2, "App\\Model", "");
    assert "" + NamespaceFrom(ts, 1) == "App\\Model";
  }

  lemma StandardNamespace()
    ensures NamespaceFrom(STANDARD, 1) == "App\\Model"
  {
    var ts := STANDARD;
    assert NamespaceFrom(ts, 4) == "";
    assert NamespaceFrom(ts, 3) == "Model";
    assert NamespaceFrom(ts, 2) == "\\Model";
  }

  /** Without a namespace the name is a backslash and the class name. */
  lemma NoNamespaceClassName()
    ensures ScannedName(UNNAMESPACED) == "\\User"
  {
    var ts := UNNAMESPACED;
    assert ClassNameFrom(ts, 2) == Some("User");
    assert ClassNameFrom(ts, 1) == Some("User");
    assert ClassNameFrom(ts, 0) == Some("User");
    assert Scan(ts, 1, "", "User") == ("", "User");
    assert Scan(ts, 0, "", "") == Scan(ts, 1, "", "User");
  }

  /** A `{` ends a namespace declaration as a `;` does. */
  lemma AlternativeNamespaceSyntax()
    ensures ScannedName(BRACED) == "\\App\\User"
  {
    BracedScan();
    assert FullName("App", "User") == "\\App\\User";
  }

  lemma BracedScan()
    ensures Scan(BRACED, 0, "", "") == ("App", "User")
  {
    var ts := BRACED;
    assert NamespaceFrom(ts, 2) == "";
    assert NamespaceFrom(ts, 1) == "App";
    assert ClassNameFrom(ts, 4) == Some("User");
    assert ClassNameFrom(ts, 3) == Some("User");
    assert Scan(ts, 4, "App", "User") == ("App", "User");
    assert Scan(ts, 3, "App", "") == Scan(ts, 4, "App", "User");
    assert Scan(ts, 2, "App", "") == Scan(ts, 3, "App", "");
    assert Scan(ts, 1, "App", "") == Scan(ts, 2, "App", "");
    assert "" + NamespaceFrom(ts, 1) == "App";
  }

  /** Only the first namespace and the first class count. */
  lemma TwoNamespacesTwoClasses()
    ensures ScannedName(TWO_NAMESPACES) == "\\A\\X"
  {
    TwoNamespacesScan();
    assert FullName("A", "X") == "\\A\\X";
  }

  lemma TwoNamespacesScan()
    ensures Scan(TWO_NAMESPACES, 0, "", "") == ("A", "X")
  {
    var ts := TWO_NAMESPACES;
    assert NamespaceFrom(ts, 2) == "";
    assert NamespaceFrom(ts, 1) == "A";
    assert ClassNameFrom(ts, 4) == Some("X");
    assert ClassNameFrom(ts, 3) == Some("X");
    assert Scan(ts, 4, "A", "X") == ("A", "X");
    assert Scan(ts, 3, "A", "") == Scan(ts, 4, "A", "X");
    assert Scan(ts, 2, "A", "") == Scan(ts, 3, "A", "");
    assert Scan(ts, 1, "A", "") == Scan(ts, 2, "A", "");
    assert "" + NamespaceFrom(ts, 1) == "A";
  }

  /** A file with only an interface has no class token: with no namespace either,
      the name is a lone backslash and the file is invalid whatever is loaded. */
  lemma InterfaceOnlyIsInvalid(w: World)
    ensures Resolve(w, INTERFACE_ONLY).None?
  {
    var ts := INTERFACE_ONLY;
    assert Scan(ts, 5, "", "") == ("", "");
    assert Scan(ts, 4, "", "") == Scan(ts, 5, "", "");
    assert Scan(ts, 3, "", "") == Scan(ts, 4, "", "");
    assert Scan(ts, 2, "", "") == Scan(ts, 3, "", "");
    assert Scan(ts, 1, "", "") == Scan(ts, 2, "", "");
    assert Scan(ts, 0, "", "") == Scan(ts, 1, "", "");
  }

  /** A class name never ends in a namespace separator. */
  predicate RealClassNames(w: World) {
    forall c :: c in w.classes ==> |c| > 0 && c[|c| - 1] != '\\'
  }

  /** With a namespace but no class the name ends in a backslash, so it names no
      class in a table of real class names: the file is invalid and asking for
      its class name is a `LogicException`. */
  lemma NamespacedTraitOnly(w: World, file: string)
    requires RealClassNames(w)
    requires file in w.files && w.files[file] == TRAIT_ONLY
    ensures ScannedName(TRAIT_ONLY) == "\\App\\"
    ensures Resolve(w, TRAIT_ONLY).None?
    ensures !IsValidClass(w, New(w, file).value).1
    ensures GetClassName(w, New(w, file).value).1 == Failure(LogicError(INVALID_CLASS))
  {
    TraitOnlyScan();
    assert FullName("App", "") == "\\App\\";
    var c := Canonical("\\App\\");
    assert c == "App\\" && c[|c| - 1] == '\\';
  }

  lemma TraitOnlyScan()
    ensures Scan(TRAIT_ONLY, 0, "", "") == ("App", "")
  {
    var ts := TRAIT_ONLY;
    assert NamespaceFrom(ts, 2) == "";
    assert NamespaceFrom(ts, 1) == "App";
    assert Scan(ts, 7, "App", "") == ("App", "");
    assert Scan(ts, 6, "App", "") == Scan(ts, 7, "App", "");
    assert Scan(ts, 5, "App", "") == Scan(ts, 6, "App", "");
    assert Scan(ts, 4, "App", "") == Scan(ts, 5, "App", "");
    assert Scan(ts, 3, "App", "") == Scan(ts, 4, "App", "");
    assert Scan(ts, 2, "App", "") == Scan(ts, 3, "App", "");
    assert Scan(ts, 1, "App", "") == Scan(ts, 2, "App", "");
    assert "" + NamespaceFrom(ts, 1) == "App";
  }

  /** A file with no class and no namespace is invalid whatever is loaded, and
      asking for its class name is a `LogicException`. */
  lemma NoClassIsInvalid(w: World, file: string)
    requires file in w.files && w.files[file] == NO_CLASS
    ensures Resolve(w, NO_CLASS).None?
    ensures !IsValidClass(w, New(w, file).value).1
    ensures GetClassName(w, New(w, file).value).1 == Failure(LogicError(INVALID_CLASS))
  {
    var ts := NO_CLASS;
    assert Scan(ts, 7, "", "") == ("", "");
    assert Scan(ts, 6, "", "") == Scan(ts, 7, "", "");
    assert Scan(ts, 5, "", "") == Scan(ts, 6, "", "");
    assert Scan(ts, 4, "", "") == Scan(ts, 5, "", "");
    assert Scan(ts, 3, "", "") == Scan(ts, 4, "", "");
    assert Scan(ts, 2, "", "") == Scan(ts, 3, "", "");
    assert Scan(ts, 1, "", "") == Scan(ts, 2, "", "");
    assert Scan(ts, 0, "", "") == Scan(ts, 1, "", "");
  }

  /** An interface declared before the class does not hide it: the class is
      found, and once it is loaded the file is valid and reports it. */
  lemma MixedInterfaceAndClass(w: World, file: string)
    requires file in w.files && w.files[file] == MIXED
    ensures ScannedName(MIXED) == "\\App\\Mixed"
    ensures "App\\Mixed" in w.classes ==>
              IsValidClass(w, New(w, file).value).1
              && GetClassName(w, New(w, file).value).1 == Success("App\\Mixed")
  {
    MixedScan();
    assert FullName("App", "Mixed") == "\\App\\Mixed";
    assert Canonical("\\App\\Mixed") == "App\\Mixed";
  }

  lemma MixedScan()
    ensures Scan(MIXED, 0, "", "") == ("App", "Mixed")
  {
    var ts := MIXED;
    assert NamespaceFrom(ts, 2) == "";
    assert NamespaceFrom(ts, 1) == "App";
    MixedClassScan();
    assert Scan(ts, 6, "App", "") == Scan(ts, 7, "App", "");
    assert Scan(ts, 5, "App", "") == Scan(ts, 6, "App", "");
    assert Scan(ts, 4, "App", "") == Scan(ts, 5, "App", "");
    assert Scan(ts, 3, "App", "") == Scan(ts, 4, "App", "");
    assert Scan(ts, 2, "App", "") == Scan(ts, 3, "App", "");
    assert Scan(ts, 1, "App", "") == Scan(ts, 2, "App", "");
    assert "" + NamespaceFrom(ts, 1) == "App";
  }

  lemma MixedClassScan()
    ensures Scan(MIXED, 7, "App", "") == ("App", "Mixed")
  {
    var ts := MIXED;
    assert ClassNameFrom(ts, 8) == Some("Mixed");
    assert ClassNameFrom(ts, 7) == Some("Mixed");
    assert Scan(ts, 8, "App", "Mixed") == ("App", "Mixed");
  }
}

=== FILE: config.dfy ===
/** The lock-file bookkeeping (src/Configuration/Config.php): which version of each
    package was installed last, what each operation recorded for each version,
    and which version directories a package ships. */
module Configuration {
  import opened Wrappers
  import opened Strings
  import opened Versions
  import opened FileSystems
  import opened Results

  /** A package's entry in the lock file as the plugin reads it back: the version
      installed last and, per version and operation kind, the recorded extra
      config. */
  datatype Entry = Entry(version: Option<string>, operations: map<string, map<string, ExtraConfig>>)

  /** The whole lock file: package name to entry. */
  type Store = map<string, Entry>

  /** The empty PHP array `[]` read as an entry. */
  function EmptyEntry(): Entry {
    Entry(None, map[])
  }

  /** `$config[$name]['version'] ?? '0'`. */
  function GetLastConfiguredVersion(store: Store, pkg: string): (v: string)
    ensures pkg in store && store[pkg].version.Some? ==> v == store[pkg].version.value
    ensures pkg !in store || store[pkg].version.None? ==> v == "0"
  {
    if pkg in store then store[pkg].version.GetOr("0") else "0"
  }

  /** Where a package keeps its installer files: `{installPath}/.installer`. */
  function InstallerDir(installPath: string): string {
    installPath + "/.installer"
  }

  /** A version directory of `projectDir`: the directory exists, the listing
      (`scandir`) of the project directory names it, it is a directory and its name
      passes the version filter; the version is the name without 'v'. */
  ghost predicate Discovered(fs: FileSystem, base: string, projectDirs: seq<string>,
                             scandir: string -> seq<string>, v: VersionDirectory)
  {
    exists d, name ::
      && d in projectDirs
      && Exists(fs, Path(base, d))
      && name in scandir(Path(base, d))
      && IsDir(fs, Path(Path(base, d), name))
      && IsVersionName(name)
      && v == VersionDirectory(RemoveChar(name, 'v'), Path(Path(base, d), name))
  }

  /** The version directories in one listing, in listing order. */
  function VersionsIn(fs: FileSystem, dir: string, names: seq<string>): (r: seq<VersionDirectory>)
    ensures forall v :: v in r <==>
              exists name :: name in names && IsDir(fs, Path(dir, name)) && IsVersionName(name)
                             && v == VersionDirectory(RemoveChar(name, 'v'), Path(dir, name))
  {
    if |names| == 0 then []
    else
      var name := names[0];
      var rest := VersionsIn(fs, dir, names[1..]);
      assert forall n :: n in names <==> n == name || n in names[1..];
      if IsDir(fs, Path(dir, name)) && IsVersionName(name)
      then [VersionDirectory(RemoveChar(name, 'v'), Path(dir, name))] + rest
      else rest
  }

  /** The version directories of all project directories, in discovery order. */
  function Collect(fs: FileSystem, base: string, projectDirs: seq<string>,
                   scandir: string -> seq<string>): (r: seq<VersionDirectory>)
    ensures forall v :: v in r <==> Discovered(fs, base, projectDirs, scandir, v)
  {
    if |projectDirs| == 0 then []
    else
      var d := projectDirs[0];
      var dir := Path(base, d);
      var here := if Exists(fs, dir) then VersionsIn(fs, dir, scandir(dir)) else [];
      var rest := Collect(fs, base, projectDirs[1..], scandir);
      assert forall e :: e in projectDirs <==> e == d || e in projectDirs[1..];
      here + rest
  }

  /** `getPackageVersions`: every version directory of every project directory of
      the project type, each as often as it is discovered, sorted ascending by
      version; nothing when the package has no installer directory. */
  function GetPackageVersions(fs: FileSystem, installPath: string, projectDirs: seq<string>,
                              scandir: string -> seq<string>): (r: seq<VersionDirectory>)
    ensures !Exists(fs, InstallerDir(installPath)) ==> r == []
    ensures Exists(fs, InstallerDir(installPath)) ==>
              forall v :: v in r <==> Discovered(fs, InstallerDir(installPath), projectDirs, scandir, v)
    ensures Exists(fs, InstallerDir(installPath)) ==>
              multiset(r) == multiset(Collect(fs, InstallerDir(installPath), projectDirs, scandir))
    ensures SortedByVersion(r)
  {
    var base := InstallerDir(installPath);
    if !Exists(fs, base) then []
    else
      var found := Collect(fs, base, projectDirs, scandir);
      var sorted := SortByVersion(found);
      assert forall v :: v in sorted <==> v in multiset(found);
      sorted
  }

  /** The entries strictly newer than `last`, in their original order. */
  function NewerThan(last: string, versions: seq<VersionDirectory>): (r: seq<VersionDirectory>)
    ensures forall v :: v in r <==> v in versions && Less(Components(last), Key(v))
    ensures |r| <= |versions|
  {
    if |versions| == 0 then []
    else
      var rest := NewerThan(last, versions[1..]);
      assert forall e :: e in versions <==> e == versions[0] || e in versions[1..];
      if Less(Components(last), Key(versions[0])) then [versions[0]] + rest else rest
  }

  /** In an ascending list, the versions newer than `last` are a suffix of it: the
      order is kept and nothing newer is skipped. */
  lemma {:induction false} NewerThanIsSuffix(last: string, versions: seq<VersionDirectory>)
    requires SortedByVersion(versions)
    ensures exists k :: 0 <= k <= |versions| && NewerThan(last, versions) == versions[k..]
    decreases |versions|
  {
    if |versions| == 0 {
      assert NewerThan(last, versions) == versions[0..];
    } else if Less(Components(last), Key(versions[0])) {
      AllNewer(last, versions);
      assert NewerThan(last, versions) == versions[0..];
    } else {
      NewerThanIsSuffix(last, versions[1..]);
      var k :| 0 <= k <= |versions[1..]| && NewerThan(last, versions[1..]) == versions[1..][k..];
      assert versions[1..][k..] == versions[k + 1..];
    }
  }

  /** When the first entry of an ascending list is newer than `last`, all are, and
      filtering keeps the whole list. */
  lemma {:induction false} AllNewer(last: string, versions: seq<VersionDirectory>)
    requires SortedByVersion(versions) && |versions| > 0
    requires Less(Components(last), Key(versions[0]))
    ensures NewerThan(last, versions) == versions
    decreases |versions|
  {
    if |versions| > 1 {
      var a := Components(last);
      var b := Key(versions[0]);
      var c := Key(versions[1]);
      LessTrichotomy(b, c);
      if Less(b, c) {
        LessTransitive(a, b, c);
      }
      assert SortedByVersion(versions[1..]) by {
        forall i, j | 0 <= i < j < |versions[1..]|
          ensures !Less(Key(versions[1..][j]), Key(versions[1..][i]))
        {
          assert versions[1..][j] == versions[j + 1] && versions[1..][i] == versions[i + 1];
        }
      }
      AllNewer(last, versions[1..]);
      assert [versions[0]] + versions[1..] == versions;
    }
  }

  /** `getInstallableVersions`: the package's versions strictly newer than the
      last configured one, ascending. */
  function GetInstallableVersions(store: Store, pkg: string, fs: FileSystem, installPath: string,
                                  projectDirs: seq<string>, scandir: string -> seq<string>)
    : (r: seq<VersionDirectory>)
    ensures forall v :: v in r <==>
              v in GetPackageVersions(fs, installPath, projectDirs, scandir)
              && Less(Components(GetLastConfiguredVersion(store, pkg)), Key(v))
    ensures exists k :: 0 <= k <= |GetPackageVersions(fs, installPath, projectDirs, scandir)|
              && r == GetPackageVersions(fs, installPath, projectDirs, scandir)[k..]
  {
    var all := GetPackageVersions(fs, installPath, projectDirs, scandir);
    NewerThanIsSuffix(GetLastConfiguredVersion(store, pkg), all);
    NewerThan(GetLastConfiguredVersion(store, pkg), all)
  }

  /** `getConfig`: the package's entry, or the empty entry for an unknown package. */
  function GetConfig(store: Store, pkg: string): (e: Entry)
    ensures pkg !in store ==> e == EmptyEntry()
    ensures pkg in store ==> e == store[pkg]
  {
    if pkg in store then store[pkg] else EmptyEntry()
  }

  /** `addConfig`: merges `cfg` into the package's entry with the merge helper
      `merge` (which is not part of this model); every other package is left as
      it was. */
  function AddConfig(store: Store, pkg: string, cfg: Entry, merge: (Entry, Entry) -> Entry): (r: Store)
    ensures r.Keys == store.Keys + {pkg}
    ensures r[pkg] == merge(GetConfig(store, pkg), cfg)
    ensures forall other :: other in store && other != pkg ==> r[other] == store[other]
  {
    store[pkg := merge(GetConfig(store, pkg), cfg)]
  }

  /** `removeConfig`: drops the package's entry; a no-op for an unknown package. */
  function RemoveConfig(store: Store, pkg: string): (r: Store)
    ensures r.Keys == store.Keys - {pkg}
    ensures forall other :: other in r ==> r[other] == store[other]
    ensures pkg !in store ==> r == store
  {
    store - {pkg}
  }

  /** Whatever was added for a package, removing it leaves the store as removing it
      from the original would, and reading it back gives the empty entry. */
  lemma RemoveUndoesAdd(store: Store, pkg: string, cfg: Entry, merge: (Entry, Entry) -> Entry)
    ensures RemoveConfig(AddConfig(store, pkg, cfg, merge), pkg) == RemoveConfig(store, pkg)
    ensures GetConfig(RemoveConfig(AddConfig(store, pkg, cfg, merge), pkg), pkg) == EmptyEntry()
  {
    var a := AddConfig(store, pkg, cfg, merge);
    assert RemoveConfig(a, pkg).Keys == RemoveConfig(store, pkg).Keys;
  }
}

=== FILE: copy_files_operation.dfy ===
/** The copy-files operation (src/Operations/CopyFilesOperation.php): install copies
    the package's `files` trees into the project root without overwriting anything;
    uninstall deletes the copies that are still unchanged and the directories that
    end up empty. */
module CopyFiles {
  import opened Wrappers
  import opened FileSystems
  import opened Results
  import Messages

  const KIND: string := "copyFiles"

  /** An entry of a package's `files` tree, as the recursive directory iterator
      lists it (the order within a directory is whatever the listing gives). */
  datatype Item = FileItem(name: string, content: string) | DirItem(name: string, children: seq<Item>)

  /** One step of the walk: the sub-path name, the sub-path of the directory it is
      in (`None` at the top), whether it is a directory, and a file's text. */
  datatype Visit = Visit(sub: string, parent: Option<string>, isDir: bool, content: string)

  /** `{installDir}/.installer/{projectDir}/files` */
  function SourceDir(installDir: string, projectDir: string): string {
    Path(Path(Path(installDir, ".installer"), projectDir), "files")
  }

  function SubPath(prefix: Option<string>, name: string): string {
    match prefix
    case None => name
    case Some(p) => Path(p, name)
  }

  /** The project-side path of a visit: `{root}/{subPathname}`. */
  function Target(root: string, v: Visit): string {
    Path(root, v.sub)
  }

  /** The directory a visit's target lies in. */
  function ParentTarget(root: string, v: Visit): string {
    match v.parent
    case None => root
    case Some(p) => Path(root, p)
  }

  /** The walk with `SELF_FIRST`: a directory is visited before its contents. */
  function SelfFirst(items: seq<Item>, prefix: Option<string>): seq<Visit>
    decreases items
  {
    if |items| == 0 then []
    else
      var sub := SubPath(prefix, items[0].name);
      var here := match items[0]
        case FileItem(_, c) => [Visit(sub, prefix, false, c)]
        case DirItem(_, ch) => [Visit(sub, prefix, true, "")] + SelfFirst(ch, Some(sub));
      here + SelfFirst(items[1..], prefix)
  }

  /** The walk with `CHILD_FIRST`: a directory is visited after its contents. */
  function ChildFirst(items: seq<Item>, prefix: Option<string>): seq<Visit>
    decreases items
  {
    if |items| == 0 then []
    else
      var sub := SubPath(prefix, items[0].name);
      var here := match items[0]
        case FileItem(_, c) => [Visit(sub, prefix, false, c)]
        case DirItem(_, ch) => ChildFirst(ch, Some(sub)) + [Visit(sub, prefix, true, "")];
      here + ChildFirst(items[1..], prefix)
  }

  /** Both walks visit the same entries, only in a different order. */
  lemma {:induction false} SameVisits(items: seq<Item>, prefix: Option<string>)
    ensures multiset(SelfFirst(items, prefix)) == multiset(ChildFirst(items, prefix))
    decreases items
  {
    if |items| > 0 {
      SameVisits(items[1..], prefix);
      var sub := SubPath(prefix, items[0].name);
      if items[0].DirItem? {
        SameVisits(items[0].children, Some(sub));
      }
    }
  }

  /** Every visit below the top level `prefix` has its directory visited earlier. */
  predicate ParentsBefore(w: seq<Visit>, prefix: Option<string>) {
    forall i :: 0 <= i < |w| && w[i].parent.Some? && w[i].parent != prefix ==>
      exists j :: 0 <= j < i && w[j].isDir && Some(w[j].sub) == w[i].parent
  }

  /** Every visit below the top level `prefix` has its directory visited later. */
  predicate ParentsAfter(w: seq<Visit>, prefix: Option<string>) {
    forall i :: 0 <= i < |w| && w[i].parent.Some? && w[i].parent != prefix ==>
      exists j :: i < j < |w| && w[j].isDir && Some(w[j].sub) == w[i].parent
  }

  /** Putting visits in front keeps the later ones' directories earlier. */
  lemma ParentsBeforeShift(front: seq<Visit>, tail: seq<Visit>, prefix: Option<string>)
    requires ParentsBefore(tail, prefix)
    ensures forall i :: |front| <= i < |front + tail| && (front + tail)[i].parent.Some?
                        && (front + tail)[i].parent != prefix ==>
              exists j :: 0 <= j < i && (front + tail)[j].isDir && Some((front + tail)[j].sub) == (front + tail)[i].parent
  {
    var w := front + tail;
    forall i | |front| <= i < |w| && w[i].parent.Some? && w[i].parent != prefix
      ensures exists j :: 0 <= j < i && w[j].isDir && Some(w[j].sub) == w[i].parent
    {
      assert w[i] == tail[i - |front|];
      var j :| 0 <= j < i - |front| && tail[j].isDir && Some(tail[j].sub) == tail[i - |front|].parent;
      assert w[j + |front|] == tail[j];
    }
  }

  /** Putting visits behind keeps the earlier ones' directories later. */
  lemma ParentsAfterShift(front: seq<Visit>, tail: seq<Visit>, prefix: Option<string>)
    requires ParentsAfter(front, prefix)
    ensures forall i :: 0 <= i < |front| && (front + tail)[i].parent.Some? && (front + tail)[i].parent != prefix ==>
              exists j :: i < j < |front + tail| && (front + tail)[j].isDir && Some((front + tail)[j].sub) == (front + tail)[i].parent
  {
    var w := front + tail;
    forall i | 0 <= i < |front| && w[i].parent.Some? && w[i].parent != prefix
      ensures exists j :: i < j < |w| && w[j].isDir && Some(w[j].sub) == w[i].parent
    {
      assert w[i] == front[i];
      var j :| i < j < |front| && front[j].isDir && Some(front[j].sub) == front[i].parent;
      assert w[j] == front[j];
    }
  }

  /** With `SELF_FIRST` every visit below the top comes after its directory. */
  lemma {:induction false} ParentsFirst(items: seq<Item>, prefix: Option<string>)
    ensures ParentsBefore(SelfFirst(items, prefix), prefix)
    decreases items
  {
    var w := SelfFirst(items, prefix);
    if |items| > 0 {
      var sub := SubPath(prefix, items[0].name);
      ParentsFirst(items[1..], prefix);
      var tail := SelfFirst(items[1..], prefix);
      if items[0].DirItem? {
        var inner := SelfFirst(items[0].children, Some(sub));
        var head := Visit(sub, prefix, true, "");
        ParentsFirst(items[0].children, Some(sub));
        assert w == [head] + inner + tail;
        ParentsBeforeShift([head] + inner, tail, prefix);
        ParentsBeforeShift([head], inner, Some(sub));
        forall i | 0 <= i < |w| && w[i].parent.Some? && w[i].parent != prefix
          ensures exists j :: 0 <= j < i && w[j].isDir && Some(w[j].sub) == w[i].parent
        {
          if i < 1 + |inner| {
            assert w[i] == ([head] + inner)[i];
            if w[i].parent == Some(sub) {
              assert w[0] == head;
            } else {
              var j :| 0 <= j < i && ([head] + inner)[j].isDir && Some(([head] + inner)[j].sub) == w[i].parent;
              assert w[j] == ([head] + inner)[j];
            }
          }
        }
      } else {
        var head := Visit(sub, prefix, false, items[0].content);
        assert w == [head] + tail;
        ParentsBeforeShift([head], tail, prefix);
      }
    }
  }

  /** With `CHILD_FIRST` every visit below the top comes before its directory:
      children are handled first. */
  lemma {:induction false} ChildrenFirst(items: seq<Item>, prefix: Option<string>)
    ensures ParentsAfter(ChildFirst(items, prefix), prefix)
    decreases items
  {
    var w := ChildFirst(items, prefix);
    if |items| > 0 {
      var sub := SubPath(prefix, items[0].name);
      ChildrenFirst(items[1..], prefix);
      var tail := ChildFirst(items[1..], prefix);
      if items[0].DirItem? {
        var inner := ChildFirst(items[0].children, Some(sub));
        var last := Visit(sub, prefix, true, "");
        ChildrenFirst(items[0].children, Some(sub));
        assert w == inner + [last] + tail;
        DirAfterChildren(inner, last, tail, prefix);
      } else {
        var last := Visit(sub, prefix, false, items[0].content);
        assert w == [last] + tail;
        FileBeforeRest(last, tail, prefix);
      }
    }
  }

  /** A directory's visits, then the directory, then later siblings' visits. */
  lemma DirAfterChildren(inner: seq<Visit>, last: Visit, tail: seq<Visit>, prefix: Option<string>)
    requires ParentsAfter(inner, Some(last.sub)) && ParentsAfter(tail, prefix)
    requires last.isDir && last.parent == prefix
    ensures ParentsAfter(inner + [last] + tail, prefix)
  {
    var w := inner + [last] + tail;
    ParentsAfterShift(inner, [last] + tail, Some(last.sub));
    forall i | 0 <= i < |w| && w[i].parent.Some? && w[i].parent != prefix
      ensures exists j :: i < j < |w| && w[j].isDir && Some(w[j].sub) == w[i].parent
    {
      if i < |inner| {
        assert w[i] == inner[i];
        if w[i].parent == Some(last.sub) {
          assert w[|inner|] == last;
        } else {
          assert w == inner + ([last] + tail);
        }
      } else if i == |inner| {
        assert false;
      } else {
        assert w[i] == tail[i - |inner| - 1];
        var j :| i - |inner| - 1 < j < |tail| && tail[j].isDir && Some(tail[j].sub) == tail[i - |inner| - 1].parent;
        assert w[j + |inner| + 1] == tail[j];
      }
    }
  }

  /** A visit directly under the top, then the rest. */
  lemma FileBeforeRest(last: Visit, tail: seq<Visit>, prefix: Option<string>)
    requires ParentsAfter(tail, prefix) && last.parent == prefix
    ensures ParentsAfter([last] + tail, prefix)
  {
    var w := [last] + tail;
    forall i | 0 <= i < |w| && w[i].parent.Some? && w[i].parent != prefix
      ensures exists j :: i < j < |w| && w[j].isDir && Some(w[j].sub) == w[i].parent
    {
      assert i >= 1 && w[i] == tail[i - 1];
      var j :| i - 1 < j < |tail| && tail[j].isDir && Some(tail[j].sub) == tail[i - 1].parent;
      assert w[j + 1] == tail[j];
    }
  }

  /** `b` holds every node of `a` unchanged; the locked paths are the same. */
  predicate Grows(a: FileSystem, b: FileSystem) {
    a.locked == b.locked && forall q :: q in a.nodes ==> q in b.nodes && b.nodes[q] == a.nodes[q]
  }

  /** Every visit's target is in place: a directory for a directory, anything for
      a file. */
  predicate Covers(fs: FileSystem, root: string, visits: seq<Visit>) {
    forall v :: v in visits ==> if v.isDir then IsDir(fs, Target(root, v)) else Exists(fs, Target(root, v))
  }

  lemma CoversGrows(a: FileSystem, b: FileSystem, root: string, visits: seq<Visit>)
    requires Covers(a, root, visits) && Grows(a, b)
    ensures Covers(b, root, visits)
  {
  }

  /** One install step: a missing directory is created, a missing file is copied;
      whatever exists already is left alone. Creating fails when the target is
      taken or locked or its directory is missing; the error names the target. */
  function InstallVisit(fs: FileSystem, root: string, v: Visit): (res: (FileSystem, Option<string>))
    ensures Grows(fs, res.0)
    ensures res.1.None? ==> if v.isDir then IsDir(res.0, Target(root, v)) else Exists(res.0, Target(root, v))
    ensures (if v.isDir then IsDir(fs, Target(root, v)) else Exists(fs, Target(root, v))) ==> res == (fs, None)
    ensures forall q :: q in res.0.nodes && q !in fs.nodes ==>
              q == Target(root, v) && res.0.nodes[q] == (if v.isDir then Dir else File(v.content))
  {
    var t := Target(root, v);
    var parentOk := IsDir(fs, ParentTarget(root, v));
    if v.isDir then
      if IsDir(fs, t) then (fs, None)
      else match (if parentOk then Mkdir(fs, t) else None)
        case None => (fs, Some("<error>Could not create target directory '" + t + "'</error>"))
        case Some(fs1) => (fs1, None)
    else if Exists(fs, t) then (fs, None)
    else match (if parentOk then CopyTo(fs, t, v.content) else None)
      case None => (fs, Some("<error>Could not copy file to '" + t + "'</error>"))
      case Some(fs1) => (fs1, None)
  }

  /** A step's error, if any, as a list. */
  function ErrorList(e: Option<string>): (l: seq<string>)
    ensures |l| == 0 <==> e.None?
  {
    match e
    case None => []
    case Some(text) => [text]
  }

  /** The install walk over one tree, collecting the error texts. */
  function InstallVisits(fs: FileSystem, root: string, visits: seq<Visit>): (res: (FileSystem, seq<string>))
    ensures Grows(fs, res.0)
    ensures forall q :: q in res.0.nodes && q !in fs.nodes ==>
              exists v :: v in visits && q == Target(root, v) && res.0.nodes[q] == (if v.isDir then Dir else File(v.content))
    decreases |visits|
  {
    if |visits| == 0 then (fs, [])
    else
      var (fs1, e) := InstallVisit(fs, root, visits[0]);
      var (fs2, es) := InstallVisits(fs1, root, visits[1..]);
      assert forall q :: q in fs2.nodes && q !in fs1.nodes ==>
        exists v :: v in visits[1..] && q == Target(root, v) && fs2.nodes[q] == (if v.isDir then Dir else File(v.content));
      (fs2, ErrorList(e) + es)
  }

  /** A walk without errors puts every target in place. */
  lemma {:induction false} InstallVisitsCovers(fs: FileSystem, root: string, visits: seq<Visit>)
    requires |InstallVisits(fs, root, visits).1| == 0
    ensures Covers(InstallVisits(fs, root, visits).0, root, visits)
    decreases |visits|
  {
    if |visits| > 0 {
      var (fs1, e) := InstallVisit(fs, root, visits[0]);
      InstallVisitsCovers(fs1, root, visits[1..]);
      var fs2 := InstallVisits(fs1, root, visits[1..]).0;
      assert Covers(fs1, root, visits[..1]);
      CoversGrows(fs1, fs2, root, visits[..1]);
      assert visits == visits[..1] + visits[1..];
    }
  }

  /** A walk whose targets are all in place changes nothing and reports nothing. */
  lemma {:induction false} InstallVisitsCovered(fs: FileSystem, root: string, visits: seq<Visit>)
    requires Covers(fs, root, visits)
    ensures InstallVisits(fs, root, visits) == (fs, [])
    decreases |visits|
  {
    if |visits| > 0 {
      assert visits[0] in visits;
      assert InstallVisit(fs, root, visits[0]) == (fs, None);
      assert Covers(fs, root, visits[1..]) by {
        forall v | v in visits[1..]
          ensures if v.isDir then IsDir(fs, Target(root, v)) else Exists(fs, Target(root, v))
        {
          assert v in visits;
        }
      }
      InstallVisitsCovered(fs, root, visits[1..]);
      assert InstallVisits(fs, root, visits[1..]) == (fs, []);
      assert ErrorList(None) + [] == [];
    }
  }

  /** The loop over the project directories: each one whose `files` directory
      exists at that moment is walked `SELF_FIRST`. `listing` stands for the
      recursive directory iterator. */
  function InstallDirs(fs: FileSystem, root: string, installDir: string, dirs: seq<string>,
                       listing: string -> seq<Item>)
    : (res: (FileSystem, seq<string>))
    ensures Grows(fs, res.0)
    decreases |dirs|
  {
    if |dirs| == 0 then (fs, [])
    else
      var src := SourceDir(installDir, dirs[0]);
      var (fs1, e1) := if IsDir(fs, src) then InstallVisits(fs, root, SelfFirst(listing(src), None)) else (fs, []);
      var (fs2, e2) := InstallDirs(fs1, root, installDir, dirs[1..], listing);
      (fs2, e1 + e2)
  }

  /** `install`: the error lines in walk order, then, if there was none, one status
      line; the result is therefore never neutral. Nothing that existed before is
      touched. */
  function Install(fs: FileSystem, root: string, installDir: string, pkg: string, dirs: seq<string>,
                   listing: string -> seq<Item>)
    : (res: (FileSystem, OperationResult))
    ensures Grows(fs, res.0)
    ensures !IsNeutral(res.1) && res.1.extraConfig == map[]
    ensures IsSuccess(res.1) <==> |InstallDirs(fs, root, installDir, dirs, listing).1| == 0
    ensures IsSuccess(res.1) ==> |MessagesOf(res.1)| == 1
    ensures IsFailure(res.1) ==>
              var errors := InstallDirs(fs, root, installDir, dirs, listing).1;
              |MessagesOf(res.1)| == |errors|
              && forall i :: 0 <= i < |errors| ==> MessagesOf(res.1)[i] == Messages.CreateError(errors[i])
  {
    var (fs1, errors) := InstallDirs(fs, root, installDir, dirs, listing);
    var r := WithErrorTexts(Fresh(), errors);
    if IsFailure(r) then (fs1, r)
    else (fs1, WithStatus(r, "Successfully copied files from package " + pkg))
  }

  /** The walked project directories: those whose `files` directory is present. */
  predicate SourcesStable(a: FileSystem, b: FileSystem, installDir: string, dirs: seq<string>) {
    forall d :: d in dirs ==> (IsDir(a, SourceDir(installDir, d)) <==> IsDir(b, SourceDir(installDir, d)))
  }

  lemma {:induction false} InstallDirsIdempotent(fs: FileSystem, root: string, installDir: string,
                                                 dirs: seq<string>, listing: string -> seq<Item>)
    requires |InstallDirs(fs, root, installDir, dirs, listing).1| == 0
    requires SourcesStable(fs, InstallDirs(fs, root, installDir, dirs, listing).0, installDir, dirs)
    ensures var fs1 := InstallDirs(fs, root, installDir, dirs, listing).0;
            InstallDirs(fs1, root, installDir, dirs, listing) == (fs1, [])
    decreases |dirs|
  {
    if |dirs| > 0 {
      var src := SourceDir(installDir, dirs[0]);
      var final := InstallDirs(fs, root, installDir, dirs, listing).0;
      var step := if IsDir(fs, src) then InstallVisits(fs, root, SelfFirst(listing(src), None)) else (fs, []);
      var fs1 := step.0;
      assert final == InstallDirs(fs1, root, installDir, dirs[1..], listing).0;
      assert Grows(fs1, final);
      assert SourcesStable(fs1, final, installDir, dirs[1..]) by {
        forall d | d in dirs[1..]
          ensures IsDir(fs1, SourceDir(installDir, d)) <==> IsDir(final, SourceDir(installDir, d))
        {
          assert d in dirs;
        }
      }
      InstallDirsIdempotent(fs1, root, installDir, dirs[1..], listing);
      assert dirs[0] in dirs;
      if IsDir(fs, src) {
        var visits := SelfFirst(listing(src), None);
        InstallVisitsCovers(fs, root, visits);
        CoversGrows(fs1, final, root, visits);
        InstallVisitsCovered(final, root, visits);
      }
    }
  }

  /** Installing a second time over the first run's output, when the first run
      reported no error and did not itself create or remove a `files` directory,
      writes nothing and succeeds again. */
  lemma InstallIdempotent(fs: FileSystem, root: string, installDir: string, pkg: string, dirs: seq<string>,
                          listing: string -> seq<Item>)
    requires IsSuccess(Install(fs, root, installDir, pkg, dirs, listing).1)
    requires SourcesStable(fs, Install(fs, root, installDir, pkg, dirs, listing).0, installDir, dirs)
    ensures var fs1 := Install(fs, root, installDir, pkg, dirs, listing).0;
            var (fs2, r2) := Install(fs1, root, installDir, pkg, dirs, listing);
            fs2 == fs1 && IsSuccess(r2)
  {
    InstallDirsIdempotent(fs, root, installDir, dirs, listing);
  }

  /** `b` is `a` with some nodes removed; the locked paths are the same. */
  predicate Shrinks(a: FileSystem, b: FileSystem) {
    a.locked == b.locked && forall q :: q in b.nodes ==> q in a.nodes && b.nodes[q] == a.nodes[q]
  }

  /** Whether the file at `q` is the unchanged copy of a visited source file:
      `sha1` of both sides agree. */
  predicate Unchanged(fs: FileSystem, root: string, visits: seq<Visit>, q: string, hash: string -> string) {
    exists v :: v in visits && !v.isDir && Target(root, v) == q && hash(TextAt(fs, q)) == hash(v.content)
  }

  /** Whether the uninstall step for `v` can take its target away: an empty,
      unlocked directory for a directory visit, an unlocked file that still hashes
      like its source for a file visit. */
  predicate Removable(fs: FileSystem, root: string, v: Visit, hash: string -> string) {
    var t := Target(root, v);
    && t !in fs.locked
    && if v.isDir then IsDir(fs, t) && !HasChildren(fs, t)
       else IsFile(fs, t) && hash(TextAt(fs, t)) == hash(v.content)
  }

  /** One uninstall step: a missing target is skipped; a directory target is
      removed if empty (silently); a file target is deleted only when its hash
      matches the source's, and a failed deletion is an error. */
  function UninstallVisit(fs: FileSystem, root: string, v: Visit, hash: string -> string)
    : (res: (FileSystem, Option<string>))
    ensures Shrinks(fs, res.0)
    ensures forall q :: q in fs.nodes && q !in res.0.nodes ==>
              q == Target(root, v) && (if v.isDir then IsDir(fs, q) else hash(TextAt(fs, q)) == hash(v.content))
    ensures Target(root, v) in fs.nodes ==> (Target(root, v) !in res.0.nodes <==> Removable(fs, root, v, hash))
    ensures res.1.Some? <==> && !v.isDir && Exists(fs, Target(root, v))
                             && hash(TextAt(fs, Target(root, v))) == hash(v.content)
                             && !(IsFile(fs, Target(root, v)) && Target(root, v) !in fs.locked)
  {
    var t := Target(root, v);
    if !Exists(fs, t) then (fs, None)
    else if v.isDir then (Rmdir(fs, t), None)
    else if hash(TextAt(fs, t)) == hash(v.content) then
      match Unlink(fs, t)
      case None => (fs, Some("<error>Could not delete file '" + t + "'</error>"))
      case Some(fs1) => (fs1, None)
    else (fs, None)
  }

  /** The uninstall walk over one tree. Only visited targets disappear: a file only
      when it still hashes like its source, a directory only when it was visited as
      one. */
  function UninstallVisits(fs: FileSystem, root: string, visits: seq<Visit>, hash: string -> string)
    : (res: (FileSystem, seq<string>))
    ensures Shrinks(fs, res.0)
    ensures forall q :: q in fs.nodes && q !in res.0.nodes ==>
              if fs.nodes[q].File? then Unchanged(fs, root, visits, q, hash)
              else exists v :: v in visits && v.isDir && Target(root, v) == q
    decreases |visits|
  {
    if |visits| == 0 then (fs, [])
    else
      var (fs1, e) := UninstallVisit(fs, root, visits[0], hash);
      var (fs2, es) := UninstallVisits(fs1, root, visits[1..], hash);
      assert forall q :: q in fs.nodes && q !in fs2.nodes ==>
        if fs.nodes[q].File? then Unchanged(fs, root, visits, q, hash)
        else exists v :: v in visits && v.isDir && Target(root, v) == q
      by {
        forall q | q in fs.nodes && q !in fs2.nodes
          ensures if fs.nodes[q].File? then Unchanged(fs, root, visits, q, hash)
                  else exists v :: v in visits && v.isDir && Target(root, v) == q
        {
          assert visits[0] in visits;
          if q in fs1.nodes {
            assert TextAt(fs1, q) == TextAt(fs, q);
            if fs.nodes[q].File? {
              var v :| v in visits[1..] && !v.isDir && Target(root, v) == q && hash(TextAt(fs1, q)) == hash(v.content);
              assert v in visits;
            } else {
              var v :| v in visits[1..] && v.isDir && Target(root, v) == q;
              assert v in visits;
            }
          }
        }
      }
      (fs2, ErrorList(e) + es)
  }

  /** A target the step could take away stays so while the walk only takes nodes
      away: it is either gone already or still removable. */
  lemma RemovableShrinks(a: FileSystem, b: FileSystem, root: string, v: Visit, hash: string -> string)
    requires Shrinks(a, b) && Removable(a, root, v, hash)
    ensures Target(root, v) !in b.nodes || Removable(b, root, v, hash)
  {
    var t := Target(root, v);
    if t in b.nodes && v.isDir {
      assert IsDir(b, t);
    }
  }

  /** The walk over one tree takes away every target that was removable when it
      started: each unchanged copy and each empty directory it visits. */
  lemma {:induction false} UninstallVisitsRemoves(fs: FileSystem, root: string, visits: seq<Visit>,
                                                  hash: string -> string)
    ensures forall v :: v in visits && Removable(fs, root, v, hash) ==>
              Target(root, v) !in UninstallVisits(fs, root, visits, hash).0.nodes
    decreases |visits|
  {
    if |visits| > 0 {
      var fs1 := UninstallVisit(fs, root, visits[0], hash).0;
      var fs2 := UninstallVisits(fs1, root, visits[1..], hash).0;
      assert UninstallVisits(fs, root, visits, hash).0 == fs2;
      UninstallVisitsRemoves(fs1, root, visits[1..], hash);
      forall v | v in visits && Removable(fs, root, v, hash)
        ensures Target(root, v) !in fs2.nodes
      {
        RemovableShrinks(fs, fs1, root, v, hash);
        if Target(root, v) in fs1.nodes && v != visits[0] {
          assert v in visits[1..];
        }
      }
    }
  }

  /** Every visit any project directory's tree could produce. */
  predicate Walked(installDir: string, dirs: seq<string>, listing: string -> seq<Item>, v: Visit) {
    exists d :: d in dirs && v in ChildFirst(listing(SourceDir(installDir, d)), None)
  }

  /** The loop over the project directories, each walked `CHILD_FIRST`. */
  function UninstallDirs(fs: FileSystem, root: string, installDir: string, dirs: seq<string>,
                         listing: string -> seq<Item>, hash: string -> string)
    : (res: (FileSystem, seq<string>))
    ensures Shrinks(fs, res.0)
    ensures forall q :: q in fs.nodes && q !in res.0.nodes ==>
              exists v :: Walked(installDir, dirs, listing, v) && Target(root, v) == q
                          && (if fs.nodes[q].File? then !v.isDir && hash(TextAt(fs, q)) == hash(v.content) else v.isDir)
    decreases |dirs|
  {
    if |dirs| == 0 then (fs, [])
    else
      var src := SourceDir(installDir, dirs[0]);
      var visits := ChildFirst(listing(src), None);
      var (fs1, e1) := if IsDir(fs, src) then UninstallVisits(fs, root, visits, hash) else (fs, []);
      var (fs2, e2) := UninstallDirs(fs1, root, installDir, dirs[1..], listing, hash);
      assert forall q :: q in fs.nodes && q !in fs2.nodes ==>
        exists v :: Walked(installDir, dirs, listing, v) && Target(root, v) == q
                    && (if fs.nodes[q].File? then !v.isDir && hash(TextAt(fs, q)) == hash(v.content) else v.isDir)
      by {
        forall q | q in fs.nodes && q !in fs2.nodes
          ensures exists v :: Walked(installDir, dirs, listing, v) && Target(root, v) == q
                    && (if fs.nodes[q].File? then !v.isDir && hash(TextAt(fs, q)) == hash(v.content) else v.isDir)
        {
          assert dirs[0] in dirs;
          if q in fs1.nodes {
            assert TextAt(fs1, q) == TextAt(fs, q) && fs1.nodes[q] == fs.nodes[q];
            var v :| Walked(installDir, dirs[1..], listing, v) && Target(root, v) == q
                     && (if fs1.nodes[q].File? then !v.isDir && hash(TextAt(fs1, q)) == hash(v.content) else v.isDir);
            var d :| d in dirs[1..] && v in ChildFirst(listing(SourceDir(installDir, d)), None);
            assert d in dirs;
          } else if fs.nodes[q].File? {
            var v :| v in visits && !v.isDir && Target(root, v) == q && hash(TextAt(fs, q)) == hash(v.content);
            assert Walked(installDir, dirs, listing, v);
          } else {
            var v :| v in visits && v.isDir && Target(root, v) == q;
            assert Walked(installDir, dirs, listing, v);
          }
        }
      }
      (fs2, e1 + e2)
  }

  /** A visit of a tree the loop actually walks: that of a project directory whose
      `files` directory exists. */
  predicate WalkedLive(fs: FileSystem, installDir: string, dirs: seq<string>, listing: string -> seq<Item>, v: Visit) {
    exists d :: d in dirs && IsDir(fs, SourceDir(installDir, d)) && v in ChildFirst(listing(SourceDir(installDir, d)), None)
  }

  /** No target of the walk is one of the trees being walked. */
  ghost predicate TargetsApart(root: string, installDir: string, dirs: seq<string>, listing: string -> seq<Item>) {
    forall v, d :: Walked(installDir, dirs, listing, v) && d in dirs ==> Target(root, v) != SourceDir(installDir, d)
  }

  /** The loop over the project directories takes away every target of a walked
      tree that was removable when it started. */
  lemma {:induction false} UninstallDirsRemoves(fs: FileSystem, root: string, installDir: string, dirs: seq<string>,
                                                listing: string -> seq<Item>, hash: string -> string)
    requires TargetsApart(root, installDir, dirs, listing)
    ensures forall v :: WalkedLive(fs, installDir, dirs, listing, v) && Removable(fs, root, v, hash) ==>
              Target(root, v) !in UninstallDirs(fs, root, installDir, dirs, listing, hash).0.nodes
    decreases |dirs|
  {
    if |dirs| > 0 {
      var src := SourceDir(installDir, dirs[0]);
      var visits := ChildFirst(listing(src), None);
      var fs1 := if IsDir(fs, src) then UninstallVisits(fs, root, visits, hash).0 else fs;
      var fs2 := UninstallDirs(fs1, root, installDir, dirs[1..], listing, hash).0;
      assert UninstallDirs(fs, root, installDir, dirs, listing, hash).0 == fs2;
      if IsDir(fs, src) {
        UninstallVisitsRemoves(fs, root, visits, hash);
      }
      assert TargetsApart(root, installDir, dirs[1..], listing) by {
        forall v, d | Walked(installDir, dirs[1..], listing, v) && d in dirs[1..]
          ensures Target(root, v) != SourceDir(installDir, d)
        {
          var e :| e in dirs[1..] && v in ChildFirst(listing(SourceDir(installDir, e)), None);
          assert e in dirs && d in dirs;
          assert Walked(installDir, dirs, listing, v);
        }
      }
      UninstallDirsRemoves(fs1, root, installDir, dirs[1..], listing, hash);
      forall v | WalkedLive(fs, installDir, dirs, listing, v) && Removable(fs, root, v, hash)
        ensures Target(root, v) !in fs2.nodes
      {
        RemovableShrinks(fs, fs1, root, v, hash);
        var d :| d in dirs && IsDir(fs, SourceDir(installDir, d)) && v in ChildFirst(listing(SourceDir(installDir, d)), None);
        if Target(root, v) in fs1.nodes && d != dirs[0] {
          assert d in dirs[1..];
          var sd := SourceDir(installDir, d);
          assert IsDir(fs1, sd);
          assert WalkedLive(fs1, installDir, dirs[1..], listing, v);
        }
      }
    }
  }

  /** Uninstall takes away every unchanged copy and every directory that was empty,
      among the targets of the trees it walks (sources and targets kept apart). */
  lemma UninstallRemovesCopies(fs: FileSystem, root: string, installDir: string, pkg: string, dirs: seq<string>,
                               listing: string -> seq<Item>, hash: string -> string)
    requires TargetsApart(root, installDir, dirs, listing)
    ensures forall v :: WalkedLive(fs, installDir, dirs, listing, v) && Removable(fs, root, v, hash) ==>
              Target(root, v) !in Uninstall(fs, root, installDir, pkg, dirs, listing, hash).0.nodes
  {
    UninstallDirsRemoves(fs, root, installDir, dirs, listing, hash);
  }

  /** `uninstall`: nothing is created or changed; a file disappears only if some
      source file maps to it with the same hash, so edited copies survive; a
      directory disappears only if some source directory maps to it. The error
      lines come in walk order, and without error there is one status line. */
  function Uninstall(fs: FileSystem, root: string, installDir: string, pkg: string, dirs: seq<string>,
                     listing: string -> seq<Item>, hash: string -> string)
    : (res: (FileSystem, OperationResult))
    ensures Shrinks(fs, res.0)
    ensures forall q :: q in fs.nodes && q !in res.0.nodes ==>
              exists v :: Walked(installDir, dirs, listing, v) && Target(root, v) == q
                          && (if fs.nodes[q].File? then !v.isDir && hash(TextAt(fs, q)) == hash(v.content) else v.isDir)
    ensures !IsNeutral(res.1) && res.1.extraConfig == map[]
    ensures IsSuccess(res.1) <==> |UninstallDirs(fs, root, installDir, dirs, listing, hash).1| == 0
    ensures IsSuccess(res.1) ==> |MessagesOf(res.1)| == 1
    ensures IsFailure(res.1) ==>
              var errors := UninstallDirs(fs, root, installDir, dirs, listing, hash).1;
              |MessagesOf(res.1)| == |errors|
              && forall i :: 0 <= i < |errors| ==> MessagesOf(res.1)[i] == Messages.CreateError(errors[i])
  {
    var (fs1, errors) := UninstallDirs(fs, root, installDir, dirs, listing, hash);
    var r := WithErrorTexts(Fresh(), errors);
    if IsFailure(r) then (fs1, r)
    else (fs1, WithStatus(r, "Successfully uninstalled files for " + pkg))
  }

  /** `isAvailable`: some project directory has a `files` directory. */
  function IsAvailable(fs: FileSystem, installDir: string, dirs: seq<string>): (b: bool)
    ensures b <==> exists d :: d in dirs && IsDir(fs, SourceDir(installDir, d))
    decreases |dirs|
  {
    if |dirs| == 0 then false
    else if IsDir(fs, SourceDir(installDir, dirs[0])) then true
    else
      var rest := IsAvailable(fs, installDir, dirs[1..]);
      assert forall d :: d in dirs <==> d == dirs[0] || d in dirs[1..];
      rest
  }
}

=== FILE: env_operation.dfy ===
/** The environment-variables operation
    (src/Operations/EnvironmentVariablesOperation.php): install appends the
    package's `.env` template, wrapped in the marker envelope, to every env file the
    project has; uninstall cuts each recorded envelope out again. */
module EnvironmentVariables {
  import opened Wrappers
  import opened Strings
  import opened FileSystems
  import opened Results
  import opened Envelope

  /** The project files written to, in this order. */
  const ENV_FILES: seq<string> := [".env.example", ".env.local", ".env.dist", ".env"]

  const KIND: string := "environmentVariables"

  const FRIENDLY_NAME: string := "Copy Environment Variables"

  /** What a walk over target files did: the file system after it, the files it
      changed (in walk order) and how many writes failed. */
  datatype Outcome = Outcome(fs: FileSystem, written: seq<string>, failures: nat)

  predicate Distinct(files: seq<string>) {
    forall i, j :: 0 <= i < j < |files| ==> files[i] != files[j]
  }

  /** Appends `block` to each of `files` under `root` that exists. A target that
      exists but cannot be appended to (a directory, a locked path) counts as a
      failure; the walk goes on. */
  function AppendAll(fs: FileSystem, root: string, files: seq<string>, block: string): (o: Outcome)
    ensures o.fs.locked == fs.locked && o.fs.nodes.Keys == fs.nodes.Keys
    ensures forall f :: f in o.written ==> f in files
    ensures |o.written| + o.failures <= |files|
    ensures o.failures == 0 <==>
              forall f :: f in files && Exists(fs, Path(root, f)) ==> Append(fs, Path(root, f), block).Some?
    ensures forall q :: q in fs.nodes && (forall f :: f in files ==> q != Path(root, f)) ==>
              o.fs.nodes[q] == fs.nodes[q]
    decreases |files|
  {
    if |files| == 0 then Outcome(fs, [], 0)
    else
      var p := Path(root, files[0]);
      assert forall f :: f in files <==> f == files[0] || f in files[1..];
      if !Exists(fs, p) then AppendAll(fs, root, files[1..], block)
      else
        match Append(fs, p, block)
        case None =>
          var o := AppendAll(fs, root, files[1..], block);
          o.(failures := o.failures + 1)
        case Some(fs1) =>
          var o := AppendAll(fs1, root, files[1..], block);
          AppendAllPreservesSuccess(fs, fs1, root, files[1..], block, p);
          o.(written := [files[0]] + o.written)
  }

  /** Appending at one path does not change whether the other targets can be
      appended to. */
  lemma AppendAllPreservesSuccess(fs: FileSystem, fs1: FileSystem, root: string, files: seq<string>,
                                  block: string, p: string)
    requires fs1.locked == fs.locked && fs1.nodes.Keys == fs.nodes.Keys
    requires p in fs.nodes && fs1.nodes == fs.nodes[p := fs1.nodes[p]]
    requires fs.nodes[p].File? && fs1.nodes[p].File?
    ensures forall f :: f in files && Exists(fs1, Path(root, f)) ==>
              (Append(fs1, Path(root, f), block).Some? <==> Append(fs, Path(root, f), block).Some?)
  {
  }

  /** Cuts the envelope of `pkg`/`hash` out of each of `files` under `root` that
      exists and holds both markers; files without them are skipped silently. A
      failed write counts as a failure. */
  function CutAll(fs: FileSystem, root: string, files: seq<string>, pkg: string, hash: string): (o: Outcome)
    ensures o.fs.locked == fs.locked && o.fs.nodes.Keys == fs.nodes.Keys
    ensures forall f :: f in o.written ==> f in files
    ensures forall q :: q in fs.nodes && (forall f :: f in files ==> q != Path(root, f)) ==>
              o.fs.nodes[q] == fs.nodes[q]
    decreases |files|
  {
    if |files| == 0 then Outcome(fs, [], 0)
    else
      var p := Path(root, files[0]);
      assert forall f :: f in files <==> f == files[0] || f in files[1..];
      if !Exists(fs, p) then CutAll(fs, root, files[1..], pkg, hash)
      else
        match Cut(TextAt(fs, p), pkg, hash)
        case None => CutAll(fs, root, files[1..], pkg, hash)
        case Some(text) =>
          match Write(fs, p, text)
          case None =>
            var o := CutAll(fs, root, files[1..], pkg, hash);
            o.(failures := o.failures + 1)
          case Some(fs1) =>
            var o := CutAll(fs1, root, files[1..], pkg, hash);
            o.(written := [files[0]] + o.written)
  }

  /** `install`: with a `.env` template in the version directory, appends the
      envelope to every existing env file of the project, records the hash and the
      files written, and reports success unless some write failed. Without a
      template, nothing happens and the result is neutral. */
  function Install(fs: FileSystem, root: string, pkg: string, path: string, hash: string)
    : (res: (FileSystem, OperationResult))
    ensures !IsFile(fs, Path(path, ".env")) ==> res.0 == fs && IsNeutral(res.1) && res.1.extraConfig == map[]
    ensures IsFile(fs, Path(path, ".env")) ==>
              var o := AppendAll(fs, root, ENV_FILES, Block(pkg, hash, Content(fs, Path(path, ".env"))));
              && res.0 == o.fs
              && res.1.extraConfig == map["hash" := Str(hash), "files" := List(o.written)]
              && (IsFailure(res.1) <==> o.failures > 0)
              && (IsSuccess(res.1) <==> o.failures == 0)
  {
    var env := Path(path, ".env");
    if !IsFile(fs, env) then (fs, Fresh())
    else
      var block := Block(pkg, hash, Content(fs, env));
      var o := AppendAll(fs, root, ENV_FILES, block);
      var r := WithErrors(Fresh(), "<error>Could not copy env variables from " + pkg + "</error>", o.failures);
      var r := SetExtraConfig(r, map["hash" := Str(hash), "files" := List(o.written)]);
      if IsFailure(r) then (o.fs, r)
      else (o.fs, WithStatus(r, "Successfully copied env variables from " + pkg))
  }

  /** `$packageConfig['files'] ?? []`; a value that is not a list gives nothing to
      iterate over. */
  function FilesOf(extra: ExtraConfig): seq<string> {
    if "files" in extra && extra["files"].List? then extra["files"].items else []
  }

  /** `uninstall`: cuts the recorded envelope out of every recorded file, and
      reports success unless some write failed, even when nothing was found. */
  function Uninstall(fs: FileSystem, root: string, pkg: string, path: string, extra: ExtraConfig)
    : (res: (FileSystem, OperationResult))
    ensures var o := CutAll(fs, root, FilesOf(extra), pkg, StringValue(extra, "hash"));
            && res.0 == o.fs
            && (IsFailure(res.1) <==> o.failures > 0)
            && (IsSuccess(res.1) <==> o.failures == 0)
            && res.1.extraConfig == map[]
  {
    var o := CutAll(fs, root, FilesOf(extra), pkg, StringValue(extra, "hash"));
    var r := WithErrors(Fresh(), "Could not uninstall env variables from " + pkg, o.failures);
    if IsFailure(r) then (o.fs, r)
    else (o.fs, WithStatus(r, "Successfully uninstalled env variables from " + pkg))
  }

  /** `isAvailable`: the project has one of the env files and some candidate
      directory has a `.env` template. */
  function IsAvailable(fs: FileSystem, root: string, paths: seq<string>): (b: bool)
    ensures b <==> (exists f :: f in ENV_FILES && Exists(fs, Path(root, f)))
                   && (exists p :: p in paths && IsFile(fs, Path(p, ".env")))
  {
    AnyExists(fs, root, ENV_FILES) && AnyFile(fs, paths, ".env")
  }

  /** Appending elsewhere commutes with setting one path: the walk over targets
      that do not include `p` does the same whatever is stored at `p`. */
  lemma {:induction false} AppendAllFrame(fs: FileSystem, root: string, files: seq<string>, block: string,
                                          p: string, n: Node)
    requires forall f :: f in files ==> Path(root, f) != p
    ensures var o := AppendAll(fs, root, files, block);
            AppendAll(fs.(nodes := fs.nodes[p := n]), root, files, block)
              == o.(fs := o.fs.(nodes := o.fs.nodes[p := n]))
    decreases |files|
  {
    if |files| > 0 {
      var q := Path(root, files[0]);
      var fsn := fs.(nodes := fs.nodes[p := n]);
      assert forall f :: f in files[1..] ==> f in files;
      assert q != p;
      if Exists(fs, q) {
        match Append(fs, q, block)
        case None =>
          AppendAllFrame(fs, root, files[1..], block, p, n);
        case Some(fs1) =>
          var fsn1 := Append(fsn, q, block).value;
          assert fsn1 == fs1.(nodes := fs1.nodes[p := n]);
          AppendAllFrame(fs1, root, files[1..], block, p, n);
      } else {
        AppendAllFrame(fs, root, files[1..], block, p, n);
      }
    }
  }

  /** The conditions under which uninstall finds exactly the envelopes install
      wrote: no line break in the package name or hash, no end marker inside the
      template, no start marker already inside any target file. */
  predicate CleanTargets(fs: FileSystem, root: string, files: seq<string>, pkg: string, hash: string,
                         template: string)
  {
    && '\n' !in pkg && '\n' !in hash
    && !Occurs(EndMarker(pkg, hash), template)
    && forall f :: f in files && IsFile(fs, Path(root, f)) ==>
         !Occurs(StartMarker(pkg, hash), Content(fs, Path(root, f)))
  }

  /** The first target, when it can be appended to, is the first file written,
      and the rest of the walk runs as if it had not been touched. */
  lemma AppendHead(fs: FileSystem, root: string, files: seq<string>, block: string)
    requires |files| > 0
    requires forall f :: f in files[1..] ==> Path(root, f) != Path(root, files[0])
    requires Exists(fs, Path(root, files[0])) && Append(fs, Path(root, files[0]), block).Some?
    ensures var p := Path(root, files[0]);
            var o0 := AppendAll(fs, root, files[1..], block);
            && o0.fs.nodes[p] == fs.nodes[p]
            && AppendAll(fs, root, files, block)
                 == Outcome(o0.fs.(nodes := o0.fs.nodes[p := File(Content(fs, p) + block)]),
                            [files[0]] + o0.written, o0.failures)
  {
    var p := Path(root, files[0]);
    var fs1 := Append(fs, p, block).value;
    assert fs1 == fs.(nodes := fs.nodes[p := File(Content(fs, p) + block)]);
    AppendAllFrame(fs, root, files[1..], block, p, File(Content(fs, p) + block));
  }

  /** Uninstall of a file that holds `original` followed by the envelope writes
      `original` back and goes on with the remaining files. */
  lemma CutHead(fs: FileSystem, root: string, f: string, rest: seq<string>,
                pkg: string, hash: string, template: string, original: string)
    requires '\n' !in pkg && '\n' !in hash
    requires !Occurs(EndMarker(pkg, hash), template)
    requires !Occurs(StartMarker(pkg, hash), original)
    requires Path(root, f) in fs.nodes && Path(root, f) !in fs.locked
    requires fs.nodes[Path(root, f)] == File(original + Block(pkg, hash, template))
    ensures var o := CutAll(fs.(nodes := fs.nodes[Path(root, f) := File(original)]), root, rest, pkg, hash);
            CutAll(fs, root, [f] + rest, pkg, hash) == o.(written := [f] + o.written)
  {
    var p := Path(root, f);
    CutAfterAppend(original, pkg, hash, template);
    assert TextAt(fs, p) == original + Block(pkg, hash, template);
    var fs1 := fs.(nodes := fs.nodes[p := File(original)]);
    assert Write(fs, p, original) == Some(fs1);
    assert ([f] + rest)[0] == f && ([f] + rest)[1..] == rest;
  }

  /** Cutting every file the append walk wrote restores the file system exactly. */
  lemma {:induction false} CutAllAfterAppendAll(fs: FileSystem, root: string, files: seq<string>,
                                                pkg: string, hash: string, template: string)
    requires Distinct(files)
    requires CleanTargets(fs, root, files, pkg, hash, template)
    ensures var o := AppendAll(fs, root, files, Block(pkg, hash, template));
            CutAll(o.fs, root, o.written, pkg, hash) == Outcome(fs, o.written, 0)
    decreases |files|
  {
    var block := Block(pkg, hash, template);
    if |files| > 0 {
      var p := Path(root, files[0]);
      var rest := files[1..];
      assert forall f :: f in rest ==> f in files;
      assert Distinct(rest);
      assert CleanTargets(fs, root, rest, pkg, hash, template);
      CutAllAfterAppendAll(fs, root, rest, pkg, hash, template);
      if Exists(fs, p) && Append(fs, p, block).Some? {
        forall f | f in rest
          ensures Path(root, f) != p
        {
          if Path(root, f) == p {
            PathInjective(root, f, files[0]);
            assert false;
          }
        }
        var original := Content(fs, p);
        var o0 := AppendAll(fs, root, rest, block);
        AppendHead(fs, root, files, block);
        var appended := o0.fs.(nodes := o0.fs.nodes[p := File(original + block)]);
        CutHead(appended, root, files[0], o0.written, pkg, hash, template, original);
        UpdateTwice(o0.fs.nodes, p, File(original + block), File(original));
        UpdateSame(o0.fs.nodes, p);
      }
    }
  }

  /** What the append walk does to target `f`: an existing target that accepts the
      append is listed as written and ends with the envelope; any other target is
      left exactly as it was. */
  predicate AppendEffect(fs: FileSystem, root: string, files: seq<string>, block: string, f: string) {
    var o := AppendAll(fs, root, files, block);
    var q := Path(root, f);
    if Exists(fs, q) && Append(fs, q, block).Some? then
      f in o.written && q in o.fs.nodes && o.fs.nodes[q] == File(TextAt(fs, q) + block)
    else
      f !in o.written && (q in fs.nodes ==> o.fs.nodes[q] == fs.nodes[q])
  }

  /** Every target of the append walk is affected as `AppendEffect` says. */
  lemma {:induction false} AppendAllEffect(fs: FileSystem, root: string, files: seq<string>, block: string,
                                           f: string)
    requires Distinct(files) && f in files
    ensures AppendEffect(fs, root, files, block, f)
    decreases |files|, 1
  {
    OthersElsewhere(root, files);
    if f == files[0] {
      HeadEffect(fs, root, files, block);
    } else {
      TailEffect(fs, root, files, block, f);
    }
  }

  lemma HeadEffect(fs: FileSystem, root: string, files: seq<string>, block: string)
    requires Distinct(files) && |files| > 0
    requires forall f :: f in files[1..] ==> Path(root, f) != Path(root, files[0])
    requires files[0] !in files[1..]
    ensures AppendEffect(fs, root, files, block, files[0])
  {
    var p := Path(root, files[0]);
    if Exists(fs, p) && Append(fs, p, block).Some? {
      AppendHead(fs, root, files, block);
    }
  }

  lemma {:induction false} TailEffect(fs: FileSystem, root: string, files: seq<string>, block: string,
                                      f: string)
    requires Distinct(files) && |files| > 0 && f in files[1..] && f != files[0]
    ensures AppendEffect(fs, root, files, block, f)
    decreases |files|, 0
  {
    var p := Path(root, files[0]);
    var rest := files[1..];
    assert Distinct(rest);
    OthersElsewhere(root, files);
    AppendAllEffect(fs, root, rest, block, f);
    PathInjectiveNot(root, f, files[0]);
    if Exists(fs, p) && Append(fs, p, block).Some? {
      AppendedHeadKeeps(fs, root, files, block, f);
    } else {
      SkippedHeadKeeps(fs, root, files, block, f);
    }
  }

  /** An appended first target does not change what the walk did to a later one. */
  lemma AppendedHeadKeeps(fs: FileSystem, root: string, files: seq<string>, block: string, f: string)
    requires |files| > 0 && f in files[1..]
    requires forall g :: g in files[1..] ==> Path(root, g) != Path(root, files[0])
    requires Exists(fs, Path(root, files[0])) && Append(fs, Path(root, files[0]), block).Some?
    requires AppendEffect(fs, root, files[1..], block, f)
    ensures AppendEffect(fs, root, files, block, f)
  {
    AppendHead(fs, root, files, block);
  }

  /** A first target that was skipped or failed does not change what the walk did
      to a later one. */
  lemma SkippedHeadKeeps(fs: FileSystem, root: string, files: seq<string>, block: string, f: string)
    requires |files| > 0 && f in files[1..]
    requires !(Exists(fs, Path(root, files[0])) && Append(fs, Path(root, files[0]), block).Some?)
    requires AppendEffect(fs, root, files[1..], block, f)
    ensures AppendEffect(fs, root, files, block, f)
  {
    var o0 := AppendAll(fs, root, files[1..], block);
    assert AppendAll(fs, root, files, block).written == o0.written;
    assert AppendAll(fs, root, files, block).fs == o0.fs;
  }

  /** In a list of distinct names, no later name shares the first one's path, and
      the first name does not occur again. */
  lemma OthersElsewhere(root: string, files: seq<string>)
    requires Distinct(files) && |files| > 0
    ensures forall f :: f in files[1..] ==> Path(root, f) != Path(root, files[0])
    ensures files[0] !in files[1..]
  {
    forall f | f in files[1..]
      ensures Path(root, f) != Path(root, files[0])
    {
      PathInjectiveNot(root, f, files[0]);
    }
  }

  lemma PathInjectiveNot(root: string, a: string, b: string)
    requires a != b
    ensures Path(root, a) != Path(root, b)
  {
    if Path(root, a) == Path(root, b) {
      PathInjective(root, a, b);
    }
  }

  lemma EnvFilesDistinct()
    ensures Distinct(ENV_FILES)
  {
  }

  /** Whether the cut walk rewrites target `f`: it exists, holds the envelope, and
      the cut text can be written back. */
  predicate CutWrites(fs: FileSystem, root: string, pkg: string, hash: string, f: string) {
    var q := Path(root, f);
    && Exists(fs, q)
    && Cut(TextAt(fs, q), pkg, hash).Some?
    && Write(fs, q, Cut(TextAt(fs, q), pkg, hash).value).Some?
  }

  /** What the cut walk does to target `f`: a target it rewrites is listed as
      written and holds the text without the envelope; any other target is left
      exactly as it was. */
  predicate CutEffect(fs: FileSystem, root: string, files: seq<string>, pkg: string, hash: string, f: string) {
    var o := CutAll(fs, root, files, pkg, hash);
    var q := Path(root, f);
    if CutWrites(fs, root, pkg, hash, f) then
      f in o.written && q in o.fs.nodes && o.fs.nodes[q] == File(Cut(TextAt(fs, q), pkg, hash).value)
    else
      f !in o.written && (q in fs.nodes ==> o.fs.nodes[q] == fs.nodes[q])
  }

  /** Cutting elsewhere commutes with setting one path. */
  lemma {:induction false} CutAllFrame(fs: FileSystem, root: string, files: seq<string>, pkg: string, hash: string,
                                       p: string, n: Node)
    requires forall f :: f in files ==> Path(root, f) != p
    ensures var o := CutAll(fs, root, files, pkg, hash);
            CutAll(fs.(nodes := fs.nodes[p := n]), root, files, pkg, hash)
              == o.(fs := o.fs.(nodes := o.fs.nodes[p := n]))
    decreases |files|
  {
    if |files| > 0 {
      var q := Path(root, files[0]);
      var fsn := fs.(nodes := fs.nodes[p := n]);
      assert forall f :: f in files[1..] ==> f in files;
      assert q != p;
      assert TextAt(fsn, q) == TextAt(fs, q);
      if Exists(fs, q) && Cut(TextAt(fs, q), pkg, hash).Some? {
        var text := Cut(TextAt(fs, q), pkg, hash).value;
        match Write(fs, q, text)
        case None =>
          CutAllFrame(fs, root, files[1..], pkg, hash, p, n);
        case Some(fs1) =>
          assert Write(fsn, q, text).value == fs1.(nodes := fs1.nodes[p := n]);
          CutAllFrame(fs1, root, files[1..], pkg, hash, p, n);
      } else {
        CutAllFrame(fs, root, files[1..], pkg, hash, p, n);
      }
    }
  }

  /** Every target of the cut walk is affected as `CutEffect` says. */
  lemma {:induction false} CutAllEffect(fs: FileSystem, root: string, files: seq<string>, pkg: string, hash: string,
                                        f: string)
    requires Distinct(files) && f in files
    ensures CutEffect(fs, root, files, pkg, hash, f)
    decreases |files|
  {
    OthersElsewhere(root, files);
    var p := Path(root, files[0]);
    var rest := files[1..];
    assert Distinct(rest);
    if f == files[0] {
      CutHeadEffect(fs, root, files, pkg, hash);
    } else {
      assert f in rest;
      PathInjectiveNot(root, f, files[0]);
      if CutWrites(fs, root, pkg, hash, files[0]) {
        var fs1 := Write(fs, p, Cut(TextAt(fs, p), pkg, hash).value).value;
        CutAllEffect(fs1, root, rest, pkg, hash, f);
        assert CutWrites(fs1, root, pkg, hash, f) == CutWrites(fs, root, pkg, hash, f);
      } else {
        CutAllEffect(fs, root, rest, pkg, hash, f);
      }
    }
  }

  /** The first target of the cut walk is affected as `CutEffect` says. */
  lemma CutHeadEffect(fs: FileSystem, root: string, files: seq<string>, pkg: string, hash: string)
    requires |files| > 0
    requires forall f :: f in files[1..] ==> Path(root, f) != Path(root, files[0])
    requires files[0] !in files[1..]
    ensures CutEffect(fs, root, files, pkg, hash, files[0])
  {
    var p := Path(root, files[0]);
    if CutWrites(fs, root, pkg, hash, files[0]) {
      var text := Cut(TextAt(fs, p), pkg, hash).value;
      var fs1 := Write(fs, p, text).value;
      assert fs1 == fs.(nodes := fs.nodes[p := File(text)]);
      CutAllFrame(fs, root, files[1..], pkg, hash, p, File(text));
    }
  }

  /** The cut walk over distinct targets fails exactly when some target holding the
      envelope cannot be written back. */
  lemma {:induction false} CutAllFailures(fs: FileSystem, root: string, files: seq<string>, pkg: string, hash: string)
    requires Distinct(files)
    ensures CutAll(fs, root, files, pkg, hash).failures == 0 <==>
              forall f :: f in files && Exists(fs, Path(root, f)) && Cut(TextAt(fs, Path(root, f)), pkg, hash).Some?
                          ==> CutWrites(fs, root, pkg, hash, f)
    decreases |files|
  {
    if |files| > 0 {
      OthersElsewhere(root, files);
      var p := Path(root, files[0]);
      var rest := files[1..];
      assert Distinct(rest);
      assert forall f :: f in files <==> f == files[0] || f in rest;
      if CutWrites(fs, root, pkg, hash, files[0]) {
        var fs1 := Write(fs, p, Cut(TextAt(fs, p), pkg, hash).value).value;
        CutAllFailures(fs1, root, rest, pkg, hash);
        forall f | f in rest
          ensures Exists(fs1, Path(root, f)) == Exists(fs, Path(root, f))
          ensures TextAt(fs1, Path(root, f)) == TextAt(fs, Path(root, f))
          ensures CutWrites(fs1, root, pkg, hash, f) == CutWrites(fs, root, pkg, hash, f)
        {
          assert Path(root, f) != p;
        }
      } else {
        CutAllFailures(fs, root, rest, pkg, hash);
      }
    }
  }

  /** What install records is what uninstall reads back: the hash, and the files it
      wrote. */
  lemma InstallRecords(fs: FileSystem, root: string, pkg: string, path: string, hash: string)
    requires IsFile(fs, Path(path, ".env"))
    ensures var o := AppendAll(fs, root, ENV_FILES, Block(pkg, hash, Content(fs, Path(path, ".env"))));
            var res := Install(fs, root, pkg, path, hash);
            && res.0 == o.fs
            && StringValue(res.1.extraConfig, "hash") == hash
            && FilesOf(res.1.extraConfig) == o.written
  {
    var o := AppendAll(fs, root, ENV_FILES, Block(pkg, hash, Content(fs, Path(path, ".env"))));
    var extra := Install(fs, root, pkg, path, hash).1.extraConfig;
    assert extra == map["hash" := Str(hash), "files" := List(o.written)];
    assert extra["hash"] == Str(hash) && extra["files"] == List(o.written);
  }

  /** Uninstall after install gives the project its env files back byte for byte,
      and reports success. Install itself succeeds exactly when every env file the
      project has is a file that is not locked; when it does not, uninstall still
      undoes the appends it made. */
  lemma UninstallAfterInstall(fs: FileSystem, root: string, pkg: string, path: string, hash: string)
    requires IsFile(fs, Path(path, ".env"))
    requires CleanTargets(fs, root, ENV_FILES, pkg, hash, Content(fs, Path(path, ".env")))
    ensures var (fs1, r1) := Install(fs, root, pkg, path, hash);
            var (fs2, r2) := Uninstall(fs1, root, pkg, path, r1.extraConfig);
            && fs2 == fs && IsSuccess(r2)
            && (IsSuccess(r1) <==> forall f :: f in ENV_FILES && Exists(fs, Path(root, f)) ==>
                                     IsFile(fs, Path(root, f)) && Path(root, f) !in fs.locked)
  {
    var template := Content(fs, Path(path, ".env"));
    var o := AppendAll(fs, root, ENV_FILES, Block(pkg, hash, template));
    var installed := Install(fs, root, pkg, path, hash);
    InstallRecords(fs, root, pkg, path, hash);
    EnvFilesDistinct();
    CutAllAfterAppendAll(fs, root, ENV_FILES, pkg, hash, template);
    var uninstalled := Uninstall(installed.0, root, pkg, path, installed.1.extraConfig);
    assert uninstalled.0 == fs;
  }
}

=== FILE: envelope.dfy ===
/** The marker envelope the environment-variables and gitignore operations wrap
    their text in (src/Operations/EnvironmentVariablesOperation.php:38-42, 94-107;
    src/Operations/GitignoreOperation.php:26-36, 75-88): a begin line and an end
    line, both carrying the package name and a per-install hash, so that uninstall
    can cut exactly the block it appended. */
module Envelope {
  import opened Wrappers
  import opened Strings

  /** The notice after its leading '#', written in pieces: " Do not remove the above
      line if you want the installer to be able to delete the content on uninstall". */
  const NOTICE_TAIL: string :=
    " Do not remove the above line" + " if you want the installer" + " to be able to delete" + " the content on uninstall"

  /** The comment line placed under the begin marker. */
  function Notice(): string {
    "#" + NOTICE_TAIL
  }

  /** "###BEGIN-Rikudou-Installer-", in pieces. */
  const BEGIN_HEAD: string := "###BEGIN" + "-Rikudou" + "-Installer-"

  /** "###END-Rikudou-Installer-", in pieces. */
  const END_HEAD: string := "###END" + "-Rikudou" + "-Installer-"

  function BeginLine(pkg: string, hash: string): string {
    BEGIN_HEAD + pkg + "-" + hash + "###"
  }

  /** What uninstall searches for first: a line break followed by the begin line. */
  function StartMarker(pkg: string, hash: string): string {
    "\n" + BeginLine(pkg, hash)
  }

  function EndMarker(pkg: string, hash: string): string {
    END_HEAD + pkg + "-" + hash + "###"
  }

  /** The text install appends: a line break, the begin line, the notice, the
      template followed by a line break, and the end line (no trailing break). */
  function Block(pkg: string, hash: string, template: string): (b: string)
    ensures |b| > |StartMarker(pkg, hash)| && b[..|StartMarker(pkg, hash)|] == StartMarker(pkg, hash)
    ensures |b| >= |EndMarker(pkg, hash)| && b[|b| - |EndMarker(pkg, hash)|..] == EndMarker(pkg, hash)
  {
    var b := "\n" + (BeginLine(pkg, hash) + ("\n" + (Notice() + ("\n" + (template + ("\n" + EndMarker(pkg, hash)))))));
    assert b[..|StartMarker(pkg, hash)|] == StartMarker(pkg, hash);
    b
  }

  /** The span uninstall cuts: it starts at the first start marker and ends after
      the first end marker found from that position on. `None` when either marker
      is missing. */
  function Span(content: string, pkg: string, hash: string): (r: Option<(nat, nat)>)
    ensures r.Some? ==>
              && r.value.0 + |EndMarker(pkg, hash)| <= r.value.1 <= |content|
              && OccursAt(StartMarker(pkg, hash), content, r.value.0)
              && (forall q :: 0 <= q < r.value.0 ==> !OccursAt(StartMarker(pkg, hash), content, q))
              && OccursAt(EndMarker(pkg, hash), content, r.value.1 - |EndMarker(pkg, hash)|)
              && (forall q :: r.value.0 <= q < r.value.1 - |EndMarker(pkg, hash)| ==>
                                !OccursAt(EndMarker(pkg, hash), content, q))
    ensures r.None? ==>
              (forall q :: 0 <= q ==> !OccursAt(StartMarker(pkg, hash), content, q))
              || (exists s :: 0 <= s <= |content| && OccursAt(StartMarker(pkg, hash), content, s)
                             && forall q :: s <= q ==> !OccursAt(EndMarker(pkg, hash), content, q))
  {
    match Find(StartMarker(pkg, hash), content, 0)
    case None => None
    case Some(s) =>
      match Find(EndMarker(pkg, hash), content, s)
      case None => None
      case Some(e) => Some((s, e + |EndMarker(pkg, hash)|))
  }

  /** Removes the span, leaving everything before and after it byte-identical
      (`substr_replace($content, '', $start, $length)`). */
  function Cut(content: string, pkg: string, hash: string): (r: Option<string>)
    ensures r.None? <==> Span(content, pkg, hash).None?
    ensures r.Some? ==>
              var (s, e) := Span(content, pkg, hash).value;
              r.value == content[..s] + content[e..] && |r.value| == |content| - (e - s)
  {
    match Span(content, pkg, hash)
    case None => None
    case Some((s, e)) => Some(content[..s] + content[e..])
  }

  /** The end marker never occurs inside the begin line: both start with "###" but
      the fourth character differs ('E' against 'B'), and the end marker is two
      characters shorter. */
  lemma {:induction false} EndNotInBeginLine(pkg: string, hash: string, p: int)
    ensures !OccursAt(EndMarker(pkg, hash), BeginLine(pkg, hash), p)
  {
    var e := EndMarker(pkg, hash);
    var b := BeginLine(pkg, hash);
    assert e[..4] == "###E";
    assert b[..4] == "###B";
    if OccursAt(e, b, p) {
      assert 0 <= p <= 2;
      CharOfOccurrence(e, b, p, 3 - p);
      assert false;
    }
  }

  /** The end marker never occurs inside the notice line: the notice has a single
      '#', the end marker begins with three. */
  lemma {:induction false} EndNotInNotice(pkg: string, hash: string, p: int)
    ensures !OccursAt(EndMarker(pkg, hash), Notice(), p)
  {
    var e := EndMarker(pkg, hash);
    assert e[..2] == "##";
    NoHashInNotice();
    if OccursAt(e, Notice(), p) {
      CharOfOccurrence(e, Notice(), p, 1);
      assert false;
    }
  }

  /** The notice's tail has no '#'. */
  lemma NoHashInNotice()
    ensures '#' !in NOTICE_TAIL
  {
    var a, b, c, d := " Do not remove the above line", " if you want the installer", " to be able to delete", " the content on uninstall";
    assert '#' !in a && '#' !in b && '#' !in c && '#' !in d;
    NotInConcat('#', a, b);
    NotInConcat('#', a + b, c);
    NotInConcat('#', a + b + c, d);
  }

  lemma BeginLineNoNewline(pkg: string, hash: string)
    requires '\n' !in pkg && '\n' !in hash
    ensures '\n' !in BeginLine(pkg, hash)
  {
    assert '\n' !in BEGIN_HEAD;
    NotInConcat('\n', BEGIN_HEAD, pkg);
    NotInConcat('\n', BEGIN_HEAD + pkg, "-");
    NotInConcat('\n', BEGIN_HEAD + pkg + "-", hash);
    NotInConcat('\n', BEGIN_HEAD + pkg + "-" + hash, "###");
  }

  lemma EndMarkerNoNewline(pkg: string, hash: string)
    requires '\n' !in pkg && '\n' !in hash
    ensures '\n' !in EndMarker(pkg, hash)
  {
    assert '\n' !in END_HEAD;
    NotInConcat('\n', END_HEAD, pkg);
    NotInConcat('\n', END_HEAD + pkg, "-");
    NotInConcat('\n', END_HEAD + pkg + "-", hash);
    NotInConcat('\n', END_HEAD + pkg + "-" + hash, "###");
  }

  /** The only place the end marker occurs in an appended block is its very end,
      provided the template does not contain it. */
  lemma {:induction false} EndOnlyAtEnd(pkg: string, hash: string, template: string, q: int)
    requires '\n' !in pkg && '\n' !in hash
    requires !Occurs(EndMarker(pkg, hash), template)
    requires OccursAt(EndMarker(pkg, hash), Block(pkg, hash, template), q)
    ensures q == |Block(pkg, hash, template)| - |EndMarker(pkg, hash)|
  {
    var e := EndMarker(pkg, hash);
    var bl := BeginLine(pkg, hash);
    var r2 := template + ("\n" + e);
    var r1 := Notice() + ("\n" + r2);
    var r0 := bl + ("\n" + r1);
    EndMarkerNoNewline(pkg, hash);
    AfterLeadingNewline(e, r0, q);
    var q0 := q - 1;
    NoOccurrenceAcrossNewline(e, bl, r1, q0);
    EndNotInBeginLine(pkg, hash, q0);
    var q1 := q0 - |bl| - 1;
    NoOccurrenceAcrossNewline(e, Notice(), r2, q1);
    EndNotInNotice(pkg, hash, q1);
    var q2 := q1 - |Notice()| - 1;
    NoOccurrenceAcrossNewline(e, template, e, q2);
  }

  /** In `original + block` the first start marker is the one opening the block. */
  lemma {:induction false} FirstStartIsBlock(original: string, pkg: string, hash: string, template: string)
    requires '\n' !in pkg && '\n' !in hash
    requires !Occurs(StartMarker(pkg, hash), original)
    ensures Find(StartMarker(pkg, hash), original + Block(pkg, hash, template), 0) == Some(|original|)
  {
    var sm := StartMarker(pkg, hash);
    BeginLineNoNewline(pkg, hash);
    assert sm[1..] == BeginLine(pkg, hash);
    FirstAtLineStart(sm, original, Block(pkg, hash, template));
  }

  /** An appended block ends with the end marker. */
  lemma {:induction false} EndAtEnd(pkg: string, hash: string, template: string)
    ensures OccursAt(EndMarker(pkg, hash), Block(pkg, hash, template),
                     |Block(pkg, hash, template)| - |EndMarker(pkg, hash)|)
  {
    var em := EndMarker(pkg, hash);
    var b := Block(pkg, hash, template);
    var p := |b| - |em|;
    assert b[p..] == em;
    assert b[p..p + |em|] == b[p..];
  }

  /** No end marker starts before the block's last one. */
  lemma {:induction false} NoEarlierEnd(pkg: string, hash: string, template: string)
    requires '\n' !in pkg && '\n' !in hash
    requires !Occurs(EndMarker(pkg, hash), template)
    ensures forall q :: 0 <= q < |Block(pkg, hash, template)| - |EndMarker(pkg, hash)| ==>
              !OccursAt(EndMarker(pkg, hash), Block(pkg, hash, template), q)
  {
    var em := EndMarker(pkg, hash);
    var b := Block(pkg, hash, template);
    forall q | 0 <= q < |b| - |em|
      ensures !OccursAt(em, b, q)
    {
      if OccursAt(em, b, q) {
        EndOnlyAtEnd(pkg, hash, template, q);
      }
    }
  }

  /** Uninstall undoes install: cutting the block out of a file it was appended to
      restores the file's original text exactly, as long as the original text does
      not already hold the start marker, the template does not hold the end marker,
      and neither the package name nor the hash contains a line break. */
  lemma {:induction false} CutAfterAppend(original: string, pkg: string, hash: string, template: string)
    requires '\n' !in pkg && '\n' !in hash
    requires !Occurs(StartMarker(pkg, hash), original)
    requires !Occurs(EndMarker(pkg, hash), template)
    ensures Cut(original + Block(pkg, hash, template), pkg, hash) == Some(original)
  {
    var c := original + Block(pkg, hash, template);
    FirstStartIsBlock(original, pkg, hash, template);
    EndAtEnd(pkg, hash, template);
    NoEarlierEnd(pkg, hash, template);
    FirstAtEnd(EndMarker(pkg, hash), original, Block(pkg, hash, template));
    assert c[..|original|] + c[|c|..] == original;
  }
}

=== FILE: filesystem.dfy ===
/** An abstract file system: paths map to files (with their text) or directories.
    `locked` lists the paths at which every write, creation or deletion fails, which
    is how the model expresses that a PHP file function returned `false`. */
module FileSystems {
  import opened Wrappers

  datatype Node = File(content: string) | Dir

  datatype FileSystem = FileSystem(nodes: map<string, Node>, locked: set<string>)

  /** `"{dir}/{name}"` */
  function Path(dir: string, name: string): string {
    dir + "/" + name
  }

  lemma PathInjective(dir: string, a: string, b: string)
    requires Path(dir, a) == Path(dir, b)
    ensures a == b
  {
    assert a == Path(dir, a)[|dir| + 1..];
    assert b == Path(dir, b)[|dir| + 1..];
  }

  /** `file_exists` */
  predicate Exists(fs: FileSystem, p: string) {
    p in fs.nodes
  }

  /** `is_file` */
  predicate IsFile(fs: FileSystem, p: string) {
    p in fs.nodes && fs.nodes[p].File?
  }

  /** `is_dir` */
  predicate IsDir(fs: FileSystem, p: string) {
    p in fs.nodes && fs.nodes[p].Dir?
  }

  /** `file_get_contents` of a file. */
  function Content(fs: FileSystem, p: string): string
    requires IsFile(fs, p)
  {
    fs.nodes[p].content
  }

  /** The text `file_get_contents` gives for a path: a file's content; a directory
      or a missing path reads as empty. */
  function TextAt(fs: FileSystem, p: string): (t: string)
    ensures IsFile(fs, p) ==> t == fs.nodes[p].content
    ensures !IsFile(fs, p) ==> t == ""
  {
    if IsFile(fs, p) then Content(fs, p) else ""
  }

  /** `file_put_contents($p, $text, FILE_APPEND)`: fails on a directory or a locked
      path; creates a missing file. */
  function Append(fs: FileSystem, p: string, text: string): (r: Option<FileSystem>)
    ensures r.Some? <==> !IsDir(fs, p) && p !in fs.locked
    ensures r.Some? ==> r.value.nodes == fs.nodes[p := File((if IsFile(fs, p) then Content(fs, p) else "") + text)]
    ensures r.Some? ==> r.value.locked == fs.locked
  {
    if IsDir(fs, p) || p in fs.locked then None
    else Some(fs.(nodes := fs.nodes[p := File((if IsFile(fs, p) then Content(fs, p) else "") + text)]))
  }

  /** `file_put_contents($p, $text)`: replaces or creates the file. */
  function Write(fs: FileSystem, p: string, text: string): (r: Option<FileSystem>)
    ensures r.Some? <==> !IsDir(fs, p) && p !in fs.locked
    ensures r.Some? ==> r.value == fs.(nodes := fs.nodes[p := File(text)])
  {
    if IsDir(fs, p) || p in fs.locked then None
    else Some(fs.(nodes := fs.nodes[p := File(text)]))
  }

  /** `touch`: creates an empty file when the path is missing. */
  function Touch(fs: FileSystem, p: string): (r: Option<FileSystem>)
    ensures r.Some? <==> p !in fs.locked
    ensures r.Some? ==> Exists(r.value, p)
    ensures r.Some? && Exists(fs, p) ==> r.value == fs
    ensures r.Some? && !Exists(fs, p) ==> r.value == fs.(nodes := fs.nodes[p := File("")])
  {
    if p in fs.locked then None
    else if Exists(fs, p) then Some(fs)
    else Some(fs.(nodes := fs.nodes[p := File("")]))
  }

  /** `mkdir`: fails when the path exists already or is locked. */
  function Mkdir(fs: FileSystem, p: string): (r: Option<FileSystem>)
    ensures r.Some? <==> !Exists(fs, p) && p !in fs.locked
    ensures r.Some? ==> r.value == fs.(nodes := fs.nodes[p := Dir])
  {
    if Exists(fs, p) || p in fs.locked then None
    else Some(fs.(nodes := fs.nodes[p := Dir]))
  }

  /** `copy($source, $p)` of a file whose text is `content`. */
  function CopyTo(fs: FileSystem, p: string, content: string): (r: Option<FileSystem>)
    ensures r.Some? <==> !IsDir(fs, p) && p !in fs.locked
    ensures r.Some? ==> r.value == fs.(nodes := fs.nodes[p := File(content)])
  {
    Write(fs, p, content)
  }

  /** `unlink`: deletes a file. */
  function Unlink(fs: FileSystem, p: string): (r: Option<FileSystem>)
    ensures r.Some? <==> IsFile(fs, p) && p !in fs.locked
    ensures r.Some? ==> r.value == fs.(nodes := fs.nodes - {p})
  {
    if IsFile(fs, p) && p !in fs.locked then Some(fs.(nodes := fs.nodes - {p})) else None
  }

  /** Whether some path lies inside directory `d`. */
  predicate HasChildren(fs: FileSystem, d: string) {
    exists k :: k in fs.nodes && |k| > |d| + 1 && k[..|d| + 1] == d + "/"
  }

  /** `@rmdir`: removes an empty, unlocked directory; in every other case nothing
      happens and nothing is reported. */
  function Rmdir(fs: FileSystem, p: string): (r: FileSystem)
    ensures r.locked == fs.locked
    ensures r.nodes == fs.nodes || (IsDir(fs, p) && !HasChildren(fs, p) && r.nodes == fs.nodes - {p})
    ensures p !in r.nodes <==> p !in fs.nodes || (IsDir(fs, p) && !HasChildren(fs, p) && p !in fs.locked)
    ensures forall q :: q != p ==> (q in r.nodes <==> q in fs.nodes) && (q in r.nodes ==> r.nodes[q] == fs.nodes[q])
  {
    if IsDir(fs, p) && !HasChildren(fs, p) && p !in fs.locked then fs.(nodes := fs.nodes - {p}) else fs
  }

  /** A `foreach` over `names` asking `file_exists("{root}/{name}")`: whether any of
      them exists. */
  function AnyExists(fs: FileSystem, root: string, names: seq<string>): (b: bool)
    ensures b <==> exists n :: n in names && Exists(fs, Path(root, n))
    decreases |names|
  {
    if |names| == 0 then false
    else
      var rest := AnyExists(fs, root, names[1..]);
      assert forall n :: n in names <==> n == names[0] || n in names[1..];
      Exists(fs, Path(root, names[0])) || rest
  }

  /** A `foreach` over `dirs` returning true at the first `is_file("{dir}/{name}")`. */
  function AnyFile(fs: FileSystem, dirs: seq<string>, name: string): (b: bool)
    ensures b <==> exists d :: d in dirs && IsFile(fs, Path(d, name))
    decreases |dirs|
  {
    if |dirs| == 0 then false
    else if IsFile(fs, Path(dirs[0], name)) then true
    else
      var rest := AnyFile(fs, dirs[1..], name);
      assert forall d :: d in dirs <==> d == dirs[0] || d in dirs[1..];
      rest
  }

  lemma UpdateTwice(m: map<string, Node>, p: string, a: Node, b: Node)
    ensures m[p := a][p := b] == m[p := b]
  {
  }

  lemma UpdateSame(m: map<string, Node>, p: string)
    requires p in m
    ensures m[p := m[p]] == m
  {
  }
}

=== FILE: gitignore_operation.dfy ===
/** The gitignore operation (src/Operations/GitignoreOperation.php): install appends
    the package's `gitignore` template, in the marker envelope, to the project's
    `.gitignore`, creating it if needed; uninstall cuts the envelope out again. */
module Gitignore {
  import opened Wrappers
  import opened Strings
  import opened FileSystems
  import opened Results
  import opened Envelope

  const KIND: string := "gitignore"

  const FRIENDLY_NAME: string := "Gitignore"

  function Target(root: string): string {
    Path(root, ".gitignore")
  }

  function Template(path: string): string {
    Path(path, "gitignore")
  }

  const CREATE_FAILED: string := "<error>Could not create .gitignore file</error>"

  const WRITE_FAILED: string := "<error>Could not write to .gitignore file</error>"

  function CopiedText(pkg: string): string {
    "Successfully copied .gitignore settings from " + pkg
  }

  function UninstalledText(pkg: string): string {
    "Successfully uninstalled gitignore entries from " + pkg
  }

  function RemoveFailedText(pkg: string): string {
    "Could not uninstall gitignore entries from " + pkg
  }

  /** `install`. Without a template the result is neutral. A missing `.gitignore`
      is created first; if that fails there is one error and nothing is recorded.
      A failed append (the target is a directory or cannot be written) gives one
      error and no extra config; a successful one gives a status and records the
      hash. */
  function Install(fs: FileSystem, root: string, pkg: string, path: string, hash: string)
    : (res: (FileSystem, OperationResult))
    ensures !IsFile(fs, Template(path)) ==> res.0 == fs && IsNeutral(res.1) && res.1.extraConfig == map[]
    ensures IsFile(fs, Template(path)) && !Exists(fs, Target(root)) && Target(root) in fs.locked ==>
              res.0 == fs && IsFailure(res.1) && |MessagesOf(res.1)| == 1 && res.1.extraConfig == map[]
    ensures IsFile(fs, Template(path)) && (Exists(fs, Target(root)) || Target(root) !in fs.locked) ==>
              var block := Block(pkg, hash, Content(fs, Template(path)));
              if !IsDir(fs, Target(root)) && Target(root) !in fs.locked then
                && IsSuccess(res.1) && res.1.extraConfig == map["hash" := Str(hash)]
                && res.0.locked == fs.locked
                && res.0.nodes == fs.nodes[Target(root) := File(TextAt(fs, Target(root)) + block)]
              else
                IsFailure(res.1) && res.1.extraConfig == map[] && res.0 == fs
  {
    var template := Template(path);
    var target := Target(root);
    if !IsFile(fs, template) then (fs, Fresh())
    else
      var block := Block(pkg, hash, Content(fs, template));
      var touched := if Exists(fs, target) then Some(fs) else Touch(fs, target);
      match touched
      case None => (fs, WithError(Fresh(), CREATE_FAILED))
      case Some(fs1) =>
        match Append(fs1, target, block)
        case None => (fs1, WithError(Fresh(), WRITE_FAILED))
        case Some(fs2) =>
          var r := WithStatus(Fresh(), CopiedText(pkg));
          (fs2, SetExtraConfig(r, map["hash" := Str(hash)]))
  }

  /** `uninstall`. An existing `.gitignore` without the recorded envelope gives a
      neutral result and is left alone; with it, the envelope is cut out and the
      result is a status, or an error if the write fails. A missing `.gitignore`
      still reports success. */
  function Uninstall(fs: FileSystem, root: string, pkg: string, extra: ExtraConfig)
    : (res: (FileSystem, OperationResult))
    ensures res.1.extraConfig == map[]
    ensures !Exists(fs, Target(root)) ==> res.0 == fs && IsSuccess(res.1)
    ensures Exists(fs, Target(root)) && Cut(TextAt(fs, Target(root)), pkg, StringValue(extra, "hash")).None? ==>
              res.0 == fs && IsNeutral(res.1)
    ensures Exists(fs, Target(root)) && Cut(TextAt(fs, Target(root)), pkg, StringValue(extra, "hash")).Some? ==>
              var text := Cut(TextAt(fs, Target(root)), pkg, StringValue(extra, "hash")).value;
              if Target(root) in fs.locked then res.0 == fs && IsFailure(res.1)
              else res.0 == fs.(nodes := fs.nodes[Target(root) := File(text)]) && IsSuccess(res.1)
  {
    var target := Target(root);
    if !Exists(fs, target) then
      (fs, WithStatus(Fresh(), UninstalledText(pkg)))
    else
      match Cut(TextAt(fs, target), pkg, StringValue(extra, "hash"))
      case None => (fs, Fresh())
      case Some(text) =>
        match Write(fs, target, text)
        case None => (fs, WithError(Fresh(), RemoveFailedText(pkg)))
        case Some(fs1) => (fs1, WithStatus(Fresh(), UninstalledText(pkg)))
  }

  /** `isAvailable`: some candidate directory has a `gitignore` template; whether
      the project has a `.gitignore` does not matter. */
  function IsAvailable(fs: FileSystem, paths: seq<string>): (b: bool)
    ensures b <==> exists p :: p in paths && IsFile(fs, Template(p))
  {
    AnyFile(fs, paths, "gitignore")
  }

  /** Install followed by uninstall with what install recorded gives back the
      project's `.gitignore` as it was, or an empty `.gitignore` when install had
      to create it; both steps report success. */
  lemma UninstallAfterInstall(fs: FileSystem, root: string, pkg: string, path: string, hash: string)
    requires IsFile(fs, Template(path))
    requires Target(root) !in fs.locked && !IsDir(fs, Target(root))
    requires '\n' !in pkg && '\n' !in hash
    requires !Occurs(EndMarker(pkg, hash), Content(fs, Template(path)))
    requires !Occurs(StartMarker(pkg, hash), TextAt(fs, Target(root)))
    ensures var (fs1, r1) := Install(fs, root, pkg, path, hash);
            var (fs2, r2) := Uninstall(fs1, root, pkg, r1.extraConfig);
            && IsSuccess(r1) && IsSuccess(r2)
            && fs2 == if Exists(fs, Target(root)) then fs
                      else fs.(nodes := fs.nodes[Target(root) := File("")])
  {
    var target := Target(root);
    var template := Content(fs, Template(path));
    var original := TextAt(fs, target);
    var installed := Install(fs, root, pkg, path, hash);
    assert StringValue(installed.1.extraConfig, "hash") == hash;
    CutAfterAppend(original, pkg, hash, template);
    assert TextAt(installed.0, target) == original + Block(pkg, hash, template);
    UpdateTwice(fs.nodes, target, File(original + Block(pkg, hash, template)), File(original));
    if Exists(fs, target) {
      UpdateSame(fs.nodes, target);
    }
  }
}

=== FILE: messages.dfy ===
/** A single status, warning or error line reported by an operation, and the
    append-only list that holds them (src/Result/Messages/Message.php,
    src/Operations/Messages/MessagesCollection.php). */
module Messages {

  /** Message severities, as the bit flags of src/Enums/MessageType.php. */
  const ERROR: int := 1
  const WARNING: int := 2
  const STATUS: int := 4

  /** The severity is an arbitrary integer: the constructor does not check it. */
  datatype Message = Message(text: string, kind: int)

  function GetMessage(m: Message): string {
    m.text
  }

  /** `__toString` */
  function ToString(m: Message): string {
    m.text
  }

  predicate IsStatus(m: Message) {
    m.kind == STATUS
  }

  predicate IsWarning(m: Message) {
    m.kind == WARNING
  }

  predicate IsError(m: Message) {
    m.kind == ERROR
  }

  /** The constructor keeps the text verbatim and classifies the message by the
      severity it was given, whatever integer that is. */
  function NewMessage(text: string, kind: int): (m: Message)
    ensures GetMessage(m) == text && ToString(m) == text
    ensures IsStatus(m) <==> kind == STATUS
    ensures IsWarning(m) <==> kind == WARNING
    ensures IsError(m) <==> kind == ERROR
  {
    Message(text, kind)
  }

  /** No message has two severities at once, and one whose severity is none of the
      three known flags has none of them. */
  lemma AtMostOneSeverity(m: Message)
    ensures !(IsStatus(m) && IsWarning(m))
    ensures !(IsStatus(m) && IsError(m))
    ensures !(IsWarning(m) && IsError(m))
    ensures m.kind !in {ERROR, WARNING, STATUS} ==> !IsStatus(m) && !IsWarning(m) && !IsError(m)
  {
  }

  /** `setMessage` replaces the text and keeps the severity. */
  function SetMessage(m: Message, text: string): (r: Message)
    ensures GetMessage(r) == text
    ensures IsStatus(r) == IsStatus(m) && IsWarning(r) == IsWarning(m) && IsError(r) == IsError(m)
    ensures r.kind == m.kind
  {
    m.(text := text)
  }

  function CreateStatus(text: string): (m: Message)
    ensures GetMessage(m) == text
    ensures IsStatus(m) && !IsWarning(m) && !IsError(m)
  {
    NewMessage(text, STATUS)
  }

  function CreateWarning(text: string): (m: Message)
    ensures GetMessage(m) == text
    ensures IsWarning(m) && !IsStatus(m) && !IsError(m)
  {
    NewMessage(text, WARNING)
  }

  function CreateError(text: string): (m: Message)
    ensures GetMessage(m) == text
    ensures IsError(m) && !IsStatus(m) && !IsWarning(m)
  {
    NewMessage(text, ERROR)
  }
}

/** The ordered list of messages of one operation result. */
module MessagesCollections {
  import opened Messages

  datatype MessagesCollection = MessagesCollection(messages: seq<Message>)

  /** An element of the PHP array handed to `setMessages`: PHP does not type the
      array's elements, so any of them may fail to be a `Message`. */
  datatype Element = IsMessage(message: Message) | NotMessage

  function Empty(): MessagesCollection {
    MessagesCollection([])
  }

  function GetMessages(c: MessagesCollection): seq<Message> {
    c.messages
  }

  /** `addMessage` appends at the end; the earlier messages keep their order. */
  function AddMessage(c: MessagesCollection, m: Message): (r: MessagesCollection)
    ensures |r.messages| == |c.messages| + 1
    ensures r.messages[..|c.messages|] == c.messages
    ensures r.messages[|c.messages|] == m
  {
    MessagesCollection(c.messages + [m])
  }

  /** The number of leading elements that are messages: `setMessages` throws at the
      first element after them. */
  function MessagePrefixLength(elements: seq<Element>): (k: nat)
    ensures k <= |elements|
    ensures forall i :: 0 <= i < k ==> elements[i].IsMessage?
    ensures k < |elements| ==> elements[k].NotMessage?
  {
    if |elements| == 0 || elements[0].NotMessage? then 0
    else 1 + MessagePrefixLength(elements[1..])
  }

  /** `setMessages` APPENDS the given messages after the existing ones. On an element
      that is not a message it throws `InvalidArgumentException` (`threw`), and the
      messages before that element have already been appended. */
  method SetMessages(c: MessagesCollection, elements: seq<Element>)
    returns (r: MessagesCollection, threw: bool)
    ensures threw <==> exists i :: 0 <= i < |elements| && elements[i].NotMessage?
    ensures |r.messages| == |c.messages| + MessagePrefixLength(elements)
    ensures r.messages[..|c.messages|] == c.messages
    ensures forall i :: 0 <= i < MessagePrefixLength(elements) ==>
              r.messages[|c.messages| + i] == elements[i].message
  {
    r := c;
    threw := false;
    var i := 0;
    while i < |elements|
      invariant 0 <= i <= MessagePrefixLength(elements)
      invariant |r.messages| == |c.messages| + i
      invariant r.messages[..|c.messages|] == c.messages
      invariant forall j :: 0 <= j < i ==> r.messages[|c.messages| + j] == elements[j].message
    {
      if elements[i].NotMessage? {
        threw := true;
        return;
      }
      r := AddMessage(r, elements[i].message);
      i := i + 1;
    }
  }

  /** The constructor is `setMessages` applied to an empty collection. */
  method New(elements: seq<Element>) returns (r: MessagesCollection, threw: bool)
    ensures threw <==> exists i :: 0 <= i < |elements| && elements[i].NotMessage?
    ensures |r.messages| == MessagePrefixLength(elements)
    ensures forall i :: 0 <= i < |r.messages| ==> r.messages[i] == elements[i].message
  {
    r, threw := SetMessages(Empty(), elements);
  }

  /** `getGenerator` yields the stored messages one by one; the yielded sequence is
      exactly what `getMessages` returns. */
  method Generate(c: MessagesCollection) returns (yielded: seq<Message>)
    ensures yielded == GetMessages(c)
  {
    yielded := [];
    var i := 0;
    while i < |c.messages|
      invariant 0 <= i <= |c.messages|
      invariant yielded == c.messages[..i]
    {
      yielded := yielded + [c.messages[i]];
      i := i + 1;
    }
  }
}

=== FILE: operation_result.dfy ===
/** The outcome of one operation run (src/Result/OperationResult.php): its
    messages, the extra configuration uninstall will need, and the labels the
    orchestrator attaches for reporting. */
module Results {
  import opened Wrappers
  import opened Messages
  import opened MessagesCollections
  import Strings

  /** The values an operation stores in its extra configuration. */
  datatype Value = Str(s: string) | Bool(b: bool) | List(items: seq<string>)

  /** The PHP array an operation records for its own uninstall. */
  type ExtraConfig = map<string, Value>

  datatype OperationResult = OperationResult(
    collection: MessagesCollection,
    extraConfig: ExtraConfig,
    version: string,
    operationName: string)

  /** What a PHP caller may pass to `addMessage`: a string, a `Message`, or
      anything else. */
  datatype Payload = Text(text: string) | AMessage(message: Message) | Invalid

  function MessagesOf(r: OperationResult): seq<Message> {
    r.collection.messages
  }

  /** A new result: no messages, no extra configuration, version '0', no name. */
  function Fresh(): (r: OperationResult)
    ensures IsNeutral(r)
    ensures r.extraConfig == map[] && r.version == "0" && r.operationName == ""
  {
    OperationResult(Empty(), map[], "0", "")
  }

  /** Whether some message is an error (the scan inside `isFailure`). */
  function HasError(ms: seq<Message>): (b: bool)
    ensures b <==> exists i :: 0 <= i < |ms| && IsError(ms[i])
  {
    if |ms| == 0 then false
    else if IsError(ms[0]) then true
    else
      var b := HasError(ms[1..]);
      assert forall i :: 1 <= i < |ms| ==> ms[i] == ms[1..][i - 1];
      b
  }

  /** `isFailure`: there is at least one error, whatever else is there. */
  predicate IsFailure(r: OperationResult) {
    |MessagesOf(r)| > 0 && HasError(MessagesOf(r))
  }

  /** `isSuccess`: there is a message and none of the messages is an error. */
  predicate IsSuccess(r: OperationResult) {
    |MessagesOf(r)| > 0 && !HasError(MessagesOf(r))
  }

  /** `isNeutral`: neither a success nor a failure. */
  predicate IsNeutral(r: OperationResult)
    ensures IsNeutral(r) <==> |MessagesOf(r)| == 0
  {
    !IsSuccess(r) && !IsFailure(r)
  }

  /** The three classifications are exhaustive and mutually exclusive, and they
      depend on the messages alone. */
  lemma Classification(r: OperationResult)
    ensures IsFailure(r) <==> exists i :: 0 <= i < |MessagesOf(r)| && IsError(MessagesOf(r)[i])
    ensures IsSuccess(r) <==> |MessagesOf(r)| > 0 && forall i :: 0 <= i < |MessagesOf(r)| ==> !IsError(MessagesOf(r)[i])
    ensures IsNeutral(r) <==> MessagesOf(r) == []
    ensures IsFailure(r) || IsSuccess(r) || IsNeutral(r)
    ensures !(IsFailure(r) && IsSuccess(r)) && !(IsFailure(r) && IsNeutral(r)) && !(IsSuccess(r) && IsNeutral(r))
  {
  }

  /** `addMessage`: a string is wrapped with the given severity; a `Message` is
      appended as it is, keeping its own severity; anything else throws
      `InvalidArgumentException` and leaves the result unchanged. */
  function AddMessage(r: OperationResult, payload: Payload, kind: int): (res: Result<OperationResult>)
    ensures payload.Invalid? <==> res.Failure?
    ensures res.Failure? ==> res.error.InvalidArgument?
    ensures res.Success? ==>
              res.value.extraConfig == r.extraConfig && res.value.version == r.version
              && res.value.operationName == r.operationName
    ensures payload.Text? ==> res.Success? && MessagesOf(res.value) == MessagesOf(r) + [Message(payload.text, kind)]
    ensures payload.AMessage? ==> res.Success? && MessagesOf(res.value) == MessagesOf(r) + [payload.message]
  {
    match payload
    case Invalid => Failure(InvalidArgument("Message must be a string or Message"))
    case Text(t) => Success(r.(collection := MessagesCollections.AddMessage(r.collection, NewMessage(t, kind))))
    case AMessage(m) => Success(r.(collection := MessagesCollections.AddMessage(r.collection, m)))
  }

  /** Adding a message never returns a result to neutral, and once an error is
      present the result stays a failure: there is no way to remove messages. */
  lemma AddMessageMonotone(r: OperationResult, payload: Payload, kind: int)
    requires AddMessage(r, payload, kind).Success?
    ensures !IsNeutral(AddMessage(r, payload, kind).value)
    ensures IsFailure(r) ==> IsFailure(AddMessage(r, payload, kind).value)
  {
    var r' := AddMessage(r, payload, kind).value;
    if IsFailure(r) {
      var i :| 0 <= i < |MessagesOf(r)| && IsError(MessagesOf(r)[i]);
      assert MessagesOf(r')[i] == MessagesOf(r)[i];
    }
  }

  /** An error is among `ms + [m]` exactly when it is among `ms` or is `m`. */
  lemma HasErrorSnoc(ms: seq<Message>, m: Message)
    ensures HasError(ms + [m]) <==> HasError(ms) || IsError(m)
  {
    if HasError(ms) {
      var i :| 0 <= i < |ms| && IsError(ms[i]);
      assert (ms + [m])[i] == ms[i];
    }
    if IsError(m) {
      assert (ms + [m])[|ms|] == m;
    }
    if HasError(ms + [m]) {
      var i :| 0 <= i < |ms| + 1 && IsError((ms + [m])[i]);
      if i < |ms| {
        assert (ms + [m])[i] == ms[i];
      }
    }
  }

  /** `addStatusMessage`, `addWarningMessage`, `addErrorMessage`: `addMessage`
      with a fixed severity for a string. A `Message` keeps its own severity, so
      an error passed to `addStatusMessage` still makes the result a failure;
      anything else throws. */
  function AddStatusMessage(r: OperationResult, payload: Payload): (res: Result<OperationResult>)
    ensures payload.Invalid? <==> res.Failure?
    ensures res.Failure? ==> res.error.InvalidArgument?
    ensures res.Success? ==>
              res.value.extraConfig == r.extraConfig && res.value.version == r.version
              && res.value.operationName == r.operationName
    ensures payload.Text? ==>
              res.Success? && MessagesOf(res.value) == MessagesOf(r) + [CreateStatus(payload.text)]
              && IsSuccess(res.value) == !IsFailure(r)
    ensures payload.AMessage? ==>
              res.Success? && MessagesOf(res.value) == MessagesOf(r) + [payload.message]
              && (IsFailure(res.value) <==> IsFailure(r) || IsError(payload.message))
  {
    var res := AddMessage(r, payload, STATUS);
    if payload.Text? then
      HasErrorSnoc(MessagesOf(r), CreateStatus(payload.text));
      res
    else if payload.AMessage? then
      HasErrorSnoc(MessagesOf(r), payload.message);
      res
    else res
  }

  function AddWarningMessage(r: OperationResult, payload: Payload): (res: Result<OperationResult>)
    ensures payload.Invalid? <==> res.Failure?
    ensures res.Failure? ==> res.error.InvalidArgument?
    ensures res.Success? ==>
              res.value.extraConfig == r.extraConfig && res.value.version == r.version
              && res.value.operationName == r.operationName
    ensures payload.Text? ==>
              res.Success? && MessagesOf(res.value) == MessagesOf(r) + [CreateWarning(payload.text)]
              && IsSuccess(res.value) == !IsFailure(r)
    ensures payload.AMessage? ==>
              res.Success? && MessagesOf(res.value) == MessagesOf(r) + [payload.message]
              && (IsFailure(res.value) <==> IsFailure(r) || IsError(payload.message))
  {
    var res := AddMessage(r, payload, WARNING);
    if payload.Text? then
      HasErrorSnoc(MessagesOf(r), CreateWarning(payload.text));
      res
    else if payload.AMessage? then
      HasErrorSnoc(MessagesOf(r), payload.message);
      res
    else res
  }

  function AddErrorMessage(r: OperationResult, payload: Payload): (res: Result<OperationResult>)
    ensures payload.Invalid? <==> res.Failure?
    ensures res.Failure? ==> res.error.InvalidArgument?
    ensures res.Success? ==>
              res.value.extraConfig == r.extraConfig && res.value.version == r.version
              && res.value.operationName == r.operationName
    ensures payload.Text? ==>
              res.Success? && MessagesOf(res.value) == MessagesOf(r) + [CreateError(payload.text)]
              && IsFailure(res.value)
    ensures payload.AMessage? ==>
              res.Success? && MessagesOf(res.value) == MessagesOf(r) + [payload.message]
              && (IsFailure(res.value) <==> IsFailure(r) || IsError(payload.message))
  {
    var res := AddMessage(r, payload, ERROR);
    if payload.AMessage? then
      HasErrorSnoc(MessagesOf(r), payload.message);
      res
    else res
  }

  /** Appends a status line built from a string; the operations only ever pass
      strings, so this never throws. */
  function WithStatus(r: OperationResult, text: string): (res: OperationResult)
    ensures MessagesOf(res) == MessagesOf(r) + [CreateStatus(text)]
    ensures res.extraConfig == r.extraConfig
    ensures IsSuccess(res) <==> !IsFailure(r)
  {
    AddStatusMessage(r, Text(text)).value
  }

  /** Appends an error line built from a string. */
  function WithError(r: OperationResult, text: string): (res: OperationResult)
    ensures MessagesOf(res) == MessagesOf(r) + [CreateError(text)]
    ensures res.extraConfig == r.extraConfig
    ensures IsFailure(res)
  {
    AddErrorMessage(r, Text(text)).value
  }

  /** Appends `n` copies of the same error line: an operation that failed `n` times
      in a loop. */
  function WithErrors(r: OperationResult, text: string, n: nat): (res: OperationResult)
    ensures |MessagesOf(res)| == |MessagesOf(r)| + n
    ensures res.extraConfig == r.extraConfig
    ensures IsFailure(res) <==> IsFailure(r) || n > 0
  {
    if n == 0 then r
    else
      var res := WithError(WithErrors(r, text, n - 1), text);
      assert MessagesOf(res)[|MessagesOf(res)| - 1] == CreateError(text);
      res
  }

  /** Appends one error line per text, in order: a loop that reports each failure
      with its own text. */
  function WithErrorTexts(r: OperationResult, texts: seq<string>): (res: OperationResult)
    ensures |MessagesOf(res)| == |MessagesOf(r)| + |texts|
    ensures MessagesOf(res)[..|MessagesOf(r)|] == MessagesOf(r)
    ensures forall i :: 0 <= i < |texts| ==> MessagesOf(res)[|MessagesOf(r)| + i] == CreateError(texts[i])
    ensures res.extraConfig == r.extraConfig
    ensures IsFailure(res) <==> IsFailure(r) || |texts| > 0
    decreases |texts|
  {
    if |texts| == 0 then r
    else
      var front := WithErrorTexts(r, texts[..|texts| - 1]);
      var res := WithError(front, texts[|texts| - 1]);
      assert MessagesOf(res)[..|MessagesOf(r)|] == MessagesOf(front)[..|MessagesOf(r)|];
      res
  }

  /** `$config[$key] ?? ''` interpolated into a string: missing gives "", `true`
      gives "1", `false` gives "", an array gives "Array". */
  function StringValue(extra: ExtraConfig, key: string): (s: string)
    ensures key !in extra ==> s == ""
    ensures key in extra && extra[key].Str? ==> s == extra[key].s
  {
    if key !in extra then ""
    else match extra[key]
      case Str(s) => s
      case Bool(b) => if b then "1" else ""
      case List(_) => "Array"
  }

  /** PHP truthiness of a recorded value: a string as PHP casts it, a boolean as
      itself, an array when it is non-empty. */
  predicate IsTruthy(v: Value) {
    match v
    case Str(s) => Strings.Truthy(s)
    case Bool(b) => b
    case List(items) => |items| > 0
  }

  /** `setMessagesCollection` replaces the whole message list. */
  function SetMessagesCollection(r: OperationResult, c: MessagesCollection): (res: OperationResult)
    ensures MessagesOf(res) == c.messages
    ensures res.extraConfig == r.extraConfig && res.version == r.version && res.operationName == r.operationName
  {
    r.(collection := c)
  }

  /** The three setters replace their own field wholesale and never change the
      classification. */
  function SetExtraConfig(r: OperationResult, extra: ExtraConfig): (res: OperationResult)
    ensures res.extraConfig == extra && MessagesOf(res) == MessagesOf(r)
    ensures res.version == r.version && res.operationName == r.operationName
    ensures IsFailure(res) == IsFailure(r) && IsSuccess(res) == IsSuccess(r) && IsNeutral(res) == IsNeutral(r)
  {
    r.(extraConfig := extra)
  }

  function SetVersion(r: OperationResult, version: string): (res: OperationResult)
    ensures res.version == version && MessagesOf(res) == MessagesOf(r)
    ensures res.extraConfig == r.extraConfig && res.operationName == r.operationName
    ensures IsFailure(res) == IsFailure(r) && IsSuccess(res) == IsSuccess(r) && IsNeutral(res) == IsNeutral(r)
  {
    r.(version := version)
  }

  function SetOperationName(r: OperationResult, name: string): (res: OperationResult)
    ensures res.operationName == name && MessagesOf(res) == MessagesOf(r)
    ensures res.extraConfig == r.extraConfig && res.version == r.version
    ensures IsFailure(res) == IsFailure(r) && IsSuccess(res) == IsSuccess(r) && IsNeutral(res) == IsNeutral(r)
  {
    r.(operationName := name)
  }
}

=== FILE: ordered_map.dfy ===
/** PHP's ordered associative arrays with string-like keys, as a sequence of
    (key, value) pairs. Used for bundle registrations and for the registries that
    discovery fills in "last registration wins" order. */
module OrderedMaps {
  import opened Wrappers

  type OMap<K, V> = seq<(K, V)>

  function Keys<K(==), V>(m: OMap<K, V>): (ks: seq<K>)
    ensures |ks| == |m|
    ensures forall i :: 0 <= i < |m| ==> ks[i] == m[i].0
  {
    if |m| == 0 then [] else [m[0].0] + Keys(m[1..])
  }

  predicate UniqueKeys<K(==), V>(m: OMap<K, V>) {
    forall i, j :: 0 <= i < j < |m| ==> m[i].0 != m[j].0
  }

  /** `$m[$k] ?? null`: the value of the first entry with key `k`. */
  function Get<K(==), V>(m: OMap<K, V>, k: K): (r: Option<V>)
    ensures r.None? <==> k !in Keys(m)
  {
    if |m| == 0 then None
    else if m[0].0 == k then Some(m[0].1)
    else Get(m[1..], k)
  }

  /** `$m[$k] = $v`: an existing key keeps its position and takes the new value; a
      new key is appended at the end. */
  function Put<K(==), V>(m: OMap<K, V>, k: K, v: V): (r: OMap<K, V>)
    ensures Keys(r) == if k in Keys(m) then Keys(m) else Keys(m) + [k]
  {
    if k in Keys(m) then Replace(m, k, v)
    else
      KeysAppend(m, (k, v));
      m + [(k, v)]
  }

  /** Gives every entry with key `k` the value `v`. */
  function Replace<K(==), V>(m: OMap<K, V>, k: K, v: V): (r: OMap<K, V>)
    ensures Keys(r) == Keys(m)
  {
    if |m| == 0 then []
    else [if m[0].0 == k then (k, v) else m[0]] + Replace(m[1..], k, v)
  }

  lemma KeysAppend<K, V>(m: OMap<K, V>, e: (K, V))
    ensures Keys(m + [e]) == Keys(m) + [e.0]
  {
  }

  lemma {:induction false} GetReplace<K, V>(m: OMap<K, V>, k: K, v: V, j: K)
    ensures Get(Replace(m, k, v), j) == if j != k then Get(m, j) else if k in Keys(m) then Some(v) else None
    decreases |m|
  {
    if |m| > 0 {
      assert Keys(m) == [m[0].0] + Keys(m[1..]);
      GetReplace(m[1..], k, v, j);
    }
  }

  lemma GetPut<K, V>(m: OMap<K, V>, k: K, v: V, j: K)
    ensures Get(Put(m, k, v), j) == if j == k then Some(v) else Get(m, j)
  {
    if k in Keys(m) {
      GetReplace(m, k, v, j);
    } else {
      GetAppend(m, (k, v), j);
    }
  }

  lemma {:induction false} GetAppend<K, V>(m: OMap<K, V>, e: (K, V), j: K)
    ensures Get(m + [e], j) == if j in Keys(m) then Get(m, j) else if j == e.0 then Some(e.1) else None
    decreases |m|
  {
    if |m| > 0 {
      assert (m + [e])[1..] == m[1..] + [e];
      GetAppend(m[1..], e, j);
    }
  }

  /** `array_merge($m, $d)` for string keys: the incoming entries of `d` are put one
      by one, so `d` overrides. */
  function PutAll<K(==), V>(m: OMap<K, V>, d: OMap<K, V>): OMap<K, V>
    decreases |d|
  {
    if |d| == 0 then m else PutAll(Put(m, d[0].0, d[0].1), d[1..])
  }

  /** The value of the LAST entry with key `k`. */
  function LastValue<K(==), V>(d: OMap<K, V>, k: K): (r: Option<V>)
    ensures r.None? <==> k !in Keys(d)
  {
    if |d| == 0 then None
    else if d[|d| - 1].0 == k then Some(d[|d| - 1].1)
    else
      assert Keys(d) == Keys(d[..|d| - 1]) + [d[|d| - 1].0] by {
        assert d == d[..|d| - 1] + [d[|d| - 1]];
        KeysAppend(d[..|d| - 1], d[|d| - 1]);
      }
      LastValue(d[..|d| - 1], k)
  }

  lemma {:induction false} LastValueCons<K, V>(d: OMap<K, V>, k: K)
    requires |d| > 0
    ensures LastValue(d, k) == if k in Keys(d[1..]) then LastValue(d[1..], k)
                               else if d[0].0 == k then Some(d[0].1) else None
    decreases |d|
  {
    if |d| > 1 {
      var last := d[|d| - 1];
      assert d[1..][..|d[1..]| - 1] == d[..|d| - 1][1..];
      if last.0 != k {
        LastValueCons(d[..|d| - 1], k);
        assert d[1..] == d[..|d| - 1][1..] + [last];
        KeysAppend(d[..|d| - 1][1..], last);
      } else {
        assert Keys(d[1..])[|d| - 2] == k;
      }
    }
  }

  /** After a merge every key of `d` has the value of its last entry in `d`, and
      every other key keeps its value in `m`. */
  lemma {:induction false} GetPutAll<K, V>(m: OMap<K, V>, d: OMap<K, V>, k: K)
    ensures Get(PutAll(m, d), k) == if k in Keys(d) then LastValue(d, k) else Get(m, k)
    decreases |d|
  {
    if |d| > 0 {
      GetPutAll(Put(m, d[0].0, d[0].1), d[1..], k);
      GetPut(m, d[0].0, d[0].1, k);
      LastValueCons(d, k);
      assert Keys(d) == [d[0].0] + Keys(d[1..]);
    }
  }

  /** The keys of `ks` not already in `seen`, in first-occurrence order. */
  function NewKeys<K(==)>(seen: seq<K>, ks: seq<K>): seq<K>
    decreases |ks|
  {
    if |ks| == 0 then []
    else if ks[0] in seen then NewKeys(seen, ks[1..])
    else [ks[0]] + NewKeys(seen + [ks[0]], ks[1..])
  }

  /** A merge keeps the existing key order and appends the new keys in the order
      the incoming map lists them. */
  lemma {:induction false} KeysPutAll<K, V>(m: OMap<K, V>, d: OMap<K, V>)
    ensures Keys(PutAll(m, d)) == Keys(m) + NewKeys(Keys(m), Keys(d))
    decreases |d|
  {
    if |d| > 0 {
      var m' := Put(m, d[0].0, d[0].1);
      KeysPutAll(m', d[1..]);
      assert Keys(d) == [d[0].0] + Keys(d[1..]);
      assert Keys(d)[1..] == Keys(d[1..]);
    }
  }

  /** Keeps the entries whose key is not listed in `ks`, in order. */
  function RemoveKeys<K(==), V>(m: OMap<K, V>, ks: seq<K>): (r: OMap<K, V>)
    ensures forall i :: 0 <= i < |r| ==> r[i].0 !in ks
    ensures |r| <= |m|
  {
    if |m| == 0 then []
    else if m[0].0 in ks then RemoveKeys(m[1..], ks)
    else [m[0]] + RemoveKeys(m[1..], ks)
  }

  /** Removal drops exactly the listed keys; other keys keep their values. */
  lemma {:induction false} GetRemoveKeys<K, V>(m: OMap<K, V>, ks: seq<K>, k: K)
    ensures Get(RemoveKeys(m, ks), k) == if k in ks then None else Get(m, k)
    decreases |m|
  {
    if |m| > 0 {
      GetRemoveKeys(m[1..], ks, k);
    }
  }

  lemma {:induction false} RemoveKeysReplace<K, V>(m: OMap<K, V>, k: K, v: V, ks: seq<K>)
    requires k in ks
    ensures RemoveKeys(Replace(m, k, v), ks) == RemoveKeys(m, ks)
    decreases |m|
  {
    if |m| > 0 {
      RemoveKeysReplace(m[1..], k, v, ks);
    }
  }

  lemma RemoveKeysPut<K, V>(m: OMap<K, V>, k: K, v: V, ks: seq<K>)
    requires k in ks
    ensures RemoveKeys(Put(m, k, v), ks) == RemoveKeys(m, ks)
  {
    if k in Keys(m) {
      RemoveKeysReplace(m, k, v, ks);
    } else {
      RemoveKeysAppend(m, (k, v), ks);
    }
  }

  lemma {:induction false} RemoveKeysAppend<K, V>(m: OMap<K, V>, e: (K, V), ks: seq<K>)
    requires e.0 in ks
    ensures RemoveKeys(m + [e], ks) == RemoveKeys(m, ks)
    decreases |m|
  {
    if |m| > 0 {
      assert (m + [e])[1..] == m[1..] + [e];
      RemoveKeysAppend(m[1..], e, ks);
    }
  }

  /** Merging `d` in and then removing every key of `d` leaves exactly the original
      entries whose key `d` does not mention, in their original order. */
  lemma {:induction false} RemoveAfterPutAll<K, V>(m: OMap<K, V>, d: OMap<K, V>, ks: seq<K>)
    requires forall k :: k in Keys(d) ==> k in ks
    ensures RemoveKeys(PutAll(m, d), ks) == RemoveKeys(m, ks)
    decreases |d|
  {
    if |d| > 0 {
      assert Keys(d) == [d[0].0] + Keys(d[1..]);
      RemoveAfterPutAll(Put(m, d[0].0, d[0].1), d[1..], ks);
      RemoveKeysPut(m, d[0].0, d[0].1, ks);
    }
  }

  /** Merging two lists one after the other is merging their concatenation. */
  lemma {:induction false} PutAllAppend<K, V>(m: OMap<K, V>, a: OMap<K, V>, b: OMap<K, V>)
    ensures PutAll(m, a + b) == PutAll(PutAll(m, a), b)
    decreases |a|
  {
    if |a| > 0 {
      assert (a + b)[0] == a[0] && (a + b)[1..] == a[1..] + b;
      PutAllAppend(Put(m, a[0].0, a[0].1), a[1..], b);
    } else {
      assert a + b == b;
    }
  }

  /** A registry filled from `entries` in order, later entries winning. */
  function FromPairs<K(==), V>(entries: seq<(K, V)>): OMap<K, V> {
    PutAll([], entries)
  }

  /** In a registry built from `entries`, each key maps to its last registration. */
  lemma LastRegistrationWins<K, V>(entries: seq<(K, V)>, k: K)
    ensures Get(FromPairs(entries), k) == LastValue(entries, k)
  {
    GetPutAll([], entries, k);
  }
}

=== FILE: package_handler.dfy ===
/** The orchestrator (src/PackageHandler.php): a fold over the selected handlers
    and the package's versions that runs each operation, keeps the non-neutral
    results, records what install did in the lock file and stamps the installed
    version; uninstall runs the same fold over every version the package ships,
    handing each call what install recorded, and then erases the package's entry.

    The operations are abstract: a handler is a record of functions over some state
    `S` (for the bundled operations, the file system). */
module PackageHandling {
  import opened Wrappers
  import opened OrderedMaps
  import opened Results
  import opened ResultCollections
  import opened Versions
  import opened Configuration
  import FileSystems

  /** An operation class as the orchestrator sees it: `handles()`,
      `getFriendlyName()`, the optional `getSupportedProjectTypes()`, the optional
      `isAvailable($paths)` of availability-aware operations, `install($path)` and
      `uninstall($path, $packageConfig)`. */
  datatype Handler<!S> = Handler(
    kind: string,
    name: string,
    supportedTypes: Option<seq<string>>,
    availability: Option<(S, seq<string>) -> bool>,
    install: (S, string) -> (S, OperationResult),
    uninstall: (S, string, ExtraConfig) -> (S, OperationResult))

  /** The discovered operation classes by the kind they handle. */
  type Registry<!S> = OMap<string, Handler<S>>

  predicate Supports<S>(h: Handler<S>, machineName: string) {
    h.supportedTypes.Some? && machineName in h.supportedTypes.value
  }

  /** The first loop of `handleInstall`: every registered handler that declares
      support for the project type, in registry order. */
  function SupportingHandlers<S>(registry: Registry<S>, machineName: string): (hs: seq<Handler<S>>)
    ensures |hs| <= |registry|
    ensures forall i :: 0 <= i < |hs| ==> Supports(hs[i], machineName)
    ensures forall j :: 0 <= j < |registry| && Supports(registry[j].1, machineName) ==>
              exists i :: 0 <= i < |hs| && hs[i] == registry[j].1
    decreases |registry|
  {
    if |registry| == 0 then []
    else
      var rest := SupportingHandlers(registry[1..], machineName);
      assert forall j :: 1 <= j < |registry| ==> registry[j] == registry[1..][j - 1];
      if Supports(registry[0].1, machineName) then
        var hs := [registry[0].1] + rest;
        assert forall i :: 0 <= i < |rest| ==> hs[i + 1] == rest[i];
        assert forall j :: 0 <= j < |registry| && Supports(registry[j].1, machineName) ==>
                 exists i :: 0 <= i < |hs| && hs[i] == registry[j].1
        by {
          forall j | 0 <= j < |registry| && Supports(registry[j].1, machineName)
            ensures exists i :: 0 <= i < |hs| && hs[i] == registry[j].1
          {
            if j == 0 {
              assert hs[0] == registry[0].1;
            } else {
              assert registry[j] == registry[1..][j - 1];
              var i :| 0 <= i < |rest| && rest[i] == registry[1..][j - 1].1;
              assert hs[i + 1] == registry[j].1;
            }
          }
        }
        hs
      else rest
  }

  /** Positions in increasing order, each listed once. */
  predicate Increasing(idx: seq<nat>) {
    forall i, k :: 0 <= i < k < |idx| ==> idx[i] < idx[k]
  }

  /** The registry positions from `from` on whose handler supports the project
      type, in order. */
  function SupportIndices<S>(registry: Registry<S>, machineName: string, from: nat): (idx: seq<nat>)
    requires from <= |registry|
    ensures forall i :: 0 <= i < |idx| ==> from <= idx[i] < |registry|
    decreases |registry| - from
  {
    if from == |registry| then []
    else
      var rest := SupportIndices(registry, machineName, from + 1);
      if Supports(registry[from].1, machineName) then [from] + rest else rest
  }

  lemma {:induction false} SupportIndicesIncreasing<S>(registry: Registry<S>, machineName: string, from: nat)
    requires from <= |registry|
    ensures Increasing(SupportIndices(registry, machineName, from))
    decreases |registry| - from
  {
    if from < |registry| {
      SupportIndicesIncreasing(registry, machineName, from + 1);
    }
  }

  lemma {:induction false} SupportIndicesPick<S>(registry: Registry<S>, machineName: string, from: nat)
    requires from <= |registry|
    ensures var idx := SupportIndices(registry, machineName, from);
            && |idx| == |SupportingHandlers(registry[from..], machineName)|
            && forall i :: 0 <= i < |idx| ==> SupportingHandlers(registry[from..], machineName)[i] == registry[idx[i]].1
    decreases |registry| - from
  {
    if from < |registry| {
      SupportIndicesPick(registry, machineName, from + 1);
      var tail := SupportingHandlers(registry[from + 1..], machineName);
      assert registry[from..][1..] == registry[from + 1..];
      var hs := SupportingHandlers(registry[from..], machineName);
      var idx := SupportIndices(registry, machineName, from);
      var rest := SupportIndices(registry, machineName, from + 1);
      if Supports(registry[from].1, machineName) {
        assert hs == [registry[from].1] + tail && idx == [from] + rest;
        PickCons(registry, from, tail, rest);
      } else {
        assert hs == tail && idx == rest;
      }
    }
  }

  /** Reading the registry at one more position in front. */
  lemma PickCons<S>(registry: Registry<S>, from: nat, tail: seq<Handler<S>>, rest: seq<nat>)
    requires from < |registry| && |rest| == |tail|
    requires forall i :: 0 <= i < |rest| ==> rest[i] < |registry| && tail[i] == registry[rest[i]].1
    ensures forall i :: 0 <= i < |rest| + 1 ==> ([registry[from].1] + tail)[i] == registry[([from] + rest)[i]].1
  {
    forall i | 0 <= i < |rest| + 1
      ensures ([registry[from].1] + tail)[i] == registry[([from] + rest)[i]].1
    {
      if i > 0 {
        assert ([registry[from].1] + tail)[i] == tail[i - 1] && ([from] + rest)[i] == rest[i - 1];
      }
    }
  }

  lemma {:induction false} SupportIndicesComplete<S>(registry: Registry<S>, machineName: string, from: nat, j: nat)
    requires from <= j < |registry| && Supports(registry[j].1, machineName)
    ensures j in SupportIndices(registry, machineName, from)
    decreases |registry| - from
  {
    if from < j {
      SupportIndicesComplete(registry, machineName, from + 1, j);
    }
  }

  /** `SupportingHandlers` keeps registry order and multiplicity: it is the registry
      read at increasing positions, and every supporting position is among them. */
  lemma SupportingHandlersOrder<S>(registry: Registry<S>, machineName: string)
    ensures var idx := SupportIndices(registry, machineName, 0);
            var hs := SupportingHandlers(registry, machineName);
            && Increasing(idx) && |idx| == |hs|
            && (forall i :: 0 <= i < |idx| ==> hs[i] == registry[idx[i]].1)
            && forall j :: 0 <= j < |registry| && Supports(registry[j].1, machineName) ==> j in idx
  {
    SupportIndicesIncreasing(registry, machineName, 0);
    SupportIndicesPick(registry, machineName, 0);
    assert registry[0..] == registry;
    forall j | 0 <= j < |registry| && Supports(registry[j].1, machineName)
      ensures j in SupportIndices(registry, machineName, 0)
    {
      SupportIndicesComplete(registry, machineName, 0, j);
    }
  }

  /** The project type's kinds that have a registered handler, in the type's order
      (`isset($handlers[$type])`). */
  function PresentKinds<S>(registry: Registry<S>, types: seq<string>): (ks: seq<string>)
    ensures forall k :: k in ks <==> k in types && k in Keys(registry)
    ensures |ks| <= |types|
  {
    if |types| == 0 then []
    else (if types[0] in Keys(registry) then [types[0]] else []) + PresentKinds(registry, types[1..])
  }

  /** The positions of `types` from `from` on whose kind is registered, in order. */
  function KindIndices<S>(registry: Registry<S>, types: seq<string>, from: nat): (idx: seq<nat>)
    requires from <= |types|
    ensures forall i :: 0 <= i < |idx| ==> from <= idx[i] < |types|
    decreases |types| - from
  {
    if from == |types| then []
    else
      var rest := KindIndices(registry, types, from + 1);
      if types[from] in Keys(registry) then [from] + rest else rest
  }

  lemma {:induction false} KindIndicesIncreasing<S>(registry: Registry<S>, types: seq<string>, from: nat)
    requires from <= |types|
    ensures Increasing(KindIndices(registry, types, from))
    decreases |types| - from
  {
    if from < |types| {
      KindIndicesIncreasing(registry, types, from + 1);
    }
  }

  lemma {:induction false} KindIndicesPick<S>(registry: Registry<S>, types: seq<string>, from: nat)
    requires from <= |types|
    ensures var idx := KindIndices(registry, types, from);
            && |idx| == |PresentKinds(registry, types[from..])|
            && forall i :: 0 <= i < |idx| ==> PresentKinds(registry, types[from..])[i] == types[idx[i]]
    decreases |types| - from
  {
    if from < |types| {
      KindIndicesPick(registry, types, from + 1);
      var tail := PresentKinds(registry, types[from + 1..]);
      assert types[from..][1..] == types[from + 1..];
      var ks := PresentKinds(registry, types[from..]);
      var idx := KindIndices(registry, types, from);
      var rest := KindIndices(registry, types, from + 1);
      if types[from] in Keys(registry) {
        assert ks == [types[from]] + tail && idx == [from] + rest;
        KindPickCons(types, from, tail, rest);
      } else {
        assert ks == tail && idx == rest;
      }
    }
  }

  /** Reading the kind list at one more position in front. */
  lemma KindPickCons(types: seq<string>, from: nat, tail: seq<string>, rest: seq<nat>)
    requires from < |types| && |rest| == |tail|
    requires forall i :: 0 <= i < |rest| ==> rest[i] < |types| && tail[i] == types[rest[i]]
    ensures forall i :: 0 <= i < |rest| + 1 ==> ([types[from]] + tail)[i] == types[([from] + rest)[i]]
  {
    forall i | 0 <= i < |rest| + 1
      ensures ([types[from]] + tail)[i] == types[([from] + rest)[i]]
    {
      if i > 0 {
        assert ([types[from]] + tail)[i] == tail[i - 1] && ([from] + rest)[i] == rest[i - 1];
      }
    }
  }

  lemma {:induction false} KindIndicesComplete<S>(registry: Registry<S>, types: seq<string>, from: nat, j: nat)
    requires from <= j < |types| && types[j] in Keys(registry)
    ensures j in KindIndices(registry, types, from)
    decreases |types| - from
  {
    if from < j {
      KindIndicesComplete(registry, types, from + 1, j);
    }
  }

  /** `PresentKinds` keeps the type's order and multiplicity: it is `types` read at
      increasing positions, and every registered position is among them. With
      `TypedHandlers`' contract this fixes the typed handlers' order too. */
  lemma PresentKindsOrder<S>(registry: Registry<S>, types: seq<string>)
    ensures var idx := KindIndices(registry, types, 0);
            var ks := PresentKinds(registry, types);
            && Increasing(idx) && |idx| == |ks|
            && (forall i :: 0 <= i < |idx| ==> ks[i] == types[idx[i]])
            && forall j :: 0 <= j < |types| && types[j] in Keys(registry) ==> j in idx
  {
    KindIndicesIncreasing(registry, types, 0);
    KindIndicesPick(registry, types, 0);
    assert types[0..] == types;
    forall j | 0 <= j < |types| && types[j] in Keys(registry)
      ensures j in KindIndices(registry, types, 0)
    {
      KindIndicesComplete(registry, types, 0, j);
    }
  }

  /** The typed handlers are the registry's handlers of the type's registered kinds,
      read at increasing positions of `types`. */
  lemma TypedHandlersOrder<S>(registry: Registry<S>, types: seq<string>)
    ensures var idx := KindIndices(registry, types, 0);
            var hs := TypedHandlers(registry, types);
            && Increasing(idx) && |idx| == |hs|
            && (forall i :: 0 <= i < |idx| ==> Get(registry, types[idx[i]]) == Some(hs[i]))
            && forall j :: 0 <= j < |types| && types[j] in Keys(registry) ==> j in idx
  {
    PresentKindsOrder(registry, types);
  }

  /** The handlers of the project type's kinds, looked up in the registry. */
  function TypedHandlers<S>(registry: Registry<S>, types: seq<string>): (hs: seq<Handler<S>>)
    ensures |hs| == |PresentKinds(registry, types)|
    ensures forall i :: 0 <= i < |hs| ==> Get(registry, PresentKinds(registry, types)[i]) == Some(hs[i])
  {
    var ks := PresentKinds(registry, types);
    assert forall i :: 0 <= i < |ks| ==> ks[i] in ks && Get(registry, ks[i]).Some?;
    seq(|ks|, i requires 0 <= i < |ks| => Get(registry, ks[i]).value)
  }

  /** The handler list of `handleInstall`: the supporting handlers, then the
      handlers of the project type's kinds. A handler in both parts runs twice. */
  function InstallHandlers<S>(registry: Registry<S>, machineName: string, types: seq<string>): (hs: seq<Handler<S>>)
    ensures |hs| == |SupportingHandlers(registry, machineName)| + |PresentKinds(registry, types)|
    ensures forall i :: 0 <= i < |SupportingHandlers(registry, machineName)| ==> Supports(hs[i], machineName)
    ensures forall i :: 0 <= i < |PresentKinds(registry, types)| ==>
              Get(registry, PresentKinds(registry, types)[i]) == Some(hs[|SupportingHandlers(registry, machineName)| + i])
  {
    var a := SupportingHandlers(registry, machineName);
    var b := TypedHandlers(registry, types);
    assert forall i :: 0 <= i < |b| ==> (a + b)[|a| + i] == b[i];
    a + b
  }

  /** `getPaths`: the directories of the given versions, in order. */
  function Paths(versions: seq<VersionDirectory>): (ps: seq<string>)
    ensures |ps| == |versions| && forall i :: 0 <= i < |versions| ==> ps[i] == versions[i].path
  {
    seq(|versions|, i requires 0 <= i < |versions| => versions[i].path)
  }

  /** `r` is a tail of `s`: each entry of `s` occurs in it at most as often as in `s`. */
  predicate IsSuffix<T(==)>(r: seq<T>, s: seq<T>) {
    |r| <= |s| && r == s[|s| - |r|..]
  }

  /** `getVersions($all)`: every version the package ships, or only those newer than
      the one installed last; ascending either way. */
  function GetVersions(all: bool, store: Store, pkg: string, fs: FileSystems.FileSystem, installPath: string,
                       projectDirs: seq<string>, scandir: string -> seq<string>): (r: seq<VersionDirectory>)
    ensures SortedByVersion(r)
    ensures var every := GetPackageVersions(fs, installPath, projectDirs, scandir);
            IsSuffix(r, every) && (all ==> r == every)
    ensures forall v :: v in r ==> v in GetPackageVersions(fs, installPath, projectDirs, scandir)
    ensures forall v :: v in GetPackageVersions(fs, installPath, projectDirs, scandir) ==>
              (v in r <==> all || Less(Components(GetLastConfiguredVersion(store, pkg)), Versions.Key(v)))
  {
    var every := GetPackageVersions(fs, installPath, projectDirs, scandir);
    if all then every
    else
      var r := GetInstallableVersions(store, pkg, fs, installPath, projectDirs, scandir);
      var k :| 0 <= k <= |every| && r == every[k..];
      SuffixSorted(every, k);
      r
  }

  /** The extra config uninstall passes: `operations[version][kind] ?? []`. */
  function RecordedConfig(entry: Entry, version: string, kind: string): (c: ExtraConfig)
    ensures version !in entry.operations || kind !in entry.operations[version] ==> c == map[]
    ensures version in entry.operations && kind in entry.operations[version] ==> c == entry.operations[version][kind]
  {
    if version in entry.operations && kind in entry.operations[version] then entry.operations[version][kind] else map[]
  }

  /** Which direction the fold runs in; uninstall reads the package's lock entry. */
  datatype Mode = Installing | Uninstalling(entry: Entry)

  /** One operation call: the handler's kind and name, the version, the extra config
      it was given (always empty for install) and its result. */
  datatype Run = Run(kind: string, name: string, version: string, config: ExtraConfig, result: OperationResult)

  /** A result as it is returned: labelled 'v' + version and with the handler's
      friendly name. */
  function Label(run: Run): (r: OperationResult)
    ensures r.version == "v" + run.version && r.operationName == run.name
    ensures MessagesOf(r) == MessagesOf(run.result) && r.extraConfig == run.result.extraConfig
    ensures IsNeutral(r) == IsNeutral(run.result)
  {
    SetOperationName(SetVersion(run.result, "v" + run.version), run.name)
  }

  /** The results the orchestrator returns for a trace of calls: the non-neutral
      ones, labelled, in call order. */
  function Returned(trace: seq<Run>): (rs: seq<OperationResult>)
    ensures |rs| <= |trace|
    decreases |trace|
  {
    if |trace| == 0 then []
    else
      var front := Returned(trace[..|trace| - 1]);
      var last := trace[|trace| - 1];
      if IsNeutral(last.result) then front else front + [Label(last)]
  }

  /** The returned results are exactly the labelled non-neutral calls: none of them
      is neutral, each carries the version label and name of a call in the trace,
      and there are some exactly when some call was not neutral. */
  lemma {:induction false} ReturnedAreChanges(trace: seq<Run>)
    ensures forall k :: 0 <= k < |Returned(trace)| ==> !IsNeutral(Returned(trace)[k])
    ensures forall k :: 0 <= k < |Returned(trace)| ==>
              exists i :: 0 <= i < |trace| && Returned(trace)[k] == Label(trace[i]) && !IsNeutral(trace[i].result)
    ensures |Returned(trace)| > 0 <==> exists i :: 0 <= i < |trace| && !IsNeutral(trace[i].result)
    decreases |trace|
  {
    if |trace| > 0 {
      var front := trace[..|trace| - 1];
      ReturnedAreChanges(front);
      assert forall i :: 0 <= i < |front| ==> front[i] == trace[i];
      var rs := Returned(trace);
      forall k | 0 <= k < |rs|
        ensures !IsNeutral(rs[k])
        ensures exists i :: 0 <= i < |trace| && rs[k] == Label(trace[i]) && !IsNeutral(trace[i].result)
      {
        if k < |Returned(front)| {
          assert rs[k] == Returned(front)[k];
          var i :| 0 <= i < |front| && Returned(front)[k] == Label(front[i]) && !IsNeutral(front[i].result);
          assert trace[i] == front[i];
          assert rs[k] == Label(trace[i]) && !IsNeutral(trace[i].result);
        } else {
          var i := |trace| - 1;
          assert rs[k] == Label(trace[i]) && !IsNeutral(trace[i].result);
        }
      }
    } else {
      assert Returned(trace) == [];
    }
  }

  /** The positions of the non-neutral calls of a trace, in call order. */
  function ChangeIndices(trace: seq<Run>): (idx: seq<nat>)
    ensures forall k :: 0 <= k < |idx| ==> idx[k] < |trace|
    decreases |trace|
  {
    if |trace| == 0 then []
    else
      var n := |trace| - 1;
      ChangeIndices(trace[..n]) + (if IsNeutral(trace[n].result) then [] else [n])
  }

  lemma {:induction false} ChangeIndicesIncreasing(trace: seq<Run>)
    ensures Increasing(ChangeIndices(trace))
    decreases |trace|
  {
    if |trace| > 0 {
      ChangeIndicesIncreasing(trace[..|trace| - 1]);
    }
  }

  lemma {:induction false} ChangeIndicesMembers(trace: seq<Run>)
    ensures forall j :: 0 <= j < |trace| ==> (j in ChangeIndices(trace) <==> !IsNeutral(trace[j].result))
    decreases |trace|
  {
    if |trace| > 0 {
      var n := |trace| - 1;
      ChangeIndicesMembers(trace[..n]);
      assert forall j :: 0 <= j < n ==> trace[..n][j] == trace[j];
    }
  }

  lemma {:induction false} ReturnedPick(trace: seq<Run>)
    ensures var idx := ChangeIndices(trace);
            && |idx| == |Returned(trace)|
            && forall k :: 0 <= k < |idx| ==> Returned(trace)[k] == Label(trace[idx[k]])
    decreases |trace|
  {
    if |trace| > 0 {
      var n := |trace| - 1;
      var front := trace[..n];
      ReturnedPick(front);
      var idx0 := ChangeIndices(front);
      var rs0 := Returned(front);
      assert forall k :: 0 <= k < |idx0| ==> front[idx0[k]] == trace[idx0[k]];
      if !IsNeutral(trace[n].result) {
        var idx := idx0 + [n];
        var rs := rs0 + [Label(trace[n])];
        assert forall k :: 0 <= k < |idx0| ==> idx[k] == idx0[k] && rs[k] == rs0[k];
      }
    }
  }

  /** The returned results are the trace read at the positions of its non-neutral
      calls, labelled: one per non-neutral call, none for a neutral one, in call
      order. */
  lemma ReturnedOrder(trace: seq<Run>)
    ensures var idx := ChangeIndices(trace);
            && Increasing(idx) && |idx| == |Returned(trace)|
            && (forall k :: 0 <= k < |idx| ==> Returned(trace)[k] == Label(trace[idx[k]]))
            && forall j :: 0 <= j < |trace| ==> (j in idx <==> !IsNeutral(trace[j].result))
  {
    ChangeIndicesIncreasing(trace);
    ChangeIndicesMembers(trace);
    ReturnedPick(trace);
  }

  /** `madeChanges` on the returned collection holds exactly when some call was
      not neutral. */
  lemma MadeChangesIff(trace: seq<Run>)
    ensures MadeChanges(FromSeq(Returned(trace))) <==> exists i :: 0 <= i < |trace| && !IsNeutral(trace[i].result)
  {
    ReturnedAreChanges(trace);
    var c := FromSeq(Returned(trace));
    if |Returned(trace)| > 0 {
      assert c.slots[0] == Some(Returned(trace)[0]);
    }
  }

  /** An entry for `addConfig` holding only `operations[version][kind] = extra`. */
  function OperationEntry(version: string, kind: string, extra: ExtraConfig): Entry {
    Entry(None, map[version := map[kind := extra]])
  }

  /** What install records for one non-neutral call: first an empty record for the
      kind, then the extra config if it is not empty. */
  function Record(run: Run): (es: seq<Entry>)
    ensures 1 <= |es| <= 2 && es[0] == OperationEntry(run.version, run.kind, map[])
    ensures |es| == 2 <==> run.result.extraConfig != map[]
    ensures |es| == 2 ==> es[1] == OperationEntry(run.version, run.kind, run.result.extraConfig)
  {
    [OperationEntry(run.version, run.kind, map[])]
      + (if run.result.extraConfig != map[] then [OperationEntry(run.version, run.kind, run.result.extraConfig)] else [])
  }

  /** The `addConfig` calls for a trace: the records of its non-neutral calls. */
  function Records(trace: seq<Run>): (es: seq<Entry>)
    ensures |es| >= |Returned(trace)|
    ensures forall i :: 0 <= i < |es| ==> es[i].version.None?
    decreases |trace|
  {
    if |trace| == 0 then []
    else
      var front := Records(trace[..|trace| - 1]);
      var last := trace[|trace| - 1];
      if IsNeutral(last.result) then front else front + Record(last)
  }

  /** Install records every non-neutral call under its version and kind. */
  lemma {:induction false} RecordsComplete(trace: seq<Run>)
    ensures forall i :: 0 <= i < |trace| && !IsNeutral(trace[i].result) ==>
              OperationEntry(trace[i].version, trace[i].kind, map[]) in Records(trace)
    decreases |trace|
  {
    if |trace| > 0 {
      var front := trace[..|trace| - 1];
      var last := trace[|trace| - 1];
      RecordsComplete(front);
      var rs := Records(trace);
      assert rs == if IsNeutral(last.result) then Records(front) else Records(front) + Record(last);
      forall i | 0 <= i < |trace| && !IsNeutral(trace[i].result)
        ensures OperationEntry(trace[i].version, trace[i].kind, map[]) in rs
      {
        if i < |front| {
          assert front[i] == trace[i];
          assert OperationEntry(front[i].version, front[i].kind, map[]) in Records(front);
        } else {
          assert Record(last)[0] == OperationEntry(trace[i].version, trace[i].kind, map[]);
        }
      }
    }
  }

  /** Everything install records belongs to a non-neutral call: neutral calls leave
      no trace in the lock file. */
  lemma {:induction false} RecordsSound(trace: seq<Run>)
    ensures forall e :: e in Records(trace) ==>
              exists i :: 0 <= i < |trace| && !IsNeutral(trace[i].result) && e in Record(trace[i])
    decreases |trace|
  {
    if |trace| > 0 {
      var front := trace[..|trace| - 1];
      var last := trace[|trace| - 1];
      RecordsSound(front);
      forall e | e in Records(trace)
        ensures exists i :: 0 <= i < |trace| && !IsNeutral(trace[i].result) && e in Record(trace[i])
      {
        if e in Records(front) {
          var i :| 0 <= i < |front| && !IsNeutral(front[i].result) && e in Record(front[i]);
          assert trace[i] == front[i];
        } else {
          assert e in Record(last) && !IsNeutral(last.result);
        }
      }
    }
  }

  /** The (kind, version) pairs of a trace. */
  function Calls(trace: seq<Run>): (cs: seq<(string, string)>)
    ensures |cs| == |trace| && forall i :: 0 <= i < |trace| ==> cs[i] == (trace[i].kind, trace[i].version)
  {
    seq(|trace|, i requires 0 <= i < |trace| => (trace[i].kind, trace[i].version))
  }

  lemma CallsAppend(a: seq<Run>, b: seq<Run>)
    ensures Calls(a + b) == Calls(a) + Calls(b)
  {
  }

  /** Three traces, each extending the previous one: the calls the last one adds
      to the first are those of the two steps, in order. */
  lemma ExtendTwice(t0: seq<Run>, t1: seq<Run>, t2: seq<Run>)
    requires |t0| <= |t1| && t1[..|t0|] == t0
    requires |t1| <= |t2| && t2[..|t1|] == t1
    ensures t2[..|t0|] == t0
    ensures Calls(t2[|t0|..]) == Calls(t1[|t0|..]) + Calls(t2[|t1|..])
  {
    assert t2[..|t0|] == t2[..|t1|][..|t0|];
    assert t2[|t0|..] == t1[|t0|..] + t2[|t1|..];
    CallsAppend(t1[|t0|..], t2[|t1|..]);
  }

  /** One handler called once per version, in version order. */
  function VersionCalls(kind: string, versions: seq<VersionDirectory>): (cs: seq<(string, string)>)
    ensures |cs| == |versions| && forall i :: 0 <= i < |versions| ==> cs[i] == (kind, versions[i].version)
  {
    seq(|versions|, i requires 0 <= i < |versions| => (kind, versions[i].version))
  }

  lemma VersionCallsCons(kind: string, versions: seq<VersionDirectory>)
    requires |versions| > 0
    ensures VersionCalls(kind, versions) == [(kind, versions[0].version)] + VersionCalls(kind, versions[1..])
  {
  }

  /** The calls a handler list makes when the handlers flagged in `passed` pass
      the availability check: each of those, in list order, over every version. */
  function Expected<S>(hs: seq<Handler<S>>, passed: seq<bool>, versions: seq<VersionDirectory>): seq<(string, string)>
    requires |passed| == |hs|
    decreases |hs|
  {
    if |hs| == 0 then []
    else (if passed[0] then VersionCalls(hs[0].kind, versions) else []) + Expected(hs[1..], passed[1..], versions)
  }

  /** The fold's state: the operations' state, the calls made, which handlers passed
      the availability check, the returned collection, the `addConfig` calls made,
      and the loop variable `$version` (set once any version loop has run). */
  datatype Acc<!S> = Acc(state: S, trace: seq<Run>, passed: seq<bool>, results: ResultCollection,
                        updates: seq<Entry>, last: Option<VersionDirectory>)

  /** The returned collection and the `addConfig` calls are those the trace
      determines. */
  predicate Consistent<S>(acc: Acc<S>, mode: Mode) {
    && acc.results == FromSeq(Returned(acc.trace))
    && acc.updates == (if mode.Installing? then Records(acc.trace) else [])
    && (forall i :: 0 <= i < |acc.trace| ==> acc.trace[i].config == ConfigFor(mode, acc.trace[i]))
  }

  /** The extra config a call is given: none on install, the recorded one on
      uninstall. */
  function ConfigFor(mode: Mode, run: Run): ExtraConfig {
    match mode
    case Installing => map[]
    case Uninstalling(e) => RecordedConfig(e, run.version, run.kind)
  }

  function Invoke<S>(h: Handler<S>, mode: Mode, s: S, v: VersionDirectory): (res: (S, Run))
    ensures res.1.kind == h.kind && res.1.name == h.name && res.1.version == v.version
    ensures mode.Installing? ==> res.1.config == map[]
    ensures mode.Uninstalling? ==> res.1.config == RecordedConfig(mode.entry, v.version, h.kind)
    ensures res.1.config == ConfigFor(mode, res.1)
  {
    match mode
    case Installing =>
      var (s1, r) := h.install(s, v.path);
      (s1, Run(h.kind, h.name, v.version, map[], r))
    case Uninstalling(entry) =>
      var config := RecordedConfig(entry, v.version, h.kind);
      var (s1, r) := h.uninstall(s, v.path, config);
      (s1, Run(h.kind, h.name, v.version, config, r))
  }

  /** A call is the handler's own `install` on the version's directory, or its
      `uninstall` there with the config recorded for the version and kind; the
      state it leaves and the result it records are the operation's. */
  lemma InvokeCalls<S>(h: Handler<S>, mode: Mode, s: S, v: VersionDirectory)
    ensures mode.Installing? ==>
              Invoke(h, mode, s, v)
              == (h.install(s, v.path).0, Run(h.kind, h.name, v.version, map[], h.install(s, v.path).1))
    ensures mode.Uninstalling? ==>
              var c := RecordedConfig(mode.entry, v.version, h.kind);
              Invoke(h, mode, s, v)
              == (h.uninstall(s, v.path, c).0, Run(h.kind, h.name, v.version, c, h.uninstall(s, v.path, c).1))
  {
  }

  /** `$collection[] = $result` on a collection built from a list: the list grows
      by one. */
  lemma AppendResult(rs: seq<OperationResult>, r: OperationResult)
    ensures OffsetSet(FromSeq(rs), None, r) == FromSeq(rs + [r])
  {
    AppendAgreesWithoutHoles(FromSeq(rs), r);
  }

  /** One pass of the inner loop: call the operation, and for a non-neutral result
      record it (on install) and return it. */
  function Step<S>(h: Handler<S>, mode: Mode, v: VersionDirectory, acc: Acc<S>): (res: Acc<S>)
    ensures |res.trace| == |acc.trace| + 1 && res.trace[..|acc.trace|] == acc.trace
    ensures Calls(res.trace[|acc.trace|..]) == [(h.kind, v.version)]
    ensures res.passed == acc.passed && res.last == Some(v)
    ensures (res.state, res.trace) == (Invoke(h, mode, acc.state, v).0, acc.trace + [Invoke(h, mode, acc.state, v).1])
  {
    var (s1, run) := Invoke(h, mode, acc.state, v);
    var trace := acc.trace + [run];
    assert trace[..|trace| - 1] == acc.trace;
    if IsNeutral(run.result) then
      acc.(state := s1, trace := trace, last := Some(v))
    else
      var results := OffsetSet(acc.results, None, Label(run));
      var updates := if mode.Installing? then acc.updates + Record(run) else acc.updates;
      acc.(state := s1, trace := trace, results := results, updates := updates,
           last := Some(v))
  }

  /** The inner loop: the handler over every version, in order, whatever the
      results. */
  function RunVersions<S>(h: Handler<S>, mode: Mode, versions: seq<VersionDirectory>, acc: Acc<S>): (res: Acc<S>)
    ensures res.last == if |versions| > 0 then Some(versions[|versions| - 1]) else acc.last
    ensures |res.trace| >= |acc.trace| && res.trace[..|acc.trace|] == acc.trace
    ensures res.passed == acc.passed
    decreases |versions|
  {
    if |versions| == 0 then acc
    else
      var acc1 := Step(h, mode, versions[0], acc);
      var res := RunVersions(h, mode, versions[1..], acc1);
      assert res.trace[..|acc.trace|] == res.trace[..|acc1.trace|][..|acc.trace|];
      res
  }

  /** The inner loop calls the handler once per version, in order. */
  lemma {:induction false} RunVersionsCalls<S>(h: Handler<S>, mode: Mode, versions: seq<VersionDirectory>, acc: Acc<S>)
    ensures var res := RunVersions(h, mode, versions, acc);
            Calls(res.trace[|acc.trace|..]) == VersionCalls(h.kind, versions)
    decreases |versions|
  {
    if |versions| == 0 {
      assert RunVersions(h, mode, versions, acc).trace[|acc.trace|..] == [];
    } else {
      var acc1 := Step(h, mode, versions[0], acc);
      var res := RunVersions(h, mode, versions[1..], acc1);
      assert RunVersions(h, mode, versions, acc) == res;
      RunVersionsCalls(h, mode, versions[1..], acc1);
      ExtendTwice(acc.trace, acc1.trace, res.trace);
      VersionCallsCons(h.kind, versions);
    }
  }

  /** A flag list that extends `p0 + [ok]`: its part after `p0` starts with `ok`. */
  lemma PassedAfter(p0: seq<bool>, ok: bool, p: seq<bool>)
    requires |p| >= |p0| + 1 && p[..|p0| + 1] == p0 + [ok]
    ensures p[..|p0|] == p0
    ensures p[|p0|..] == [ok] + p[|p0| + 1..]
    ensures true in p[|p0|..] <==> ok || true in p[|p0| + 1..]
  {
    assert p[..|p0|] == p[..|p0| + 1][..|p0|];
    assert p[|p0|..] == [p[|p0|]] + p[|p0| + 1..];
  }

  /** Whether a handler passes the availability check in state `s`: handlers that
      are not availability-aware always do. */
  predicate Available<S>(h: Handler<S>, s: S, paths: seq<string>) {
    h.availability.None? || h.availability.value(s, paths)
  }

  /** The outer loop: each handler in order, skipped when its availability check
      fails at that moment. What it calls is stated by the lemmas below. */
  function RunHandlers<S>(hs: seq<Handler<S>>, mode: Mode, paths: seq<string>, versions: seq<VersionDirectory>,
                          acc: Acc<S>): (res: Acc<S>)
    ensures |res.trace| >= |acc.trace| && res.trace[..|acc.trace|] == acc.trace
    ensures |res.passed| == |acc.passed| + |hs| && res.passed[..|acc.passed|] == acc.passed
    decreases |hs|
  {
    if |hs| == 0 then acc
    else
      var acc1 := Visit(hs[0], mode, paths, versions, acc);
      var res := RunHandlers(hs[1..], mode, paths, versions, acc1);
      ExtendTwice(acc.trace, acc1.trace, res.trace);
      PassedAfter(acc.passed, acc1.passed[|acc.passed|], res.passed);
      res
  }

  /** One pass of the outer loop: the availability check, then the inner loop when
      it passes. */
  function Visit<S>(h: Handler<S>, mode: Mode, paths: seq<string>, versions: seq<VersionDirectory>,
                    acc: Acc<S>): (res: Acc<S>)
    ensures var ok := Available(h, acc.state, paths);
            && res.passed == acc.passed + [ok]
            && |res.trace| >= |acc.trace| && res.trace[..|acc.trace|] == acc.trace
            && Calls(res.trace[|acc.trace|..]) == (if ok then VersionCalls(h.kind, versions) else [])
            && res.last == (if ok && |versions| > 0 then Some(versions[|versions| - 1]) else acc.last)
  {
    if Available(h, acc.state, paths) then
      RunVersionsCalls(h, mode, versions, acc.(passed := acc.passed + [true]));
      RunVersions(h, mode, versions, acc.(passed := acc.passed + [true]))
    else
      assert acc.trace[|acc.trace|..] == [];
      acc.(passed := acc.passed + [false])
  }

  /** Every handler in `hs` that is not availability-aware has its flag set in `p`,
      where the flags of `hs` start at `offset`. */
  predicate ForcedPassed<S>(hs: seq<Handler<S>>, p: seq<bool>, offset: nat) {
    forall i :: 0 <= i < |hs| && offset + i < |p| && hs[i].availability.None? ==> p[offset + i]
  }

  /** Each handler that is not availability-aware passes. */
  lemma {:induction false} RunHandlersForced<S>(hs: seq<Handler<S>>, mode: Mode, paths: seq<string>,
                                                versions: seq<VersionDirectory>, acc: Acc<S>)
    ensures ForcedPassed(hs, RunHandlers(hs, mode, paths, versions, acc).passed, |acc.passed|)
    decreases |hs|
  {
    if |hs| > 0 {
      var acc1 := Visit(hs[0], mode, paths, versions, acc);
      var res := RunHandlers(hs[1..], mode, paths, versions, acc1);
      assert RunHandlers(hs, mode, paths, versions, acc) == res;
      RunHandlersForced(hs[1..], mode, paths, versions, acc1);
      ForcedShift(hs, acc.passed, acc1.passed, res.passed);
    }
  }

  /** The flags of the first handler and of the rest, put together. */
  lemma ForcedShift<S>(hs: seq<Handler<S>>, p0: seq<bool>, p1: seq<bool>, p: seq<bool>)
    requires |hs| > 0 && |p1| == |p0| + 1 && p1[..|p0|] == p0
    requires |p| == |p1| + |hs| - 1 && p[..|p1|] == p1
    requires hs[0].availability.None? ==> p1[|p0|]
    requires ForcedPassed(hs[1..], p, |p1|)
    ensures ForcedPassed(hs, p, |p0|)
  {
    assert p[|p0|] == p[..|p1|][|p0|];
    forall i | 1 <= i < |hs| && hs[i].availability.None?
      ensures p[|p0| + i]
    {
      assert hs[1..][i - 1] == hs[i];
    }
  }

  /** The calls are those of the handlers that passed, each over every version. */
  lemma {:induction false} RunHandlersCalls<S>(hs: seq<Handler<S>>, mode: Mode, paths: seq<string>,
                                               versions: seq<VersionDirectory>, acc: Acc<S>)
    ensures var res := RunHandlers(hs, mode, paths, versions, acc);
            Calls(res.trace[|acc.trace|..]) == Expected(hs, res.passed[|acc.passed|..], versions)
    decreases |hs|
  {
    var res := RunHandlers(hs, mode, paths, versions, acc);
    if |hs| == 0 {
      assert res.trace[|acc.trace|..] == [];
    } else {
      var acc1 := Visit(hs[0], mode, paths, versions, acc);
      assert res == RunHandlers(hs[1..], mode, paths, versions, acc1);
      RunHandlersCalls(hs[1..], mode, paths, versions, acc1);
      ExtendTwice(acc.trace, acc1.trace, res.trace);
      PassedAfter(acc.passed, acc1.passed[|acc.passed|], res.passed);
    }
  }

  /** The loop variable `$version` ends as the last version exactly when some
      handler ran over a non-empty version list. */
  lemma {:induction false} RunHandlersLast<S>(hs: seq<Handler<S>>, mode: Mode, paths: seq<string>,
                                              versions: seq<VersionDirectory>, acc: Acc<S>)
    ensures var res := RunHandlers(hs, mode, paths, versions, acc);
            res.last == if |versions| > 0 && true in res.passed[|acc.passed|..] then Some(versions[|versions| - 1])
                        else acc.last
    decreases |hs|
  {
    var res := RunHandlers(hs, mode, paths, versions, acc);
    if |hs| == 0 {
      assert res.passed[|acc.passed|..] == [];
    } else {
      var acc1 := Visit(hs[0], mode, paths, versions, acc);
      assert res == RunHandlers(hs[1..], mode, paths, versions, acc1);
      RunHandlersLast(hs[1..], mode, paths, versions, acc1);
      PassedAfter(acc.passed, acc1.passed[|acc.passed|], res.passed);
    }
  }

  /** Each step keeps the returned collection and the `addConfig` calls in line
      with the trace: `$collection[] = $result` on a hole-free collection appends. */
  lemma StepConsistent<S>(h: Handler<S>, mode: Mode, v: VersionDirectory, acc: Acc<S>)
    requires Consistent(acc, mode)
    ensures Consistent(Step(h, mode, v, acc), mode)
  {
    var (s1, run) := Invoke(h, mode, acc.state, v);
    var res := Step(h, mode, v, acc);
    assert res.trace[..|res.trace| - 1] == acc.trace;
    if !IsNeutral(run.result) {
      AppendResult(Returned(acc.trace), Label(run));
    }
  }

  lemma {:induction false} RunVersionsConsistent<S>(h: Handler<S>, mode: Mode, versions: seq<VersionDirectory>,
                                                    acc: Acc<S>)
    requires Consistent(acc, mode)
    ensures Consistent(RunVersions(h, mode, versions, acc), mode)
    decreases |versions|
  {
    if |versions| > 0 {
      StepConsistent(h, mode, versions[0], acc);
      RunVersionsConsistent(h, mode, versions[1..], Step(h, mode, versions[0], acc));
    }
  }

  lemma {:induction false} RunHandlersConsistent<S>(hs: seq<Handler<S>>, mode: Mode, paths: seq<string>,
                                                    versions: seq<VersionDirectory>, acc: Acc<S>)
    requires Consistent(acc, mode)
    ensures Consistent(RunHandlers(hs, mode, paths, versions, acc), mode)
    decreases |hs|
  {
    if |hs| > 0 {
      var acc1 := Visit(hs[0], mode, paths, versions, acc);
      if Available(hs[0], acc.state, paths) {
        RunVersionsConsistent(hs[0], mode, versions, acc.(passed := acc.passed + [true]));
      }
      RunHandlersConsistent(hs[1..], mode, paths, versions, acc1);
    }
  }

  /** The calls a handler list makes when the handlers flagged in `passed` pass the
      availability check, as (handler, version) pairs: each passing handler over
      every version, in list order. Built from the back, as the outer loop grows. */
  function Plan<S>(hs: seq<Handler<S>>, passed: seq<bool>, versions: seq<VersionDirectory>)
    : (plan: seq<(Handler<S>, VersionDirectory)>)
    requires |passed| == |hs|
    decreases |hs|
  {
    if |hs| == 0 then []
    else
      var n := |hs| - 1;
      Plan(hs[..n], passed[..n], versions) + (if passed[n] then VersionPlan(hs[n], versions) else [])
  }

  /** Every planned call is on one of the given versions. */
  lemma {:induction false} PlanVersions<S>(hs: seq<Handler<S>>, passed: seq<bool>, versions: seq<VersionDirectory>)
    requires |passed| == |hs|
    ensures forall i :: 0 <= i < |Plan(hs, passed, versions)| ==> Plan(hs, passed, versions)[i].1 in versions
    decreases |hs|
  {
    if |hs| > 0 {
      var n := |hs| - 1;
      PlanVersions(hs[..n], passed[..n], versions);
    }
  }

  /** One handler over every version, in order. */
  function VersionPlan<S>(h: Handler<S>, versions: seq<VersionDirectory>): (plan: seq<(Handler<S>, VersionDirectory)>)
    ensures |plan| == |versions| && forall k :: 0 <= k < |versions| ==> plan[k] == (h, versions[k])
  {
    seq(|versions|, k requires 0 <= k < |versions| => (h, versions[k]))
  }

  /** Adding a handler to the ones done adds its calls to the plan when it passes. */
  lemma PlanSnoc<S>(done: seq<Handler<S>>, passed: seq<bool>, h: Handler<S>, ok: bool, versions: seq<VersionDirectory>)
    requires |passed| == |done|
    ensures Plan(done + [h], passed + [ok], versions)
            == Plan(done, passed, versions) + (if ok then VersionPlan(h, versions) else [])
  {
    assert (done + [h])[..|done|] == done;
    assert (passed + [ok])[..|passed|] == passed;
  }

  /** The reference run of a plan from state `s`: each planned call in order, each
      made in the state the previous one left. */
  function Replay<S>(plan: seq<(Handler<S>, VersionDirectory)>, mode: Mode, s: S): (r: (S, seq<Run>))
    ensures |r.1| == |plan|
    decreases |plan|
  {
    if |plan| == 0 then (s, [])
    else
      var n := |plan| - 1;
      var before := Replay(plan[..n], mode, s);
      var after := Invoke(plan[n].0, mode, before.0, plan[n].1);
      (after.0, before.1 + [after.1])
  }

  /** Replaying one more call. */
  lemma ReplaySnoc<S>(plan: seq<(Handler<S>, VersionDirectory)>, c: (Handler<S>, VersionDirectory), mode: Mode, s: S)
    ensures var before := Replay(plan, mode, s);
            var after := Invoke(c.0, mode, before.0, c.1);
            Replay(plan + [c], mode, s) == (after.0, before.1 + [after.1])
  {
    assert (plan + [c])[..|plan|] == plan;
  }

  /** Call `i` of a replay is the planned handler on the planned version, made in
      the state the first `i` calls left, and it leaves the state the first `i + 1`
      calls leave. */
  lemma {:induction false} ReplayCalls<S>(plan: seq<(Handler<S>, VersionDirectory)>, mode: Mode, s: S)
    ensures forall i :: 0 <= i < |plan| ==>
              (Replay(plan[..i + 1], mode, s).0, Replay(plan, mode, s).1[i])
              == Invoke(plan[i].0, mode, Replay(plan[..i], mode, s).0, plan[i].1)
  {
    forall i | 0 <= i < |plan|
      ensures (Replay(plan[..i + 1], mode, s).0, Replay(plan, mode, s).1[i])
              == Invoke(plan[i].0, mode, Replay(plan[..i], mode, s).0, plan[i].1)
    {
      ReplayPrefix(plan, mode, s, i + 1);
      assert plan[..i + 1][..i] == plan[..i] && plan[..i + 1][i] == plan[i];
      assert Replay(plan, mode, s).1[i] == Replay(plan, mode, s).1[..i + 1][i];
    }
  }

  /** The calls of a replay start with the calls of any prefix of the plan. */
  lemma {:induction false} ReplayPrefix<S>(plan: seq<(Handler<S>, VersionDirectory)>, mode: Mode, s: S, k: nat)
    requires k <= |plan|
    ensures Replay(plan, mode, s).1[..k] == Replay(plan[..k], mode, s).1
    decreases |plan| - k
  {
    if k == |plan| {
      assert plan[..k] == plan;
    } else {
      var n := |plan| - 1;
      ReplayPrefix(plan[..n], mode, s, k);
      assert plan[..n][..k] == plan[..k];
      assert Replay(plan, mode, s).1[..n] == Replay(plan[..n], mode, s).1;
      assert Replay(plan, mode, s).1[..k] == Replay(plan, mode, s).1[..n][..k];
    }
  }

  /** Handler `j` was checked in the state the calls planned for the handlers
      before it leave: it passed exactly when it is not availability-aware or its
      own `isAvailable` answered true in that state. */
  ghost predicate CheckedInTurn<S>(hs: seq<Handler<S>>, passed: seq<bool>, j: nat, mode: Mode, s: S,
                                   paths: seq<string>, versions: seq<VersionDirectory>)
    requires j < |hs| == |passed|
  {
    var pre := Replay(Plan(hs[..j], passed[..j], versions), mode, s).0;
    passed[j] <==> hs[j].availability.None? || hs[j].availability.value(pre, paths)
  }

  /** The checks in turn are the test the fold makes, `Available`, in the state
      the calls of the handlers before each one leave. */
  lemma CheckedInTurnAll<S>(hs: seq<Handler<S>>, passed: seq<bool>, mode: Mode, s: S, paths: seq<string>,
                            versions: seq<VersionDirectory>)
    requires |hs| == |passed|
    requires forall j :: 0 <= j < |hs| ==> CheckedInTurn(hs, passed, j, mode, s, paths, versions)
    ensures forall j :: 0 <= j < |hs| ==>
              (passed[j] <==> Available(hs[j], Replay(Plan(hs[..j], passed[..j], versions), mode, s).0, paths))
  {
    forall j | 0 <= j < |hs|
      ensures passed[j] <==> Available(hs[j], Replay(Plan(hs[..j], passed[..j], versions), mode, s).0, paths)
    {
      assert CheckedInTurn(hs, passed, j, mode, s, paths, versions);
    }
  }

  /** The fold so far from state `s` is the replay of the plan of the handlers
      done, and each of their availability checks was made in its turn. */
  ghost predicate Replays<S>(acc: Acc<S>, mode: Mode, s: S, done: seq<Handler<S>>, paths: seq<string>,
                             versions: seq<VersionDirectory>)
  {
    && |acc.passed| == |done|
    && (acc.state, acc.trace) == Replay(Plan(done, acc.passed, versions), mode, s)
    && forall j :: 0 <= j < |done| ==> CheckedInTurn(done, acc.passed, j, mode, s, paths, versions)
  }

  /** The inner loop replays the handler's calls on every version after what was
      replayed before. */
  lemma {:induction false} RunVersionsReplay<S>(h: Handler<S>, mode: Mode, versions: seq<VersionDirectory>,
                                                acc: Acc<S>, plan: seq<(Handler<S>, VersionDirectory)>, s: S)
    requires (acc.state, acc.trace) == Replay(plan, mode, s)
    ensures var res := RunVersions(h, mode, versions, acc);
            (res.state, res.trace) == Replay(plan + VersionPlan(h, versions), mode, s)
    decreases |versions|
  {
    if |versions| == 0 {
      assert plan + VersionPlan(h, versions) == plan;
    } else {
      var acc1 := Step(h, mode, versions[0], acc);
      var plan1 := plan + [(h, versions[0])];
      ReplaySnoc(plan, (h, versions[0]), mode, s);
      RunVersionsReplay(h, mode, versions[1..], acc1, plan1, s);
      var res := RunVersions(h, mode, versions[1..], acc1);
      assert RunVersions(h, mode, versions, acc).state == res.state;
      assert RunVersions(h, mode, versions, acc).trace == res.trace;
      VersionPlanCons(plan, h, versions);
    }
  }

  /** On install, each call of a replay goes to the planned handler's own
      `install` on the version's directory, in the state the calls before it leave;
      the state it leaves and its result are the operation's. */
  lemma ReplayInstalls<S>(plan: seq<(Handler<S>, VersionDirectory)>, s: S)
    ensures forall i :: 0 <= i < |plan| ==>
              (Replay(plan[..i + 1], Installing, s).0, Replay(plan, Installing, s).1[i].result)
              == plan[i].0.install(Replay(plan[..i], Installing, s).0, plan[i].1.path)
  {
    ReplayCalls(plan, Installing, s);
    forall i | 0 <= i < |plan| {
      InvokeCalls(plan[i].0, Installing, Replay(plan[..i], Installing, s).0, plan[i].1);
    }
  }

  /** On uninstall, each call of a replay goes to the planned handler's own
      `uninstall` on the version's directory with the config recorded for the
      version and kind, in the state the calls before it leave. */
  lemma ReplayUninstalls<S>(plan: seq<(Handler<S>, VersionDirectory)>, entry: Entry, s: S)
    ensures forall i :: 0 <= i < |plan| ==>
              && Replay(plan, Uninstalling(entry), s).1[i].config
                 == RecordedConfig(entry, plan[i].1.version, plan[i].0.kind)
              && (Replay(plan[..i + 1], Uninstalling(entry), s).0, Replay(plan, Uninstalling(entry), s).1[i].result)
                 == plan[i].0.uninstall(Replay(plan[..i], Uninstalling(entry), s).0, plan[i].1.path,
                                        RecordedConfig(entry, plan[i].1.version, plan[i].0.kind))
  {
    var mode := Uninstalling(entry);
    ReplayCalls(plan, mode, s);
    forall i | 0 <= i < |plan|
      ensures && Replay(plan, mode, s).1[i].config == RecordedConfig(entry, plan[i].1.version, plan[i].0.kind)
              && (Replay(plan[..i + 1], mode, s).0, Replay(plan, mode, s).1[i].result)
                 == plan[i].0.uninstall(Replay(plan[..i], mode, s).0, plan[i].1.path,
                                        RecordedConfig(entry, plan[i].1.version, plan[i].0.kind))
    {
      var before := Replay(plan[..i], mode, s).0;
      assert (Replay(plan[..i + 1], mode, s).0, Replay(plan, mode, s).1[i]) == Invoke(plan[i].0, mode, before, plan[i].1);
      InvokeCalls(plan[i].0, mode, before, plan[i].1);
    }
  }

  /** A plan followed by the first version's call and then the rest's is the plan
      followed by every version's call. */
  lemma VersionPlanCons<S>(plan: seq<(Handler<S>, VersionDirectory)>, h: Handler<S>, versions: seq<VersionDirectory>)
    requires |versions| > 0
    ensures plan + [(h, versions[0])] + VersionPlan(h, versions[1..]) == plan + VersionPlan(h, versions)
  {
    assert VersionPlan(h, versions) == [(h, versions[0])] + VersionPlan(h, versions[1..]);
  }

  /** The checks of the handlers done stay as they were, and the new handler is
      checked in the state the replay so far leaves. */
  lemma ExtendChecks<S>(done: seq<Handler<S>>, passed: seq<bool>, h: Handler<S>, ok: bool, mode: Mode, s: S,
                        paths: seq<string>, versions: seq<VersionDirectory>)
    requires |passed| == |done|
    requires forall j :: 0 <= j < |done| ==> CheckedInTurn(done, passed, j, mode, s, paths, versions)
    requires ok <==> Available(h, Replay(Plan(done, passed, versions), mode, s).0, paths)
    ensures forall j :: 0 <= j < |done| + 1 ==> CheckedInTurn(done + [h], passed + [ok], j, mode, s, paths, versions)
  {
    forall j | 0 <= j < |done| + 1
      ensures CheckedInTurn(done + [h], passed + [ok], j, mode, s, paths, versions)
    {
      if j < |done| {
        assert (done + [h])[..j] == done[..j] && (passed + [ok])[..j] == passed[..j];
        assert CheckedInTurn(done, passed, j, mode, s, paths, versions);
      } else {
        assert (done + [h])[..j] == done && (passed + [ok])[..j] == passed;
      }
    }
  }

  /** One pass of the outer loop keeps the fold a replay of the plan. */
  lemma VisitReplays<S>(h: Handler<S>, mode: Mode, paths: seq<string>, versions: seq<VersionDirectory>,
                        acc: Acc<S>, s: S, done: seq<Handler<S>>)
    requires Replays(acc, mode, s, done, paths, versions)
    ensures Replays(Visit(h, mode, paths, versions, acc), mode, s, done + [h], paths, versions)
  {
    var ok := Available(h, acc.state, paths);
    var plan := Plan(done, acc.passed, versions);
    PlanSnoc(done, acc.passed, h, ok, versions);
    if ok {
      var acc0 := acc.(passed := acc.passed + [true]);
      assert Visit(h, mode, paths, versions, acc) == RunVersions(h, mode, versions, acc0);
      RunVersionsReplay(h, mode, versions, acc0, plan, s);
    } else {
      assert plan + [] == plan;
    }
    ExtendChecks(done, acc.passed, h, ok, mode, s, paths, versions);
  }

  /** The outer loop keeps the fold a replay of the plan for every handler done. */
  lemma {:induction false} RunHandlersReplays<S>(hs: seq<Handler<S>>, mode: Mode, paths: seq<string>,
                                                 versions: seq<VersionDirectory>, acc: Acc<S>, s: S,
                                                 done: seq<Handler<S>>)
    requires Replays(acc, mode, s, done, paths, versions)
    ensures Replays(RunHandlers(hs, mode, paths, versions, acc), mode, s, done + hs, paths, versions)
    decreases |hs|
  {
    if |hs| == 0 {
      assert done + hs == done;
    } else {
      var acc1 := Visit(hs[0], mode, paths, versions, acc);
      var done1 := done + [hs[0]];
      assert Replays(acc1, mode, s, done1, paths, versions) by {
        VisitReplays(hs[0], mode, paths, versions, acc, s, done);
      }
      RunHandlersReplays(hs[1..], mode, paths, versions, acc1, s, done1);
      assert RunHandlers(hs, mode, paths, versions, acc) == RunHandlers(hs[1..], mode, paths, versions, acc1);
      assert done1 + hs[1..] == done + hs;
    }
  }

  /** The handler loop run from state `s` is the replay of the plan of the handlers
      that passed, each checked in its turn. */
  lemma ReplaysFromStart<S>(hs: seq<Handler<S>>, mode: Mode, versions: seq<VersionDirectory>, s: S)
    ensures Replays(RunHandlers(hs, mode, Paths(versions), versions, Start(s)), mode, s, hs, Paths(versions), versions)
  {
    assert Replays(Start(s), mode, s, [], Paths(versions), versions);
    RunHandlersReplays(hs, mode, Paths(versions), versions, Start(s), s, []);
    assert [] + hs == hs;
  }

  /** The fold's starting point: the given state, nothing called, an empty
      collection. */
  function Start<S>(s: S): (acc: Acc<S>)
    ensures Consistent(acc, Installing) && acc.trace == [] && acc.passed == [] && acc.last == None
    ensures forall e :: Consistent(acc, Uninstalling(e))
  {
    Acc(s, [], [], FromSeq([]), [], None)
  }

  /** What `handleInstall` produces: the operations' state, the calls made, the
      availability flags, the returned collection and the `addConfig` calls, in
      order. */
  datatype Outcome<!S> = Outcome(state: S, trace: seq<Run>, passed: seq<bool>,
                                results: ResultCollection, updates: seq<Entry>)

  /** The version stamp: `addConfig(['version' => $version])`. */
  function Stamp(version: string): Entry {
    Entry(Some(version), map[])
  }

  /** The handler loop run from the start: one flag per handler, the forced ones
      set, the calls those of the handlers that passed, the trace consistent with
      the collection and the updates, and `$version` set by the last run. */
  lemma RunFromStart<S>(hs: seq<Handler<S>>, mode: Mode, versions: seq<VersionDirectory>, s: S)
    ensures var acc := RunHandlers(hs, mode, Paths(versions), versions, Start(s));
            && |acc.passed| == |hs|
            && (forall i :: 0 <= i < |hs| && hs[i].availability.None? ==> acc.passed[i])
            && Calls(acc.trace) == Expected(hs, acc.passed, versions)
            && Consistent(acc, mode)
            && acc.last == if |versions| > 0 && true in acc.passed then Some(versions[|versions| - 1]) else None
  {
    var acc := RunHandlers(hs, mode, Paths(versions), versions, Start(s));
    RunHandlersForced(hs, mode, Paths(versions), versions, Start(s));
    RunHandlersCalls(hs, mode, Paths(versions), versions, Start(s));
    RunHandlersLast(hs, mode, Paths(versions), versions, Start(s));
    RunHandlersConsistent(hs, mode, Paths(versions), versions, Start(s));
    assert acc.trace[0..] == acc.trace && acc.passed[0..] == acc.passed;
  }

  /** `handleInstall` over the installable versions. Every selected handler that is
      not availability-aware runs, and each one that runs is called once per
      version in ascending order whatever its results; the collection holds exactly
      the non-neutral results, labelled, in call order; each non-neutral result is
      recorded; the last version is stamped exactly when some handler ran over a
      non-empty version list. */
  function HandleInstall<S>(s: S, registry: Registry<S>, machineName: string, types: seq<string>,
                            versions: seq<VersionDirectory>): (o: Outcome<S>)
    ensures var hs := InstallHandlers(registry, machineName, types);
            && |o.passed| == |hs|
            && (forall i :: 0 <= i < |hs| && hs[i].availability.None? ==> o.passed[i])
            && Calls(o.trace) == Expected(hs, o.passed, versions)
    ensures forall i :: 0 <= i < |o.trace| ==> o.trace[i].config == map[]
    ensures o.results == FromSeq(Returned(o.trace))
    ensures o.updates == Records(o.trace)
                         + (if |versions| > 0 && true in o.passed then [Stamp(versions[|versions| - 1].version)] else [])
    ensures var hs := InstallHandlers(registry, machineName, types);
            (o.state, o.trace) == Replay(Plan(hs, o.passed, versions), Installing, s)
    ensures var hs := InstallHandlers(registry, machineName, types);
            forall j :: 0 <= j < |hs| ==>
              CheckedInTurn(hs, o.passed, j, Installing, s, Paths(versions), versions)
  {
    var hs := InstallHandlers(registry, machineName, types);
    var acc := RunHandlers(hs, Installing, Paths(versions), versions, Start(s));
    RunFromStart(hs, Installing, versions, s);
    ReplaysFromStart(hs, Installing, versions, s);
    var stamp := match acc.last case Some(v) => [Stamp(v.version)] case None => [];
    Outcome(acc.state, acc.trace, acc.passed, acc.results, acc.updates + stamp)
  }

  /** Each call `handleInstall` makes is the planned handler's `install` on the
      version's directory, made in the state the calls before it left; the state
      it leaves and the result it records are the operation's. */
  lemma InstallCalls<S>(s: S, registry: Registry<S>, machineName: string, types: seq<string>,
                        versions: seq<VersionDirectory>)
    ensures var o := HandleInstall(s, registry, machineName, types, versions);
            var plan := Plan(InstallHandlers(registry, machineName, types), o.passed, versions);
            && |plan| == |o.trace|
            && forall i :: 0 <= i < |plan| ==>
                 (Replay(plan[..i + 1], Installing, s).0, o.trace[i].result)
                 == plan[i].0.install(Replay(plan[..i], Installing, s).0, plan[i].1.path)
  {
    var o := HandleInstall(s, registry, machineName, types, versions);
    ReplayInstalls(Plan(InstallHandlers(registry, machineName, types), o.passed, versions), s);
  }

  /** Every call of a replay is the planned handler's, on the planned version. */
  lemma ReplayVersions<S>(plan: seq<(Handler<S>, VersionDirectory)>, mode: Mode, s: S)
    ensures forall i :: 0 <= i < |plan| ==>
              Replay(plan, mode, s).1[i].kind == plan[i].0.kind
              && Replay(plan, mode, s).1[i].version == plan[i].1.version
  {
    ReplayCalls(plan, mode, s);
    forall i | 0 <= i < |plan|
      ensures Replay(plan, mode, s).1[i].kind == plan[i].0.kind
              && Replay(plan, mode, s).1[i].version == plan[i].1.version
    {
      assert (Replay(plan[..i + 1], mode, s).0, Replay(plan, mode, s).1[i])
             == Invoke(plan[i].0, mode, Replay(plan[..i], mode, s).0, plan[i].1);
    }
  }

  /** A handler loop over `versions` only calls on versions taken from that list. */
  lemma PlannedVersions<S>(hs: seq<Handler<S>>, passed: seq<bool>, mode: Mode, s: S, versions: seq<VersionDirectory>)
    requires |passed| == |hs|
    ensures var plan := Plan(hs, passed, versions);
            forall i :: 0 <= i < |plan| ==>
              plan[i].1 in versions && Replay(plan, mode, s).1[i].version == plan[i].1.version
  {
    ReplayVersions(Plan(hs, passed, versions), mode, s);
    PlanVersions(hs, passed, versions);
  }

  /** `handleInstall` as the plugin runs it: over the versions `getVersions()`
      reads once before the loop, with its `addConfig` calls applied to the lock
      file. Every call is on a version the package ships that is newer than the
      one installed last. */
  function InstallPackage<S>(s: S, store: Store, pkg: string, fs: FileSystems.FileSystem, installPath: string,
                             projectDirs: seq<string>, scandir: string -> seq<string>, registry: Registry<S>,
                             machineName: string, types: seq<string>, merge: (Entry, Entry) -> Entry)
    : (r: (Outcome<S>, Store))
    ensures r.0 == HandleInstall(s, registry, machineName, types,
                                 GetVersions(false, store, pkg, fs, installPath, projectDirs, scandir))
    ensures r.1 == ApplyUpdates(store, pkg, r.0.updates, merge)
    ensures var versions := GetVersions(false, store, pkg, fs, installPath, projectDirs, scandir);
            var plan := Plan(InstallHandlers(registry, machineName, types), r.0.passed, versions);
            && |plan| == |r.0.trace|
            && forall i :: 0 <= i < |plan| ==>
                 && r.0.trace[i].version == plan[i].1.version
                 && plan[i].1 in GetPackageVersions(fs, installPath, projectDirs, scandir)
                 && Less(Components(GetLastConfiguredVersion(store, pkg)), Versions.Key(plan[i].1))
  {
    var versions := GetVersions(false, store, pkg, fs, installPath, projectDirs, scandir);
    var o := HandleInstall(s, registry, machineName, types, versions);
    PlannedVersions(InstallHandlers(registry, machineName, types), o.passed, Installing, s, versions);
    (o, ApplyUpdates(store, pkg, o.updates, merge))
  }

  /** Applies the `addConfig` calls to the lock file, with `merge` standing for the
      recursive merge helper. */
  function ApplyUpdates(store: Store, pkg: string, updates: seq<Entry>, merge: (Entry, Entry) -> Entry)
    : (r: Store)
    ensures |updates| > 0 ==> r.Keys == store.Keys + {pkg}
    ensures |updates| == 0 ==> r == store
    ensures forall other :: other in store && other != pkg ==> r[other] == store[other]
    decreases |updates|
  {
    if |updates| == 0 then store
    else ApplyUpdates(AddConfig(store, pkg, updates[0], merge), pkg, updates[1..], merge)
  }

  /** What `handleUninstall` produces: the operations' state, the calls made, the
      availability flags, the returned collection and the lock file without the
      package. */
  datatype UninstallOutcome<!S> = UninstallOutcome(state: S, trace: seq<Run>, passed: seq<bool>,
                                                  results: ResultCollection, store: Store)

  /** `handleUninstall` over ALL the package's versions: the handlers of the project
      type's kinds only; every call gets the config recorded for its version and
      kind, or an empty one; only non-neutral results are returned; the package's
      entry is erased whatever happened. */
  function HandleUninstall<S>(s: S, store: Store, pkg: string, registry: Registry<S>, types: seq<string>,
                              versions: seq<VersionDirectory>): (o: UninstallOutcome<S>)
    ensures var hs := TypedHandlers(registry, types);
            && |o.passed| == |hs|
            && (forall i :: 0 <= i < |hs| && hs[i].availability.None? ==> o.passed[i])
            && Calls(o.trace) == Expected(hs, o.passed, versions)
    ensures forall i :: 0 <= i < |o.trace| ==>
              o.trace[i].config == RecordedConfig(GetConfig(store, pkg), o.trace[i].version, o.trace[i].kind)
    ensures o.results == FromSeq(Returned(o.trace))
    ensures o.store == RemoveConfig(store, pkg) && pkg !in o.store
    ensures var hs := TypedHandlers(registry, types);
            (o.state, o.trace) == Replay(Plan(hs, o.passed, versions), Uninstalling(GetConfig(store, pkg)), s)
    ensures var hs := TypedHandlers(registry, types);
            forall j :: 0 <= j < |hs| ==>
              CheckedInTurn(hs, o.passed, j, Uninstalling(GetConfig(store, pkg)), s, Paths(versions), versions)
  {
    var hs := TypedHandlers(registry, types);
    var mode := Uninstalling(GetConfig(store, pkg));
    var acc := RunHandlers(hs, mode, Paths(versions), versions, Start(s));
    RunFromStart(hs, mode, versions, s);
    ReplaysFromStart(hs, mode, versions, s);
    UninstallOutcome(acc.state, acc.trace, acc.passed, acc.results, RemoveConfig(store, pkg))
  }

  /** Each call `handleUninstall` makes is the planned handler's `uninstall` on the
      version's directory with the config install recorded for that version and
      kind, made in the state the calls before it left. */
  lemma UninstallCalls<S>(s: S, store: Store, pkg: string, registry: Registry<S>, types: seq<string>,
                          versions: seq<VersionDirectory>)
    ensures var o := HandleUninstall(s, store, pkg, registry, types, versions);
            var plan := Plan(TypedHandlers(registry, types), o.passed, versions);
            var mode := Uninstalling(GetConfig(store, pkg));
            && |plan| == |o.trace|
            && forall i :: 0 <= i < |plan| ==>
                 && o.trace[i].config == RecordedConfig(GetConfig(store, pkg), plan[i].1.version, plan[i].0.kind)
                 && (Replay(plan[..i + 1], mode, s).0, o.trace[i].result)
                    == plan[i].0.uninstall(Replay(plan[..i], mode, s).0, plan[i].1.path, o.trace[i].config)
  {
    var o := HandleUninstall(s, store, pkg, registry, types, versions);
    ReplayUninstalls(Plan(TypedHandlers(registry, types), o.passed, versions), GetConfig(store, pkg), s);
  }

  /** `handleUninstall` as the plugin runs it: over every version the package
      ships, `getVersions(true)`. */
  function UninstallPackage<S>(s: S, store: Store, pkg: string, fs: FileSystems.FileSystem, installPath: string,
                               projectDirs: seq<string>, scandir: string -> seq<string>, registry: Registry<S>,
                               types: seq<string>): (o: UninstallOutcome<S>)
    ensures o == HandleUninstall(s, store, pkg, registry, types,
                                 GetVersions(true, store, pkg, fs, installPath, projectDirs, scandir))
    ensures var plan := Plan(TypedHandlers(registry, types), o.passed,
                             GetVersions(true, store, pkg, fs, installPath, projectDirs, scandir));
            && |plan| == |o.trace|
            && forall i :: 0 <= i < |plan| ==>
                 o.trace[i].version == plan[i].1.version && plan[i].1 in GetPackageVersions(fs, installPath, projectDirs, scandir)
  {
    var versions := GetVersions(true, store, pkg, fs, installPath, projectDirs, scandir);
    var o := HandleUninstall(s, store, pkg, registry, types, versions);
    PlannedVersions(TypedHandlers(registry, types), o.passed, Uninstalling(GetConfig(store, pkg)), s, versions);
    o
  }
}

=== FILE: project_type_matcher.dfy ===
/** Project type detection (src/ProjectType/ProjectTypeMatcher.php): the registry
    of project types discovered in the installed packages and in the plugin's own
    directory, the explicit override from the root package's extra section, and
    detection by filesystem markers in priority order. */
module ProjectTypes {
  import opened Wrappers
  import opened OrderedMaps
  import opened FileSystems

  /** One entry of `getMatchableFiles()`: a path that must exist, or a list of paths
      that must all exist. */
  datatype Marker = Single(path: string) | AllOf(paths: seq<string>)

  /** A project type as the matcher and the orchestrator use it. `priority` is
      `None` for a class that has no `getPriority` method. */
  datatype ProjectType = ProjectType(
    friendlyName: string,
    machineName: string,
    markers: seq<Marker>,
    types: seq<string>,
    projectDirs: seq<string>,
    priority: Option<int>)

  /** The discovered types by machine name, in registration order. */
  type Registry = OMap<string, ProjectType>

  // The three bundled project types (src/ProjectType/Type/*).

  const GENERIC: ProjectType :=
    ProjectType("Generic project", "any", [Single(".")], ["copyFiles", "environmentVariables"], ["any"], Some(-1000))

  const DRUPAL8: ProjectType :=
    ProjectType("Drupal 8", "drupal-8", [Single("core/lib/Drupal")], ["copyFiles", "environmentVariables"],
                ["drupal", "drupal8"], Some(0))

  const SYMFONY4: ProjectType :=
    ProjectType("Symfony 4", "symfony4", [Single("config/packages")],
                ["copyFiles", "environmentVariables", "symfonyBundleRegister"], ["symfony4", "symfony"], None)

  /** The `$exists = $exists && file_exists(...)` loop over a list marker: true
      exactly when every listed path exists under the root. */
  function AllExist(root: string, paths: seq<string>, present: string -> bool): (b: bool)
    ensures b <==> forall i :: 0 <= i < |paths| ==> present(Path(root, paths[i]))
    decreases |paths|
  {
    if |paths| == 0 then true
    else
      var rest := AllExist(root, paths[1..], present);
      assert forall i :: 1 <= i < |paths| ==> paths[i] == paths[1..][i - 1];
      present(Path(root, paths[0])) && rest
  }

  /** Whether one marker matches the project rooted at `root`. */
  predicate MarkerMatches(root: string, m: Marker, present: string -> bool) {
    match m
    case Single(p) => present(Path(root, p))
    case AllOf(ps) => AllExist(root, ps, present)
  }

  /** The inner loop of `findProjectType`: a type matches when any of its markers
      does. */
  function AnyMarker(root: string, markers: seq<Marker>, present: string -> bool): (b: bool)
    ensures b <==> exists i :: 0 <= i < |markers| && MarkerMatches(root, markers[i], present)
    decreases |markers|
  {
    if |markers| == 0 then false
    else if MarkerMatches(root, markers[0], present) then true
    else
      var b := AnyMarker(root, markers[1..], present);
      assert forall i :: 1 <= i < |markers| ==> markers[i] == markers[1..][i - 1];
      b
  }

  predicate TypeMatches(root: string, t: ProjectType, present: string -> bool) {
    AnyMarker(root, t.markers, present)
  }

  /** The index of the first type in `order` that matches, or `|order|`. */
  function FirstMatch(root: string, order: seq<ProjectType>, present: string -> bool): (k: nat)
    ensures k <= |order|
    ensures forall i :: 0 <= i < k ==> !TypeMatches(root, order[i], present)
    ensures k < |order| ==> TypeMatches(root, order[k], present)
    decreases |order|
  {
    if |order| == 0 then 0
    else if TypeMatches(root, order[0], present) then 0
    else
      var k := FirstMatch(root, order[1..], present);
      assert forall i :: 1 <= i < |order| ==> order[i] == order[1..][i - 1];
      1 + k
  }

  /** Detection: the first type, in the given order, one of whose markers matches;
      `None` (PHP `null`) when no type matches. */
  function Detect(root: string, order: seq<ProjectType>, present: string -> bool): (r: Option<ProjectType>)
    ensures r.Some? ==>
              exists k :: 0 <= k < |order| && order[k] == r.value && TypeMatches(root, order[k], present)
                          && forall i :: 0 <= i < k ==> !TypeMatches(root, order[i], present)
    ensures r.None? <==> forall i :: 0 <= i < |order| ==> !TypeMatches(root, order[i], present)
  {
    var k := FirstMatch(root, order, present);
    if k < |order| then Some(order[k]) else None
  }

  /** The types of a registry, in registration order. */
  function Types(classes: Registry): (ts: seq<ProjectType>)
    ensures |ts| == |classes| && forall i :: 0 <= i < |classes| ==> ts[i] == classes[i].1
  {
    seq(|classes|, i requires 0 <= i < |classes| => classes[i].1)
  }

  /** Some registered type has no `getPriority` method. */
  predicate SomeUnprioritized(classes: Registry) {
    exists i :: 0 <= i < |classes| && classes[i].1.priority.None?
  }

  /** What the priority sort gives when every type has a priority: ascending by
      priority, as the comparator orders them. */
  predicate PriorityOrder(order: seq<ProjectType>) {
    (forall i :: 0 <= i < |order| ==> order[i].priority.Some?) ==>
      forall i, j :: 0 <= i < j < |order| ==> order[i].priority.value <= order[j].priority.value
  }

  /** `findProjectType`. An override naming a registered machine name returns that
      type without looking at the files. Otherwise the registry's types are sorted by
      priority (`order` is the sort's result) and tried by their markers. Sorting two
      or more types calls the comparator on every one of them, so a type without
      `getPriority` makes the call fail. */
  function FindProjectType(root: string, override: Option<string>, classes: Registry, order: seq<ProjectType>,
                           present: string -> bool): (r: Result<Option<ProjectType>>)
    requires multiset(order) == multiset(Types(classes)) && PriorityOrder(order)
    ensures override.Some? && override.value in Keys(classes) ==> r == Success(Get(classes, override.value))
    ensures (override.None? || override.value !in Keys(classes)) && |classes| >= 2 && SomeUnprioritized(classes)
            ==> r.Failure?
    ensures (override.None? || override.value !in Keys(classes)) && (|classes| < 2 || !SomeUnprioritized(classes))
            ==> r == Success(Detect(root, order, present))
    ensures r.Success? && r.value.Some? ==> r.value.value in Types(classes)
  {
    if override.Some? && override.value in Keys(classes) then
      var t := Get(classes, override.value);
      GetIsEntry(classes, override.value);
      Success(t)
    else if |classes| >= 2 && SomeUnprioritized(classes) then
      Failure(EngineError("Call to undefined method getPriority()"))
    else
      var r := Detect(root, order, present);
      assert r.Some? ==> r.value in multiset(order);
      Success(r)
  }

  /** With every type prioritised, detection tries lower priorities first: no type
      of lower priority than the one found matches. */
  lemma DetectLowestFirst(root: string, order: seq<ProjectType>, present: string -> bool)
    requires PriorityOrder(order) && forall i :: 0 <= i < |order| ==> order[i].priority.Some?
    requires Detect(root, order, present).Some?
    ensures forall i :: 0 <= i < |order| && order[i].priority.value < Detect(root, order, present).value.priority.value
              ==> !TypeMatches(root, order[i], present)
  {
    var k := FirstMatch(root, order, present);
    forall i | 0 <= i < |order| && order[i].priority.value < order[k].priority.value
      ensures !TypeMatches(root, order[i], present)
    {
      if k < i {
        assert false;
      }
    }
  }

  /** The bundled registry never gets past the sort without an override: the
      Symfony 4 type has no priority. */
  lemma BundledTypesFail(root: string, classes: Registry, order: seq<ProjectType>, present: string -> bool)
    requires multiset(order) == multiset(Types(classes)) && PriorityOrder(order)
    requires |classes| >= 2 && SYMFONY4 in Types(classes)
    ensures FindProjectType(root, None, classes, order, present).Failure?
  {
    var i :| 0 <= i < |classes| && Types(classes)[i] == SYMFONY4;
    assert classes[i].1.priority.None?;
  }

  /** A registered key's value is one of the registry's types. */
  lemma {:induction false} GetIsEntry(classes: Registry, k: string)
    requires k in Keys(classes)
    ensures Get(classes, k).Some? && Get(classes, k).value in Types(classes)
    decreases |classes|
  {
    assert Types(classes) == [classes[0].1] + Types(classes[1..]);
    if classes[0].0 != k {
      assert Keys(classes) == [classes[0].0] + Keys(classes[1..]);
      GetIsEntry(classes[1..], k);
    }
  }

  /** The sort's comparator on two priorities: 0 when equal, -1 when the first is
      lower, 1 otherwise. */
  function ComparePriorities(p1: int, p2: int): (c: int)
    ensures c == 0 <==> p1 == p2
    ensures c == -1 <==> p1 < p2
    ensures c == 1 <==> p1 > p2
  {
    if p1 == p2 then 0 else if p1 < p2 then -1 else 1
  }

  /** The comparator on two types. A type without `getPriority` makes the call
      fail with an engine error. */
  function Compare(t1: ProjectType, t2: ProjectType): (r: Result<int>)
    ensures r.Failure? <==> t1.priority.None? || t2.priority.None?
    ensures r.Success? ==> r.value == ComparePriorities(t1.priority.value, t2.priority.value)
  {
    if t1.priority.None? || t2.priority.None? then Failure(EngineError("Call to undefined method getPriority()"))
    else Success(ComparePriorities(t1.priority.value, t2.priority.value))
  }

  /** The comparator is a total order on priorities: swapping the arguments negates
      it, and "not after" is transitive. */
  lemma ComparatorIsOrder(p1: int, p2: int, p3: int)
    ensures ComparePriorities(p1, p2) == -ComparePriorities(p2, p1)
    ensures ComparePriorities(p1, p2) <= 0 && ComparePriorities(p2, p3) <= 0 ==> ComparePriorities(p1, p3) <= 0
  {
  }

  /** A type whose markers always match stops detection: no type after it is ever
      chosen. The generic type is one as soon as the root present. */
  lemma DetectStopsAt(root: string, order: seq<ProjectType>, present: string -> bool, k: nat)
    requires k < |order| && TypeMatches(root, order[k], present)
    ensures Detect(root, order, present).Some? && Detect(root, order, present).value in order[..k + 1]
  {
    var j := FirstMatch(root, order, present);
    assert j <= k;
    assert order[j] == order[..k + 1][j];
  }

  lemma GenericMatchesExistingRoot(root: string, present: string -> bool)
    requires present(Path(root, "."))
    ensures TypeMatches(root, GENERIC, present)
  {
    assert MarkerMatches(root, GENERIC.markers[0], present);
  }

  /** What reflection finds in a PHP file: no class, a class that cannot be
      reflected (`ReflectionException`), or a class with its properties. */
  datatype Inspection =
    | NoClass
    | Unreflectable
    | ClassFound(instantiable: bool, isProjectType: bool, instance: ProjectType)

  /** One entry of the recursive directory walk. */
  datatype FileEntry = FileEntry(name: string, isFile: bool, inspection: Inspection)

  /** The text after the last '.' of a file name, or "" (`getExtension`). */
  function Extension(name: string): (e: string)
    ensures '.' !in e
    ensures |e| <= |name| && e == name[|name| - |e|..]
    ensures '.' !in name ==> e == ""
    decreases |name|
  {
    if |name| == 0 || name[|name| - 1] == '.' then ""
    else if '.' !in name then ""
    else
      var front := Extension(name[..|name| - 1]);
      assert '.' in name[..|name| - 1] by {
        var i :| 0 <= i < |name| && name[i] == '.';
        assert name[..|name| - 1][i] == '.';
      }
      front + [name[|name| - 1]]
  }

  /** What one walked entry contributes to the registry: a `.php` file holding an
      instantiable project type registers it under its machine name. */
  function Registration(f: FileEntry): (r: Option<(string, ProjectType)>)
    ensures r.Some? <==> f.isFile && Extension(f.name) == "php" && f.inspection.ClassFound?
                         && f.inspection.instantiable && f.inspection.isProjectType
    ensures r.Some? ==> r.value == (f.inspection.instance.machineName, f.inspection.instance)
  {
    if !f.isFile || Extension(f.name) != "php" then None
    else match f.inspection
      case ClassFound(instantiable, isProjectType, t) =>
        if instantiable && isProjectType then Some((t.machineName, t)) else None
      case _ => None
  }

  /** The registrations of one directory's walk, in walk order. */
  function Registrations(files: seq<FileEntry>): (es: seq<(string, ProjectType)>)
    ensures |es| <= |files|
    ensures forall e :: e in es <==> exists i :: 0 <= i < |files| && Registration(files[i]) == Some(e)
    decreases |files|
  {
    if |files| == 0 then []
    else
      var rest := Registrations(files[1..]);
      assert forall i :: 1 <= i < |files| ==> files[i] == files[1..][i - 1];
      (match Registration(files[0]) case Some(e) => [e] case None => []) + rest
  }

  /** What discovery needs from the outside world: the installed packages' paths,
      which paths exist, the plugin's own type directory, and the directory walk
      (`None` where the walk throws `UnexpectedValueException`). */
  datatype Environment = Environment(
    installPaths: seq<string>,
    present: string -> bool,
    builtIn: string,
    listing: string -> Option<seq<FileEntry>>)

  /** The `.installer/project-types` directories of the packages that have one. */
  function PackageDirs(installPaths: seq<string>, present: string -> bool): (ds: seq<string>)
    ensures forall d :: d in ds <==>
              exists i :: 0 <= i < |installPaths| && d == installPaths[i] + "/.installer/project-types" && present(d)
    decreases |installPaths|
  {
    if |installPaths| == 0 then []
    else
      var d := installPaths[0] + "/.installer/project-types";
      var rest := PackageDirs(installPaths[1..], present);
      assert forall i :: 1 <= i < |installPaths| ==> installPaths[i] == installPaths[1..][i - 1];
      (if present(d) then [d] else []) + rest
  }

  /** The directories discovery walks: the packages' ones, then the built-in one. */
  function SearchDirs(env: Environment): (ds: seq<string>)
    ensures |ds| >= 1 && ds[|ds| - 1] == env.builtIn
    ensures ds[..|ds| - 1] == PackageDirs(env.installPaths, env.present)
  {
    var ds := PackageDirs(env.installPaths, env.present) + [env.builtIn];
    assert ds[..|ds| - 1] == PackageDirs(env.installPaths, env.present);
    ds
  }

  /** The registrations of all the walks in order, when no walk throws. */
  function Gathered(dirs: seq<string>, listing: string -> Option<seq<FileEntry>>): (es: seq<(string, ProjectType)>)
    requires forall i :: 0 <= i < |dirs| ==> listing(dirs[i]).Some?
    ensures |dirs| > 0 ==>
              var own := Registrations(listing(dirs[|dirs| - 1]).value);
              |es| >= |own| && es[|es| - |own|..] == own
    decreases |dirs|
  {
    if |dirs| == 0 then []
    else
      var front := dirs[..|dirs| - 1];
      assert forall i :: 0 <= i < |front| ==> front[i] == dirs[i];
      var own := Registrations(listing(dirs[|dirs| - 1]).value);
      var es := Gathered(front, listing) + own;
      assert es[|es| - |own|..] == own;
      es
  }

  /** The registrations of all the walks in order; `None` when some walk throws. */
  function ScanDirs(dirs: seq<string>, listing: string -> Option<seq<FileEntry>>)
    : (r: Option<seq<(string, ProjectType)>>)
    ensures r.Some? <==> forall i :: 0 <= i < |dirs| ==> listing(dirs[i]).Some?
    ensures r.Some? && |dirs| > 0 ==>
              var own := Registrations(listing(dirs[|dirs| - 1]).value);
              |r.value| >= |own| && r.value[|r.value| - |own|..] == own
  {
    if forall i :: 0 <= i < |dirs| ==> listing(dirs[i]).Some? then Some(Gathered(dirs, listing)) else None
  }

  /** `getProjectTypeClasses`: the registry built from every walk, later
      registrations of a machine name winning; when a walk throws, the cached
      registry instead, and an engine error when there is none (`null` returned
      where an array is declared). */
  function GetProjectTypeClasses(env: Environment, cache: Option<Registry>): (r: Result<Registry>)
    ensures ScanDirs(SearchDirs(env), env.listing).Some? ==>
              r == Success(FromPairs(ScanDirs(SearchDirs(env), env.listing).value))
    ensures ScanDirs(SearchDirs(env), env.listing).None? ==>
              r == (if cache.Some? then Success(cache.value) else Failure(EngineError("Return value must be of type array, null returned")))
  {
    match ScanDirs(SearchDirs(env), env.listing)
    case Some(es) => Success(FromPairs(es))
    case None =>
      if cache.Some? then Success(cache.value) else Failure(EngineError("Return value must be of type array, null returned"))
  }

  /** A type registered by the plugin's own directory wins over every package's
      registration of the same machine name, because that directory is walked
      last. */
  lemma BuiltInWins(env: Environment, cache: Option<Registry>, name: string)
    requires forall d :: d in SearchDirs(env) ==> env.listing(d).Some?
    requires name in Keys(Registrations(env.listing(env.builtIn).value))
    ensures GetProjectTypeClasses(env, cache).Success?
    ensures Get(GetProjectTypeClasses(env, cache).value, name) == LastValue(Registrations(env.listing(env.builtIn).value), name)
  {
    var ds := SearchDirs(env);
    var es := ScanDirs(ds, env.listing).value;
    var own := Registrations(env.listing(env.builtIn).value);
    var pre := es[..|es| - |own|];
    assert es == pre + own;
    PutAllAppend([], pre, own);
    GetPutAll(FromPairs(pre), own, name);
  }

  /** `preload`: fills the cache by discovery when it is empty, and leaves a
      filled cache alone. */
  function Preload(cache: Option<Registry>, env: Environment): (r: Result<Option<Registry>>)
    ensures cache.Some? ==> r == Success(cache)
    ensures cache.None? ==> (r.Success? <==> GetProjectTypeClasses(env, None).Success?)
    ensures cache.None? && r.Success? ==> r.value == Some(GetProjectTypeClasses(env, None).value)
  {
    if cache.Some? then Success(cache)
    else
      match GetProjectTypeClasses(env, None)
      case Success(classes) => Success(Some(classes))
      case Failure(e) => Failure(e)
  }

  /** Preloading twice keeps what the first preload found, whatever the second
      discovery would see. */
  lemma PreloadOnce(cache: Option<Registry>, env1: Environment, env2: Environment)
    requires Preload(cache, env1).Success?
    ensures Preload(Preload(cache, env1).value, env2) == Preload(cache, env1)
    ensures Preload(cache, env1).value.Some?
  {
  }

  /** After a successful preload, a failing discovery falls back to the preloaded
      registry. */
  lemma FallbackToCache(cache: Option<Registry>, env1: Environment, env2: Environment)
    requires Preload(cache, env1).Success?
    requires exists i :: 0 <= i < |SearchDirs(env2)| && env2.listing(SearchDirs(env2)[i]).None?
    ensures GetProjectTypeClasses(env2, Preload(cache, env1).value) == Success(Preload(cache, env1).value.value)
  {
  }
}

=== FILE: result_collection.dfy ===
/** The ordered, array-like collection of operation results returned by the
    orchestrator (src/Result/OperationResultCollection.php).

    The PHP array behind it is modelled as a sequence of slots: `None` is an index
    that was unset. The length of the slot sequence is PHP's "next free index":
    unsetting an entry never shortens it, exactly as `unset` never lowers the
    index `$array[] = ...` writes to. */
module ResultCollections {
  import opened Wrappers
  import opened Results

  datatype ResultCollection = ResultCollection(slots: seq<Option<OperationResult>>, position: int)

  /** The constructor stores its arguments in order, at indices 0, 1, ... */
  function FromSeq(rs: seq<OperationResult>): (c: ResultCollection)
    ensures |c.slots| == |rs| && Count(c) == |rs|
    ensures forall i :: 0 <= i < |rs| ==> c.slots[i] == Some(rs[i])
  {
    var c := ResultCollection(seq(|rs|, i requires 0 <= i < |rs| => Some(rs[i])), 0);
    CountAllPresent(c.slots);
    c
  }

  /** Whether every slot holds a result, i.e. nothing was ever unset. */
  predicate NoHoles(c: ResultCollection) {
    forall i :: 0 <= i < |c.slots| ==> c.slots[i].Some?
  }

  function CountSome(slots: seq<Option<OperationResult>>): (n: nat)
    ensures n <= |slots|
  {
    if |slots| == 0 then 0 else (if slots[0].Some? then 1 else 0) + CountSome(slots[1..])
  }

  lemma {:induction false} CountAllPresent(slots: seq<Option<OperationResult>>)
    requires forall i :: 0 <= i < |slots| ==> slots[i].Some?
    ensures CountSome(slots) == |slots|
  {
    if |slots| > 0 {
      CountAllPresent(slots[1..]);
    }
  }

  /** `count()`: the number of stored entries. */
  function Count(c: ResultCollection): nat {
    CountSome(c.slots)
  }

  /** `addResult`: appends one result after every index ever used. */
  function AddResult(c: ResultCollection, r: OperationResult): (c': ResultCollection)
    ensures |c'.slots| == |c.slots| + 1 && c'.slots[..|c.slots|] == c.slots
    ensures c'.slots[|c.slots|] == Some(r)
    ensures Count(c') == Count(c) + 1
  {
    var c' := c.(slots := c.slots + [Some(r)]);
    CountAppend(c.slots, Some(r));
    c'
  }

  lemma {:induction false} CountAppend(slots: seq<Option<OperationResult>>, x: Option<OperationResult>)
    ensures CountSome(slots + [x]) == CountSome(slots) + (if x.Some? then 1 else 0)
  {
    if |slots| > 0 {
      assert (slots + [x])[1..] == slots[1..] + [x];
      CountAppend(slots[1..], x);
    }
  }

  /** `offsetExists` (PHP `isset`). */
  predicate OffsetExists(c: ResultCollection, offset: int) {
    0 <= offset < |c.slots| && c.slots[offset].Some?
  }

  /** `offsetGet`; a missing index reads as PHP `null`. */
  function OffsetGet(c: ResultCollection, offset: int): (r: Option<OperationResult>)
    ensures r.Some? <==> OffsetExists(c, offset)
  {
    if OffsetExists(c, offset) then c.slots[offset] else None
  }

  /** Writes `v` at index `i`, growing the slot sequence with unset slots if needed. */
  function SetSlot(slots: seq<Option<OperationResult>>, i: nat, v: OperationResult): (s: seq<Option<OperationResult>>)
    ensures |s| == if i < |slots| then |slots| else i + 1
    ensures s[i] == Some(v)
    ensures forall j :: 0 <= j < |s| && j != i ==> s[j] == if j < |slots| then slots[j] else None
  {
    if i < |slots| then slots[i := Some(v)]
    else slots + seq(i - |slots|, _ => None) + [Some(v)]
  }

  /** `offsetSet` as written: a `null` offset (`$collection[] = $v`) writes at index
      `count()`. */
  function OffsetSet(c: ResultCollection, offset: Option<nat>, v: OperationResult): (c': ResultCollection)
    ensures OffsetGet(c', offset.GetOr(Count(c))) == Some(v)
    ensures forall j :: 0 <= j < |c.slots| && j != offset.GetOr(Count(c)) ==> OffsetGet(c', j) == OffsetGet(c, j)
  {
    var i := match offset case Some(k) => k case None => Count(c);
    c.(slots := SetSlot(c.slots, i, v))
  }

  /** `offsetSet` with a `null` offset as evidently intended: append after every
      index ever used, like PHP's own `$array[] = $v`, so no entry is lost. */
  function OffsetAppend(c: ResultCollection, v: OperationResult): (c': ResultCollection)
    ensures Count(c') == Count(c) + 1
    ensures forall j :: 0 <= j < |c.slots| ==> OffsetGet(c', j) == OffsetGet(c, j)
    ensures OffsetGet(c', |c.slots|) == Some(v)
  {
    AddResult(c, v)
  }

  /** On a collection from which nothing was unset, the written and the intended
      append coincide: `count()` is then the next free index. */
  lemma AppendAgreesWithoutHoles(c: ResultCollection, v: OperationResult)
    requires NoHoles(c)
    ensures OffsetSet(c, None, v) == OffsetAppend(c, v)
  {
    CountAllPresent(c.slots);
  }

  /** The written append can overwrite: after unsetting index 0 of a two-element
      collection, `$collection[] = $x` replaces the entry at index 1, and the count
      does not grow. */
  lemma OverwriteAfterUnset(a: OperationResult, b: OperationResult, x: OperationResult)
    ensures var c := OffsetUnset(FromSeq([a, b]), 0);
            && OffsetGet(c, 1) == Some(b)
            && OffsetGet(OffsetSet(c, None, x), 1) == Some(x)
            && Count(OffsetSet(c, None, x)) == Count(c) == 1
  {
    var c := OffsetUnset(FromSeq([a, b]), 0);
    assert c.slots == [None, Some(b)];
    assert CountSome(c.slots) == CountSome(c.slots[1..]);
    assert c.slots[1..] == [Some(b)];
    assert CountSome([Some(b)]) == 1 + CountSome([Some(b)][1..]);
    var c2 := OffsetSet(c, None, x);
    assert c2.slots == [None, Some(x)];
    assert c2.slots[1..] == [Some(x)];
    assert CountSome([Some(x)]) == 1 + CountSome([Some(x)][1..]);
  }

  /** `offsetUnset` removes the entry at the given index and nothing else. */
  function OffsetUnset(c: ResultCollection, offset: int): (c': ResultCollection)
    ensures !OffsetExists(c', offset)
    ensures |c'.slots| == |c.slots|
    ensures forall j :: j != offset ==> OffsetGet(c', j) == OffsetGet(c, j)
  {
    if 0 <= offset < |c.slots| then c.(slots := c.slots[offset := None]) else c
  }

  /** `madeChanges`: whether some stored result is not neutral. */
  function MadeChanges(c: ResultCollection): (b: bool)
    ensures b <==> exists i :: 0 <= i < |c.slots| && c.slots[i].Some? && !IsNeutral(c.slots[i].value)
    ensures c.slots == [] ==> !b
  {
    AnyChange(c.slots)
  }

  function AnyChange(slots: seq<Option<OperationResult>>): (b: bool)
    ensures b <==> exists i :: 0 <= i < |slots| && slots[i].Some? && !IsNeutral(slots[i].value)
  {
    if |slots| == 0 then false
    else if slots[0].Some? && !IsNeutral(slots[0].value) then true
    else
      var b := AnyChange(slots[1..]);
      assert forall i :: 1 <= i < |slots| ==> slots[i] == slots[1..][i - 1];
      b
  }

  /** Iterator protocol: `rewind`, `valid`, `current`, `key`, `next`. */
  function Rewind(c: ResultCollection): ResultCollection {
    c.(position := 0)
  }

  predicate Valid(c: ResultCollection) {
    OffsetExists(c, c.position)
  }

  function Current(c: ResultCollection): Option<OperationResult> {
    OffsetGet(c, c.position)
  }

  function Key(c: ResultCollection): int {
    c.position
  }

  function Next(c: ResultCollection): ResultCollection {
    c.(position := c.position + 1)
  }

  /** The index of the first unset slot, or the number of slots. */
  function FirstHole(slots: seq<Option<OperationResult>>): (k: nat)
    ensures k <= |slots|
    ensures forall i :: 0 <= i < k ==> slots[i].Some?
    ensures k < |slots| ==> slots[k].None?
  {
    if |slots| == 0 || slots[0].None? then 0 else 1 + FirstHole(slots[1..])
  }

  /** A `foreach` over the collection: rewind, then read `current` and advance while
      `valid`. It yields the entries at 0, 1, ... in index order and stops at the
      first missing index, so entries after a hole are never visited. */
  method Iterate(c: ResultCollection) returns (visited: seq<OperationResult>)
    ensures |visited| == FirstHole(c.slots)
    ensures forall i :: 0 <= i < |visited| ==> c.slots[i] == Some(visited[i])
  {
    var it := Rewind(c);
    visited := [];
    while Valid(it)
      invariant it.slots == c.slots
      invariant 0 <= it.position == |visited| <= FirstHole(c.slots)
      invariant forall i :: 0 <= i < |visited| ==> c.slots[i] == Some(visited[i])
      decreases |c.slots| - it.position
    {
      visited := visited + [Current(it).value];
      it := Next(it);
    }
  }
}

=== FILE: strings.dfy ===
/** String helpers with the semantics of the PHP built-ins the plugin uses:
    truthiness of strings, `strpos` with an offset, splitting on a separator. */
module Strings {
  import opened Wrappers

  /** PHP casts a string to `false` exactly when it is "" or "0". */
  predicate Truthy(s: string) {
    s != "" && s != "0"
  }

  /** `needle` occurs in `s` starting at index `p`. */
  predicate OccursAt(needle: string, s: string, p: int) {
    0 <= p && p + |needle| <= |s| && s[p..p + |needle|] == needle
  }

  /** `needle` occurs somewhere in `s`. */
  predicate Occurs(needle: string, s: string) {
    exists p :: 0 <= p <= |s| && OccursAt(needle, s, p)
  }

  /** `strpos(s, needle, from)`: the first occurrence at or after `from`, or `None`
      (PHP's `false`). */
  function Find(needle: string, s: string, from: nat): (r: Option<nat>)
    ensures r.Some? ==> from <= r.value && OccursAt(needle, s, r.value)
    ensures r.Some? ==> forall q :: from <= q < r.value ==> !OccursAt(needle, s, q)
    ensures r.None? ==> forall q :: from <= q ==> !OccursAt(needle, s, q)
    decreases |s| - from
  {
    if from + |needle| > |s| then None
    else if s[from..from + |needle|] == needle then Some(from)
    else Find(needle, s, from + 1)
  }

  /** Splits `s` at every occurrence of `sep` (PHP `explode` with a one-character
      separator). There is always at least one part. */
  function Split(s: string, sep: char): (parts: seq<string>)
    ensures |parts| >= 1
    ensures forall i :: 0 <= i < |parts| ==> sep !in parts[i]
    decreases |s|
  {
    if |s| == 0 then [""]
    else if s[0] == sep then [""] + Split(s[1..], sep)
    else
      var rest := Split(s[1..], sep);
      [[s[0]] + rest[0]] + rest[1..]
  }

  /** Joins `parts` with `sep` between consecutive parts (PHP `implode`). */
  function Join(parts: seq<string>, sep: char): string
    requires |parts| >= 1
  {
    if |parts| == 1 then parts[0] else parts[0] + [sep] + Join(parts[1..], sep)
  }

  /** `Join` undoes `Split`: no character is lost or invented by splitting. */
  lemma {:induction false} JoinSplit(s: string, sep: char)
    ensures Join(Split(s, sep), sep) == s
    decreases |s|
  {
    if |s| == 0 {
    } else if s[0] == sep {
      JoinSplit(s[1..], sep);
      var rest := Split(s[1..], sep);
      assert Split(s, sep) == [""] + rest;
      assert Split(s, sep)[1..] == rest;
      assert s == [s[0]] + s[1..];
    } else {
      JoinSplit(s[1..], sep);
      var rest := Split(s[1..], sep);
      assert Split(s, sep) == [[s[0]] + rest[0]] + rest[1..];
      if |rest| == 1 {
        assert s == [s[0]] + s[1..];
      } else {
        assert Split(s, sep)[1..] == rest[1..];
        assert Join(rest, sep) == rest[0] + [sep] + Join(rest[1..], sep);
        assert s == [s[0]] + s[1..];
      }
    }
  }

  /** Splitting text without the separator gives the text back as the only part. */
  lemma {:induction false} SplitNoSep(a: string, sep: char)
    requires sep !in a
    ensures Split(a, sep) == [a]
    decreases |a|
  {
    if |a| > 0 {
      SplitNoSep(a[1..], sep);
      assert [a[0]] + a[1..] == a;
    }
  }

  /** A separator-free head followed by the separator splits off as the first part. */
  lemma {:induction false} SplitCons(a: string, sep: char, b: string)
    requires sep !in a
    ensures Split(a + [sep] + b, sep) == [a] + Split(b, sep)
    decreases |a|
  {
    var s := a + [sep] + b;
    if |a| == 0 {
      assert s == [sep] + b;
      assert s[1..] == b;
    } else {
      assert s[0] == a[0];
      assert s[1..] == a[1..] + [sep] + b;
      SplitCons(a[1..], sep, b);
      assert [a[0]] + a[1..] == a;
    }
  }

  /** `Split` undoes `Join` when no part contains the separator. */
  lemma {:induction false} SplitJoin(parts: seq<string>, sep: char)
    requires |parts| >= 1
    requires forall i :: 0 <= i < |parts| ==> sep !in parts[i]
    ensures Split(Join(parts, sep), sep) == parts
    decreases |parts|
  {
    if |parts| == 1 {
      SplitNoSep(parts[0], sep);
    } else {
      SplitJoin(parts[1..], sep);
      SplitCons(parts[0], sep, Join(parts[1..], sep));
      assert [parts[0]] + parts[1..] == parts;
    }
  }

  /** A joined text starts with its first part. */
  lemma {:induction false} JoinStartsWithFirst(parts: seq<string>, sep: char)
    requires |parts| >= 1
    ensures |Join(parts, sep)| >= |parts[0]| && Join(parts, sep)[..|parts[0]|] == parts[0]
  {
    if |parts| > 1 {
      assert Join(parts, sep) == parts[0] + ([sep] + Join(parts[1..], sep));
    }
  }

  predicate IsDigit(c: char) {
    '0' <= c <= '9'
  }

  predicate AllDigits(s: string) {
    forall i :: 0 <= i < |s| ==> IsDigit(s[i])
  }

  /** The decimal value of a string of digits; any other character counts as 0. */
  function DigitsValue(s: string): nat
    decreases |s|
  {
    if |s| == 0 then 0
    else
      DigitsValue(s[..|s| - 1]) * 10
        + (if IsDigit(s[|s| - 1]) then (s[|s| - 1] as int - '0' as int) else 0)
  }

  /** Removes every occurrence of `c` (PHP `str_replace` with a one-character search
      string and an empty replacement). */
  function RemoveChar(s: string, c: char): (r: string)
    ensures c !in r
    ensures |r| <= |s|
    ensures c !in s ==> r == s
  {
    if |s| == 0 then ""
    else (if s[0] == c then "" else [s[0]]) + RemoveChar(s[1..], c)
  }

  /** An occurrence of a needle without line breaks never spans a line break: it
      lies wholly before or wholly after the `'\n'` that joins `a` and `b`. */
  lemma NoOccurrenceAcrossNewline(needle: string, a: string, b: string, p: int)
    requires '\n' !in needle
    requires OccursAt(needle, a + ("\n" + b), p)
    ensures OccursAt(needle, a, p) || OccursAt(needle, b, p - |a| - 1)
  {
    var s := a + ("\n" + b);
    if p <= |a| < p + |needle| {
      CharOfOccurrence(needle, s, p, |a| - p);
      assert false;
    } else if p + |needle| <= |a| {
      assert s[p..p + |needle|] == a[p..p + |needle|];
    } else {
      assert s[p..p + |needle|] == b[p - |a| - 1..p - |a| - 1 + |needle|];
    }
  }

  /** The `k`-th character of an occurrence is the `k`-th character of the needle. */
  lemma CharOfOccurrence(needle: string, s: string, p: int, k: int)
    requires OccursAt(needle, s, p)
    requires 0 <= k < |needle|
    ensures s[p + k] == needle[k]
  {
    assert s[p..p + |needle|][k] == s[p + k];
  }

  lemma NotInConcat(c: char, a: string, b: string)
    requires c !in a && c !in b
    ensures c !in a + b
  {
  }

  /** A position that holds the needle and has no earlier occurrence at or after
      `from` is what `Find` returns. */
  lemma FindIsFirst(needle: string, s: string, from: nat, p: nat)
    requires from <= p && OccursAt(needle, s, p)
    requires forall q :: from <= q < p ==> !OccursAt(needle, s, q)
    ensures Find(needle, s, from) == Some(p)
  {
  }

  /** An occurrence in the right operand of a concatenation is one in the whole,
      shifted by the left operand's length. */
  lemma ShiftLeft(needle: string, a: string, b: string, q: int)
    requires OccursAt(needle, b, q)
    ensures OccursAt(needle, a + b, |a| + q)
  {
    assert (a + b)[|a| + q..|a| + q + |needle|] == b[q..q + |needle|];
  }

  /** An occurrence in a concatenation that starts inside the right operand is one
      in the right operand. */
  lemma ShiftRight(needle: string, a: string, b: string, q: int)
    requires |a| <= q && OccursAt(needle, a + b, q)
    ensures OccursAt(needle, b, q - |a|)
  {
    assert (a + b)[q..q + |needle|] == b[q - |a|..q - |a| + |needle|];
  }

  /** Occurrences that end inside the left operand of a concatenation. */
  lemma OccursInLeft(needle: string, a: string, b: string, q: int)
    requires q + |needle| <= |a|
    ensures OccursAt(needle, a + b, q) <==> OccursAt(needle, a, q)
  {
    if 0 <= q {
      assert (a + b)[q..q + |needle|] == a[q..q + |needle|];
    }
  }

  /** A needle made of a line break followed by a line-break-free text, searched in
      `a + b` where `b` starts with it and `a` does not contain it, is first found
      where `b` begins. */
  lemma {:induction false} FirstAtLineStart(needle: string, a: string, b: string)
    requires |needle| >= 1 && needle[0] == '\n' && '\n' !in needle[1..]
    requires |b| >= |needle| && b[..|needle|] == needle
    requires !Occurs(needle, a)
    ensures Find(needle, a + b, 0) == Some(|a|)
  {
    var s := a + b;
    assert OccursAt(needle, b, 0);
    ShiftLeft(needle, a, b, 0);
    forall q | 0 <= q < |a|
      ensures !OccursAt(needle, s, q)
    {
      if q + |needle| <= |a| {
        OccursInLeft(needle, a, b, q);
      } else if OccursAt(needle, s, q) {
        CharOfOccurrence(needle, s, q, |a| - q);
        assert false;
      }
    }
    FindIsFirst(needle, s, 0, |a|);
  }

  /** An occurrence in a text that starts with a line break, for a needle without
      line breaks, is an occurrence in the rest of the text. */
  lemma AfterLeadingNewline(needle: string, b: string, p: int)
    requires |needle| >= 1 && '\n' !in needle
    requires OccursAt(needle, "\n" + b, p)
    ensures OccursAt(needle, b, p - 1)
  {
    assert "" + ("\n" + b) == "\n" + b;
    NoOccurrenceAcrossNewline(needle, "", b, p);
  }

  /** Shifting "no occurrence in `b` before `last`" into `a + b`. */
  lemma NoneBetween(needle: string, a: string, b: string, last: int)
    requires forall q :: 0 <= q < last ==> !OccursAt(needle, b, q)
    ensures forall q :: |a| <= q < |a| + last ==> !OccursAt(needle, a + b, q)
  {
    forall q | |a| <= q < |a| + last
      ensures !OccursAt(needle, a + b, q)
    {
      if OccursAt(needle, a + b, q) {
        ShiftRight(needle, a, b, q);
      }
    }
  }

  /** `FindIsFirst` for a search that starts where the right operand of a
      concatenation begins. */
  lemma FindInRight(needle: string, a: string, b: string, p: nat)
    requires |a| <= p && OccursAt(needle, a + b, p)
    requires forall q :: |a| <= q < p ==> !OccursAt(needle, a + b, q)
    ensures Find(needle, a + b, |a|) == Some(p)
  {
    FindIsFirst(needle, a + b, |a|, p);
  }

  /** A needle that occurs in `b` only as its suffix is, searching `a + b` from where
      `b` begins, found exactly there. */
  lemma {:induction false} FirstAtEnd(needle: string, a: string, b: string)
    requires |needle| <= |b| && OccursAt(needle, b, |b| - |needle|)
    requires forall q :: 0 <= q < |b| - |needle| ==> !OccursAt(needle, b, q)
    ensures Find(needle, a + b, |a|) == Some(|a + b| - |needle|)
  {
    var last := |b| - |needle|;
    ShiftLeft(needle, a, b, last);
    NoneBetween(needle, a, b, last);
    assert |a + b| - |needle| == |a| + last;
    FindInRight(needle, a, b, |a + b| - |needle|);
  }
}

=== FILE: versions.dfy ===
/** Version directory names and PHP's `version_compare` on them
    (src/Configuration/Config.php:70-90). A version directory is named like `1`,
    `1.2`, `v1.2.3`; versions compare component by component as numbers, and a
    version that is a proper prefix of another is the lower one ("1" < "1.0"). */
module Versions {
  import opened Strings

  /** A discovered version: the version string (any 'v' removed) and the directory
      it was found in (src/Configuration/VersionDirectory.php). */
  datatype VersionDirectory = VersionDirectory(version: string, path: string)

  /** The name without its optional leading 'v'. */
  function Unprefixed(s: string): string {
    if |s| > 0 && s[0] == 'v' then s[1..] else s
  }

  predicate IsDigitGroup(g: string) {
    |g| >= 1 && AllDigits(g)
  }

  predicate DigitGroups(groups: seq<string>) {
    forall i :: 0 <= i < |groups| ==> IsDigitGroup(groups[i])
  }

  /** The version-name filter `^v?\d+(?:\.\d+(?:\.\d+)?)?$`, computed by splitting the
      name (without its 'v') at dots. */
  predicate IsVersionName(s: string) {
    var groups := Split(Unprefixed(s), '.');
    |groups| <= 3 && DigitGroups(groups)
  }

  /** The same regular expression read as a grammar: an optional 'v', then one to
      three non-empty digit runs separated by single dots. */
  ghost predicate VersionGrammar(s: string) {
    exists groups: seq<string> ::
      && 1 <= |groups| <= 3
      && DigitGroups(groups)
      && (s == Join(groups, '.') || s == "v" + Join(groups, '.'))
  }

  lemma DigitsHaveNoDot(groups: seq<string>)
    requires DigitGroups(groups)
    ensures forall i :: 0 <= i < |groups| ==> '.' !in groups[i]
  {
  }

  /** The computed filter accepts exactly the names the grammar describes. */
  lemma VersionNameIsGrammar(s: string)
    ensures IsVersionName(s) <==> VersionGrammar(s)
  {
    if IsVersionName(s) {
      var groups := Split(Unprefixed(s), '.');
      JoinSplit(Unprefixed(s), '.');
      if |s| > 0 && s[0] == 'v' {
        assert s == "v" + s[1..];
      }
      assert s == Join(groups, '.') || s == "v" + Join(groups, '.');
    }
    if VersionGrammar(s) {
      var groups :| 1 <= |groups| <= 3 && DigitGroups(groups)
                    && (s == Join(groups, '.') || s == "v" + Join(groups, '.'));
      var j := Join(groups, '.');
      DigitsHaveNoDot(groups);
      SplitJoin(groups, '.');
      if s == j {
        JoinStartsWithFirst(groups, '.');
        assert s[0] == groups[0][0];
        assert IsDigit(groups[0][0]);
        assert Unprefixed(s) == j;
      } else {
        assert Unprefixed(s) == j;
      }
    }
  }

  /** `str_replace('v', '', $name)` on a version name removes exactly the optional
      leading 'v'. */
  lemma StripVersionPrefix(s: string)
    requires IsVersionName(s)
    ensures RemoveChar(s, 'v') == Unprefixed(s)
  {
    var u := Unprefixed(s);
    var groups := Split(u, '.');
    JoinSplit(u, '.');
    assert 'v' !in u by {
      if 'v' in u {
        var k :| 0 <= k < |u| && u[k] == 'v';
        NoCharInJoin(groups, '.', 'v', k);
      }
    }
    if |s| > 0 && s[0] == 'v' {
      assert s == [s[0]] + u;
      assert RemoveChar(s, 'v') == RemoveChar(u, 'v');
    }
  }

  /** A character found in a join of digit groups is a digit or the separator. */
  lemma {:induction false} NoCharInJoin(groups: seq<string>, sep: char, c: char, k: int)
    requires |groups| >= 1 && DigitGroups(groups)
    requires 0 <= k < |Join(groups, sep)| && Join(groups, sep)[k] == c
    ensures IsDigit(c) || c == sep
    decreases |groups|
  {
    if |groups| > 1 {
      var rest := Join(groups[1..], sep);
      assert Join(groups, sep) == groups[0] + [sep] + rest;
      if k < |groups[0]| {
        assert IsDigit(groups[0][k]);
      } else if k > |groups[0]| {
        assert rest[k - |groups[0]| - 1] == c;
        NoCharInJoin(groups[1..], sep, c, k - |groups[0]| - 1);
      }
    } else {
      assert IsDigit(groups[0][k]);
    }
  }

  /** The numeric components of a version string. */
  function Components(v: string): (c: seq<nat>)
    ensures |c| == |Split(v, '.')|
  {
    var groups := Split(v, '.');
    seq(|groups|, i requires 0 <= i < |groups| => DigitsValue(groups[i]))
  }

  /** `version_compare($a, $b) < 0` on component sequences: the first differing
      component decides, and a proper prefix is lower. */
  predicate Less(a: seq<nat>, b: seq<nat>)
    decreases |a|
  {
    if |a| == 0 then |b| > 0
    else if |b| == 0 then false
    else if a[0] != b[0] then a[0] < b[0]
    else Less(a[1..], b[1..])
  }

  /** The lexicographic order written out: after a common prefix of length `k`,
      either `a` ends while `b` goes on, or `a`'s next component is smaller. */
  ghost predicate LexLess(a: seq<nat>, b: seq<nat>) {
    exists k :: 0 <= k <= |a| && k < |b| && a[..k] == b[..k] && (k == |a| || a[k] < b[k])
  }

  lemma {:induction false} LessIsLexLess(a: seq<nat>, b: seq<nat>)
    ensures Less(a, b) <==> LexLess(a, b)
    decreases |a|
  {
    if |a| == 0 {
      if |b| > 0 {
        assert a[..0] == b[..0];
      }
    } else if |b| == 0 {
    } else if a[0] != b[0] {
      if a[0] < b[0] {
        assert a[..0] == b[..0];
      }
    } else {
      LessIsLexLess(a[1..], b[1..]);
      if Less(a, b) {
        var k :| 0 <= k <= |a[1..]| && k < |b[1..]| && a[1..][..k] == b[1..][..k]
                 && (k == |a[1..]| || a[1..][k] < b[1..][k]);
        assert a[..k + 1] == [a[0]] + a[1..][..k];
        assert b[..k + 1] == [b[0]] + b[1..][..k];
      }
      if LexLess(a, b) {
        var k :| 0 <= k <= |a| && k < |b| && a[..k] == b[..k] && (k == |a| || a[k] < b[k]);
        assert k > 0;
        assert a[1..][..k - 1] == a[..k][1..];
        assert b[1..][..k - 1] == b[..k][1..];
      }
    }
  }

  lemma {:induction false} LessIrreflexive(a: seq<nat>)
    ensures !Less(a, a)
    decreases |a|
  {
    if |a| > 0 {
      LessIrreflexive(a[1..]);
    }
  }

  lemma {:induction false} LessTransitive(a: seq<nat>, b: seq<nat>, c: seq<nat>)
    requires Less(a, b) && Less(b, c)
    ensures Less(a, c)
    decreases |a|
  {
    if |a| > 0 && a[0] == b[0] && b[0] == c[0] {
      LessTransitive(a[1..], b[1..], c[1..]);
    }
  }

  /** Any two component sequences are equal or ordered one way or the other. */
  lemma {:induction false} LessTrichotomy(a: seq<nat>, b: seq<nat>)
    ensures Less(a, b) || a == b || Less(b, a)
    decreases |a|
  {
    if |a| > 0 && |b| > 0 && a[0] == b[0] {
      LessTrichotomy(a[1..], b[1..]);
      if a[1..] == b[1..] {
        assert a == [a[0]] + a[1..] && b == [b[0]] + b[1..];
      }
    }
  }

  /** "Not greater" is transitive, which is what sortedness needs. */
  lemma NotLessTransitive(a: seq<nat>, b: seq<nat>, c: seq<nat>)
    requires !Less(b, a) && !Less(c, b)
    ensures !Less(c, a)
  {
    LessTrichotomy(a, b);
    if Less(c, a) && Less(a, b) {
      LessTransitive(c, a, b);
    }
  }

  /** `version_compare($x, $y)` on version strings made of digits and dots. */
  function VersionCompare(x: string, y: string): (r: int)
    ensures r == -1 <==> Less(Components(x), Components(y))
    ensures r == 1 <==> Less(Components(y), Components(x))
    ensures r == 0 <==> Components(x) == Components(y)
  {
    LessTrichotomy(Components(x), Components(y));
    LessIrreflexive(Components(x));
    if Less(Components(x), Components(y)) then
      if Less(Components(y), Components(x)) then
        LessTransitive(Components(x), Components(y), Components(x));
        -1
      else -1
    else if Less(Components(y), Components(x)) then 1
    else 0
  }

  function Key(d: VersionDirectory): seq<nat> {
    Components(d.version)
  }

  /** Ascending by version: no entry is greater than one after it. */
  predicate SortedByVersion(s: seq<VersionDirectory>) {
    forall i, j :: 0 <= i < j < |s| ==> !Less(Key(s[j]), Key(s[i]))
  }

  /** A suffix of a sorted sequence is sorted. */
  lemma SuffixSorted(s: seq<VersionDirectory>, k: nat)
    requires SortedByVersion(s) && k <= |s|
    ensures SortedByVersion(s[k..])
  {
    forall i, j | 0 <= i < j < |s[k..]|
      ensures !Less(Key(s[k..][j]), Key(s[k..][i]))
    {
      assert s[k..][i] == s[k + i] && s[k..][j] == s[k + j];
    }
  }

  /** A head that no later entry is below extends a sorted sequence. */
  lemma SortedCons(h: VersionDirectory, rest: seq<VersionDirectory>)
    requires SortedByVersion(rest)
    requires forall e :: e in rest ==> !Less(Key(e), Key(h))
    ensures SortedByVersion([h] + rest)
  {
    forall i, j | 0 <= i < j < |[h] + rest|
      ensures !Less(Key(([h] + rest)[j]), Key(([h] + rest)[i]))
    {
      if i == 0 {
        assert ([h] + rest)[j] in rest;
      }
    }
  }

  /** In a sorted sequence nothing is below its head. */
  lemma HeadIsLeast(x: VersionDirectory, s: seq<VersionDirectory>)
    requires SortedByVersion(s) && |s| > 0 && !Less(Key(s[0]), Key(x))
    ensures forall e :: e in s ==> !Less(Key(e), Key(x))
  {
    forall e | e in s
      ensures !Less(Key(e), Key(x))
    {
      var j :| 0 <= j < |s| && s[j] == e;
      if j > 0 {
        NotLessTransitive(Key(x), Key(s[0]), Key(s[j]));
      }
    }
  }

  /** After inserting an entry above the head into the tail, nothing is below the
      head. */
  lemma TailAboveHead(x: VersionDirectory, s: seq<VersionDirectory>, rest: seq<VersionDirectory>)
    requires SortedByVersion(s) && |s| > 0 && Less(Key(s[0]), Key(x))
    requires multiset(rest) == multiset(s[1..]) + multiset{x}
    ensures forall e :: e in rest ==> !Less(Key(e), Key(s[0]))
  {
    forall e | e in rest
      ensures !Less(Key(e), Key(s[0]))
    {
      assert e in multiset(rest);
      if e == x {
        LessIrreflexive(Key(x));
        if Less(Key(x), Key(s[0])) {
          LessTransitive(Key(x), Key(s[0]), Key(x));
        }
      } else {
        assert e in multiset(s[1..]);
        var j :| 0 <= j < |s[1..]| && s[1..][j] == e;
        assert s[j + 1] == e;
      }
    }
  }

  function Insert(x: VersionDirectory, s: seq<VersionDirectory>): (r: seq<VersionDirectory>)
    requires SortedByVersion(s)
    ensures SortedByVersion(r)
    ensures multiset(r) == multiset(s) + multiset{x}
  {
    if |s| == 0 then [x]
    else if !Less(Key(s[0]), Key(x)) then
      HeadIsLeast(x, s);
      SortedCons(x, s);
      [x] + s
    else
      var rest := Insert(x, s[1..]);
      TailAboveHead(x, s, rest);
      SortedCons(s[0], rest);
      assert s == [s[0]] + s[1..];
      [s[0]] + rest
  }

  /** `usort($versions, version_compare)`: ascending order, same entries. */
  function SortByVersion(s: seq<VersionDirectory>): (r: seq<VersionDirectory>)
    ensures SortedByVersion(r)
    ensures multiset(r) == multiset(s)
  {
    if |s| == 0 then []
    else
      assert s == [s[0]] + s[1..];
      Insert(s[0], SortByVersion(s[1..]))
  }
}

=== FILE: wrappers.dfy ===
/** Failure-compatible wrappers used throughout the model: `Option` for PHP's
    `null`/"missing" values and `Result` for operations that throw. */
module Wrappers {

  datatype Option<+T> = None | Some(value: T) {
    function GetOr(default: T): T {
      match this
      case Some(v) => v
      case None => default
    }
  }

  /** PHP exceptions raised by the modelled code. `ReflectionFailure` is a
      `ReflectionException`; `EngineError` stands for an `Error` the PHP engine
      throws itself (a `TypeError`, a call to an undefined method or on `null`). */
  datatype Error =
    | InvalidArgument(message: string)
    | LogicError(message: string)
    | ReflectionFailure(message: string)
    | EngineError(message: string)

  datatype Result<+T> = Success(value: T) | Failure(error: Error) {
    predicate IsFailure() {
      Failure?
    }

    function PropagateFailure<U>(): Result<U>
      requires Failure?
    {
      Failure(error)
    }

    function Extract(): T
      requires Success?
    {
      value
    }
  }
}
